=== FILE: README.md ===
# Church bulletin editor — a Dafny model of its document core

The application is a one-page editor for a weekly church bulletin. The whole
bulletin is one in-memory document (`BulletinData`) with eight sections:
header, introduction, order of worship, hymn, news, finance, missionaries and
prayer/sermon schedule. Edit mode changes it one form field at a time. A share
button turns it into a URL token. The page opens with that token as its
`data` value and shows the document in display mode. The link it writes puts
the token in unescaped, and the page reads a `+` there as a space, so a token
that holds `+` does not come back (see "Findings"). A button toggles between edit and display mode.

This project models that core:

- **The document** (`types.ts`). The module `Bulletin` has one datatype per
  interface. It has a strict decoder from JavaScript values and an encoder
  that writes the keys in literal order. The module `JsonValue` models
  JavaScript values as `null`, booleans, strings, arrays and objects. An
  object is an ordered list of own properties. `Put` has the semantics of
  spread and assignment: it replaces a key in place or appends a new key.
- **The spread-based updaters** (`components/EditMode.tsx`, module
  `EditMode`). These are `handleTextChange` with its dotted `name.split('.')`,
  `handleArrayChange` with `updateArray` and its four places to find a list,
  and the hymn image updater. They work on untyped values, as the source
  does, including list entries that are strings or arrays, which a spread
  turns into index-named properties. The module `Fields` enumerates every
  form field the editor renders. It proves that each edit, on a
  well-shaped document, is the intended typed update of one field.
- **The deep-copy updaters** (`index.tsx`, module `DeepCopyEdits`). These
  copy the document with `JSON.parse(JSON.stringify(prev))` and then assign
  into the copy. The copy is modelled through a concrete JSON printer and
  parser (module `JsonText`). The model proves that they return the same
  document as the spread versions, although the list update checks `items`,
  `reports` and `weekly` independently rather than with `else if`.
- **The share codec** (`App.tsx`, `index.tsx`, module `ShareCodec`). The
  encoder is `btoa(encodeURIComponent(JSON.stringify(d)))`. The decoder is
  `JSON.parse(decodeURIComponent(atob(t)))`. They are modelled by concrete
  UTF-8, percent-encoding and base64 functions (modules `Utf8`, `Hex`,
  `UriComponent` and `Base64`). The model proves the round trip and the
  exceptions each step raises.
- **The application state** (module `App`). This covers the default
  document, the initial flags and the startup effect that reads the `data`
  parameter. It also covers the share handler and its timed copy message,
  and the mode toggle.

`index.tsx` repeats the default document of `App.tsx` line for line, and its
application component behaves the same way. Both are modelled by the one
module `App`.

The model follows the code, which:

- does not check the shape of the value the startup decoder parses. Any JSON
  text without numbers or lone-surrogate escapes becomes the document
  (`App.StartupUnchecked`).
- leaves the default document in place after a failed decode, but keeps the
  parameter in the address bar.
- returns the document unchanged, with no error, from a list edit on a
  section without a list (`Fields.NoListSection`).

## Model

| member | source | states |
|---|---|---|
| Bulletin.DecodeWorshipOrderItem | types.ts:2-7 | a decoded worship entry has the required `item` key; each optional field is `None` exactly when its key is absent, so absent differs from `""` |
| Bulletin.WorshipOrderItemMembers | types.ts:2-7 | an object decodes to a worship entry iff its keys are distinct and among the four names, `item` is a string and each optional key is absent or a string |
| Bulletin.EncodeWorshipOrderItem | types.ts:2-7 | encoding a worship entry decodes back to the same entry |
| Bulletin.OptionalText | types.ts:4-6 | an optional text field reads as "absent" exactly when the key is missing, and as text exactly when the value is a string |
| Bulletin.NullableText | types.ts:43 | `musicSheet` reads as "no image" exactly for `null`, and as an image exactly for a string |
| Bulletin.HymnMembers | types.ts:41-44 | an object is a hymn iff its keys are among `title` and `musicSheet`, the title is a string and the sheet is `null` or a string |
| Bulletin.FinanceReportItemMembers | types.ts:14-17 | a report line is exactly an object whose `item` and `amount` are strings; the amount is text, never a number |
| Bulletin.FinanceMembers | types.ts:49-56 | a finance section holds a list of report lines and a single account record |
| Bulletin.DecodeList | types.ts:40 | a list decodes iff every element decodes, to a list of the same length, element by element |
| Bulletin.DecodeEncodeList | types.ts:40 | encoding a list element-wise decodes back to the same list |
| Bulletin.DocumentMembers | types.ts:30-68 | an object is a bulletin iff its keys are distinct and among the eight section names and each section decodes |
| Bulletin.Encode | types.ts:30-68 | encoding a bulletin decodes back to the same bulletin |
| Bulletin.WellShapedWellFormed | types.ts:30-68 | every value that decodes to a bulletin is well-formed JSON, with distinct keys in every object |
| Fields.AtMostOneList | types.ts:30-68 | in a well-shaped document, no section holds more than one of the list keys `items`, `reports`, `weekly` |
| Fields.MainListKeys | types.ts:31-35 | the header holds none of the list keys, so the list search finds no list |
| Fields.NewsListKeys | types.ts:45-48 | the news section holds at most one list key |
| EditMode.Split | components/EditMode.tsx:7 | splitting a field name gives at least one piece, and no piece contains a dot |
| EditMode.JoinSplit | components/EditMode.tsx:7 | joining the pieces of a name with dots gives back the name |
| EditMode.SplitJoin | components/EditMode.tsx:7 | splitting dot-joined, dot-free pieces gives back the pieces |
| EditMode.TextChangeTwo | components/EditMode.tsx:20-24 | a two-part name sets `prev[section][field]` to the text through two spreads |
| EditMode.TextChangeThree | components/EditMode.tsx:9-19 | a three-part name sets `prev[section][field][subfield]` through three spreads |
| EditMode.TextChangeWrites | components/EditMode.tsx:5-26 | after a text change the named two- or three-part path holds the new text |
| EditMode.TextChangeFrame | components/EditMode.tsx:5-26 | a text change leaves every other section, every other field of the section and every other subfield unchanged |
| EditMode.UpdateArray | components/EditMode.tsx:32-36 | the list keeps its length; every other entry is unchanged; the edited entry is an object holding the field and, in order, every other property the spread of the old entry copies |
| EditMode.UpdateArrayObject | components/EditMode.tsx:34 | an entry that is an object keeps all its properties except the edited field |
| EditMode.UpdateArrayString | components/EditMode.tsx:34 | an entry that is a string becomes an object holding each character under its index |
| EditMode.UpdateArrayArray | components/EditMode.tsx:34 | an entry that is an array becomes an object holding each element under its index |
| EditMode.UpdateArrayStringExample | components/EditMode.tsx:34 | editing `item` of the entry `"ab"` gives `{0: "a", 1: "b", item: "x"}` |
| JsonValue.IndexMembersRead | components/EditMode.tsx:34 | the index properties a spread takes from a string or an array have distinct names, each reading back its own position |
| EditMode.FindList | components/EditMode.tsx:38-50 | the section is itself a list, or the first of `items`, `reports`, `weekly` that holds a list, or no list at all |
| EditMode.ArrayChange | components/EditMode.tsx:28-53 | a section with no list gives back the document unchanged |
| EditMode.ArrayChangeFrame | components/EditMode.tsx:28-53 | an array edit leaves every other section, and every other key of the edited section, unchanged |
| EditMode.ArrayChangeWrites | components/EditMode.tsx:28-53 | after an array edit the same list is found again, holding the updated entries |
| EditMode.MusicSheetIsTextChange | components/EditMode.tsx:55-66 | storing an image equals the text change of `hymn.musicSheet` to the data URL |
| EditMode.MusicSheetProps | components/EditMode.tsx:59-62 | storing an image sets `hymn.musicSheet` and changes no other key of the hymn or of the document |
| EditMode.MusicSheetSpread | components/EditMode.tsx:59-62 | for any document but `null`, the result holds the document's spread properties with `hymn` replaced, and the new hymn holds the old hymn's spread properties with `musicSheet` set; the image updater of index.tsx:294-297 is the same expression |
| EditMode.MusicSheetStringHymn | components/EditMode.tsx:61 | a `hymn` that is a string comes back as its characters under their index names, next to `musicSheet` |
| EditMode.MusicSheetArrayHymn | components/EditMode.tsx:61 | a `hymn` that is an array comes back as its elements under their index names, next to `musicSheet` |
| Fields.Path | components/EditMode.tsx:80-174 | each form name has two or three non-empty, dot-free parts starting with a section; only `finance.account.*` names have three |
| Fields.NamePath | components/EditMode.tsx:80-174 | splitting each form name gives its path, with three pieces exactly for the account fields |
| Fields.TextLeaf | components/EditMode.tsx:80-174 | in a well-shaped document every form name leads to a string leaf holding that field's text |
| Fields.SetText | components/EditMode.tsx:80-174 | setting a field changes that field's text and no other field, list or image |
| Fields.TextChangeTyped | components/EditMode.tsx:5-26 | on a well-shaped document a text change is defined and gives the document with only that field set |
| Fields.TextChangeAccountTyped | components/EditMode.tsx:142-144 | the three-part account names set exactly one field of the account record |
| Fields.SetEntry | components/EditMode.tsx:98-169 | setting a list entry keeps the list length, stores the text at the index and keeps the hymn and the missionaries and schedule titles |
| Fields.SetEntryFrame | components/EditMode.tsx:98-169 | setting a list entry changes no other entry of any list |
| Fields.SetEntryTexts | components/EditMode.tsx:98-169 | setting a list entry changes no text field |
| Fields.ArrayChangeTyped | components/EditMode.tsx:28-53 | on a well-shaped document every list edit the form issues is defined and sets exactly that entry's field |
| Fields.NoListSection | components/EditMode.tsx:38-51 | an array edit aimed at the header, introduction or hymn finds no list and returns the document unchanged |
| Fields.MusicSheetTyped | components/EditMode.tsx:55-66 | on a well-shaped document storing an image gives the document with only the hymn image set |
| JsonText.ParseStringify | index.tsx:254 | parsing the printed text of a well-formed value gives back the value |
| DeepCopyEdits.DeepCopyEqual | index.tsx:254 | the deep copy of a well-formed document equals it |
| DeepCopyEdits.Assign | index.tsx:256-258 | assigning a property succeeds exactly on an object, giving the spread-and-set object, and otherwise raises a TypeError |
| DeepCopyEdits.CopyTextChange | index.tsx:249-262 | the copy-and-assign text change succeeds exactly when the section and, with a subfield, its field are objects; a missing, `null`, string or boolean target raises a TypeError |
| DeepCopyEdits.CopyTextChangeSpread | index.tsx:249-262 | the copy-and-assign text change succeeds exactly when its targets are objects, and then the spread version is defined and gives the same document |
| DeepCopyEdits.CopyTextChangeWrites | index.tsx:256-258 | when the copy-and-assign text change succeeds, the named leaf holds the new text |
| DeepCopyEdits.CopyTextChangeTyped | index.tsx:249-262 | on a well-shaped document the copy-and-assign text change sets only the named field |
| DeepCopyEdits.UpdateLists | index.tsx:276-286 | the three independent list updates change no key other than `items`, `reports`, `weekly` |
| DeepCopyEdits.UpdateListsEvery | index.tsx:276-286 | every one of the three keys holding a list gets that list updated |
| DeepCopyEdits.CopyArrayChange | index.tsx:264-289 | the copy-and-assign list edit always returns an object |
| DeepCopyEdits.CopyArrayChangeSpread | index.tsx:264-289 | when a section holds at most one list key, the copy-and-assign list edit equals the spread version |
| DeepCopyEdits.CopyArrayChangeEveryList | index.tsx:277-285 | a section holding several lists gets every one updated, not only the first |
| DeepCopyEdits.CopyArrayChangeNoList | index.tsx:274-287 | a section with no list gives back an equal document |
| DeepCopyEdits.CopyArrayChangeTyped | index.tsx:264-289 | on a well-shaped document the copy-and-assign list edit equals the spread version and sets exactly that entry's field |
| DeepCopyEdits.CopyNoListSection | index.tsx:274-287 | a list edit aimed at the header, introduction or hymn gives back an equal document |
| Utf8.DecodeEncode | App.tsx:113 | decoding the UTF-8 bytes of a character gives the character |
| Utf8.EncodeDecode | App.tsx:99 | a byte sequence that decodes to a character is that character's encoding |
| UriComponent.Encode | App.tsx:113 | percent-encoding gives ASCII made only of unreserved characters and `%` escapes |
| UriComponent.DecodeEncode | App.tsx:99 | percent-decoding the encoding of a string gives the string |
| Base64.Btoa | App.tsx:113 | `btoa` fails exactly on a character above U+00FF, with InvalidCharacterError; its output is base64 characters in groups of four |
| Base64.AtobBtoa | App.tsx:99 | `atob` of `btoa` of a Latin-1 string gives the string |
| Base64.AtobIgnoresWhitespace | App.tsx:99 | `atob` ignores ASCII whitespace in its input |
| ShareCodec.Encode | App.tsx:112-113 | encoding never fails and gives base64 text |
| ShareCodec.Decode | App.tsx:99-100 | a bad base64 token raises InvalidCharacterError; a bad percent escape raises URIError |
| ShareCodec.DecodeEncode | App.tsx:97-113 | decoding the token of a well-formed document gives the document |
| ShareCodec.EncodeInjective | App.tsx:112-113 | different well-formed documents get different tokens |
| ShareCodec.EncodeNonEmpty | App.tsx:97 | a token is never empty, so a shared link always passes the `if (data)` test |
| ShareCodec.DecodeEmpty | App.tsx:97-100 | the empty token does not decode |
| App.Initial | App.tsx:8-91 | the start state holds the default bulletin, in edit mode, with no copy message |
| App.InitialSheet | App.tsx:32 | the default hymn has no image and its `musicSheet` is `null` |
| App.InitialFirstEntry | App.tsx:19 | the first worship entry has only its `item`; its optional keys are absent |
| App.Startup | App.tsx:93-108 | no parameter, an empty one or a failing decode leaves the state; a non-empty token that decodes installs the decoded value with edit mode off |
| App.StartupShared | App.tsx:97-103 | the token of a well-formed document, given as the `data` value, installs exactly that document in display mode |
| App.StartupUnchecked | App.tsx:99-102 | a token whose JSON is `null` is accepted as the document, although it is not a bulletin |
| App.StartupMalformed | App.tsx:104-106 | the token `%` does not decode and leaves the state unchanged |
| App.ShareLink | App.tsx:114 | the link is origin and path followed by `?data=` and a token that decodes to the document |
| App.Share | App.tsx:116-121 | sharing leaves the document and mode and shows the copy message only when the copy succeeded |
| App.HideCopyMessage | App.tsx:119-121 | the timer hides the message and leaves the document and mode |
| App.ShareThenHide | App.tsx:118-121 | a successful share followed by the timeout returns the state with the message hidden |
| App.QueryValue | App.tsx:95 | the page reads the query value with `+` as a space; a value without `%` is read with each `+` replaced, and one without `+` is read as `decodeURIComponent` reads it |
| App.QueryValueOfEncoded | App.tsx:95 | a percent-encoded value is read back unchanged |
| App.QueryValueSample | App.tsx:95 | the token `JTIyYWJ+YyUyMg==` is read as `JTIyYWJ YyUyMg==` |
| ShareCodec.IsSample | App.tsx:114 | the sample text is exactly `ab~c` |
| ShareCodec.EncodePlainString | App.tsx:112-113 | a text that neither JSON nor percent-encoding escapes reaches `btoa` as `%22` + text + `%22` |
| ShareCodec.QuotedSample | App.tsx:112 | the JSON and percent-encoded form of `ab~c` is `%22ab~c%22`, character by character |
| ShareCodec.EncodeSample | App.tsx:112-113 | the token of the text `ab~c` is `JTIyYWJ+YyUyMg==`, which holds a `+` |
| ShareCodec.DecodeSampleSpaced | App.tsx:99-100 | that token with its `+` read as a space fails with InvalidCharacterError |
| Base64.SextetsTilde | App.tsx:113 | the base64 of the octets of `%22ab~c%22` is `JTIyYWJ+YyUyMg` with padding `==` |
| Base64.BtoaTilde | App.tsx:113 | `btoa` of `%22ab~c%22` is `JTIyYWJ+YyUyMg==` |
| Base64.AtobStrandedPadding | App.tsx:99 | input whose whitespace-free length leaves 3 modulo 4 and ends in `=` fails with InvalidCharacterError |
| Base64.RemoveWhitespaceTilde | App.tsx:99 | `atob` drops the space of `JTIyYWJ YyUyMg==`, leaving 15 characters |
| App.SharedLinkLost | App.tsx:94-114 | the written link of the document `"ab~c"` holds the token with `+`; the page reads it as a space, the decode fails and the state stays, while the token itself opens the document |
| App.EscapedShareLink | App.tsx:114 | the link with the token percent-encoded is read back as exactly the token |
| App.OpenEscapedLink | App.tsx:94-103 | opening the percent-encoded link of a well-formed document installs that document in display mode |
| App.Toggle | App.tsx:145 | the toggle flips the mode and leaves the document and message |
| App.ToggleTwice | App.tsx:145 | toggling twice gives back the state |

## Left out

- Rendering: the JSX of both modes, `components/ViewMode.tsx`, the icons and styling. The project models the document and its updates, not the view.
- The image reader: `FileReader.readAsDataURL` is a browser call. The data URL it produces is the `url` parameter of `EditMode.SetMusicSheet`. Whether a file was chosen is left to the caller.
- The address bar: `URLSearchParams`, `window.location` and `history.replaceState` are browser state. The startup token is the `data` parameter of `App.Startup`, and the origin and path are parameters of `App.ShareLink`. The query read is modelled by `App.QueryValue` on the text after `?data=`: `+` becomes a space, then percent escapes are decoded.
- The clipboard, `setTimeout`, `alert` and `console.error`: the clipboard outcome is the `copied` flag of `App.Share`. The 3000 ms timer is the constant `App.CopyMessageMillis` together with `App.HideCopyMessage`.
- React itself: `useState`, `useEffect`, `StrictMode` and `createRoot`. The state is the record `App.AppState`, and each setter call is a function from state to state.
- `vite.config.ts`: build configuration only.
- EditMode.TextChange: it requires a document object and a name of at least two pieces. The section may be missing or `null`, which spreads to nothing, but it may not be a string or an array. With a subfield, the section must also be present and not `null`, and the field (which may be missing or `null`) may not be a string or an array. Outside these conditions the source throws a TypeError (reading a property of `null` or `undefined`) or spreads the index-named properties of a string or an array into the section; the updater's model does not follow those cases. The form only issues names whose targets satisfy them (`Fields.TextChangeTyped`).
- App.QueryValue: a malformed percent escape, which the browser's query parser keeps as text, gives `None`. Splitting the query at `&` and other parameters are not modelled; the value is the whole text after `?data=`.
- EditMode.ArrayChange: it requires the index to be inside the list. The source's write past the end, which leaves holes, is not modelled. The form only edits entries it has rendered.
- DeepCopyEdits.CopyArrayChange: it requires, like `EditMode.ArrayChange`, the index to be inside every list it edits, for the same reason.
- JsonValue.Spread: a string spreads into one property per Unicode scalar value, while JavaScript makes one per UTF-16 code unit. The two differ only for characters above U+FFFF, which a Dafny `char` holds whole.
- App.Startup: a token whose JSON text holds a number (`42`, `{"a":1}`) or a lone-surrogate escape (`"\uD800"`) is a SyntaxError for the model's parser. So the model keeps the state, while the source stores the parsed value and leaves edit mode. The share handler never produces such a token from a bulletin, which holds only strings and `null`.
- DeepCopyEdits.Assign: it requires the target not to be an array. Assigning a named property of an array is not modelled.
- DeepCopyEdits.CopyTextChange: it requires a document object, a name of at least two pieces, and that the section and, with a subfield, its field are not arrays, for the reason given for `DeepCopyEdits.Assign`. A document that is not an object is not modelled for this updater: reading a section of a string by an integer-like name would need index reads, which the model's property read does not make.
- EditMode.SetMusicSheet: it requires the document not to be `null`. On `null` the source throws a TypeError when it reads `prev.hymn`, and the state update is abandoned.
- Property reads that fall through to `Object.prototype`, such as a section named `toString`, are not modelled. Reads see own properties only.
- JSON numbers, and strings holding lone surrogates: the bulletin holds only strings and `null`, and a Dafny `char` is a Unicode scalar value.
- Integer-like property names, which JavaScript enumerates first in numeric order: objects keep insertion order in the model. The index properties a spread takes from a string or an array already come first and in order. The bulletin's own keys and the form's field names are never integer-like.
- EditMode.Split: it is proved for every name. The updaters are modelled only for names of two or three pieces, which are the only ones the form uses.

## Findings

| source | as written | input that shows it | evidently intended | confidence | as-written member | corrected member |
|---|---|---|---|---|---|---|
| App.tsx:114 | the token is put into the link without percent-encoding | the document `"ab~c"`, whose token `JTIyYWJ+YyUyMg==` the page reads back as `JTIyYWJ YyUyMg==`, which `atob` rejects, so the editor keeps its state | the link carries `encodeURIComponent` of the token, which the page reads back as exactly the token | high, not executed | App.SharedLinkLost | App.EscapedShareLink (with App.OpenEscapedLink) |

=== FILE: app.dfy ===
/** The application component: the document it holds, whether the form or
    the read-only view is shown, and the notice shown after a share link was
    copied; the startup effect that opens a shared document, the share
    button and the mode button. The address bar, the clipboard, the timer
    and the console are outside the model: the value of the `data` query
    parameter and whether the clipboard write succeeded are parameters. */
module App {
  import opened Wrappers
  import opened JsonValue
  import opened Bulletin
  import ShareCodec
  import JsonText
  import UriComponent
  import Base64
  import opened EditMode
  import opened Fields

  // The bulletin the editor opens with when no link is given, section by
  // section.

  const InitialMain: Main :=
    Main("제26-46호", "2025.11.16", "10:00AM")

  const InitialAbout: About :=
    About(
      "라온은",
      "'즐거운'이라는 뜻을 가진 순 우리말 입니다.\n곧 “함께 즐거운 삶을 지향하는 교회공동체”를 의미하는 것입니다.\n\n이것은,\n첫째, 하나님과 동행하며 즐거움을 누리는 교회\n둘째, 성도가 동행하며 즐거움을 누리는 교회\n셋째, 세상에서 소금과 빛의 역할을 세상과 동행하며 즐거움을 누리는 교회라는 의미를 담고 있으며,\n\n우리교회의 가장 기본적인 바탕이 되는 신조이자, 마지막까지 지켜내야 할 사명입니다.")

  const InitialWorshipOrder: seq<WorshipOrderItem> :=
    [
      WorshipOrderItem("주기도문", None, None, None),
      WorshipOrderItem("경배와 찬양", Some("참회와 중보기도"), Some("이동현"), None),
      WorshipOrderItem("예배를 위한 기도", None, Some("박영애"), None),
      WorshipOrderItem("성경동화 이야기", None, Some("이주예, 오승하"), None),
      WorshipOrderItem("다음세대말씀", Some("데살로니가전서 5장 16-18"), Some("박영애"), Some("감사의 조건?!")),
      WorshipOrderItem("말씀선포", Some("로마서 13장 1-7절"), Some("이광복"), Some("권세와 사랑 사이에서")),
      WorshipOrderItem("신앙고백", None, None, None),
      WorshipOrderItem("결단찬송", Some("우린 어둠이었으나"), None, None),
      WorshipOrderItem("헌금기도 및 축도", None, Some("이광복 목사"), None),
      WorshipOrderItem("성도의 교제", None, None, None)
    ]

  const InitialHymn: Hymn :=
    Hymn("우린 어둠이었으나", None)

  const InitialNews: News :=
    News("*기도회 요일 : 금 7시", [
      NewsItem("11월 11일(화)", "부천방회 소사 감찰모임"),
      NewsItem("11월 30일(주일)", "추수감사주일"),
      NewsItem("12월 8일(월)", "부천방회 교역자회"),
      NewsItem("12월 25일(목)", "성탄절"),
      NewsItem("12월 31일(수)", "송구영신예배"),
      NewsItem("1월 4일(주일)", "사무총회"),
      NewsItem("3시 30분", "부천방회 신년연합성회")
    ])

  const InitialFinance: Finance :=
    Finance([
      FinanceReportItem("씨앗헌금잔액", "4,201,023"),
      FinanceReportItem("선교와 섬김", "15,399,400"),
      FinanceReportItem("라온트리 지원금", "13,200,000"),
      FinanceReportItem("일반재정 수입", "8,466,851"),
      FinanceReportItem("일반재정 지출", "9,136,088"),
      FinanceReportItem("일반재정 잔액", "-669,237")
    ], Account("국민은행", "238501-04-288321", "기독교대한성결교회라온동행교회"))

  const InitialMissionaries: Missionaries :=
    Missionaries("선교사를 위한 중보", "“가정사역을 위해”", [
      MissionaryItem("미얀마", "김병훈, 이정아"),
      MissionaryItem("헝가리", "한이삭, 변찬은"),
      MissionaryItem("동티모르", "손현성, 이경호"),
      MissionaryItem("몽 골", "이정형, 김소연"),
      MissionaryItem("중 국", "오소원, 유수연"),
      MissionaryItem("방글라데시", "전민수, 이은영"),
      MissionaryItem("라오스", "김종한, 김윤숙")
    ])

  const InitialSchedule: Schedule :=
    Schedule("설교 및 기도 순서", [
      WeeklyScheduleItem("11월 16일", "박영애", "박영애"),
      WeeklyScheduleItem("11월 23일", "윤혜영", "안현진"),
      WeeklyScheduleItem("11월 30일", "지하연", "안지선"),
      WeeklyScheduleItem("12월 7일", "김준호", "이광진")
    ],
      "기도순서 : 17명(나이순)\n홍윤희, 박상민, 정미경, 오상석, 강윤정, 최동호, 이동현, 임성호, 이광진, 안지선, 안현진, 박영애, 윤혜영, 지하연, 김준호, 박정탁, 오승현",
      "설교순서 : 12명(나이역순)\n박정탁, 김준호, 지하연, 윤혜영, 박영애, 안현진, 안지선, 이광진, 최동호, 강윤정, 오상석, 정미경")

  const InitialBulletin: BulletinData :=
    BulletinData(InitialMain, InitialAbout, InitialWorshipOrder, InitialHymn,
                 InitialNews, InitialFinance, InitialMissionaries, InitialSchedule)

  /** The component's state. The document is whatever value was last
      stored, which need not have the bulletin's shape. */
  datatype AppState = AppState(doc: Json, isEditing: bool, showCopyMessage: bool)

  /** The first render: the initial bulletin, in the form, with no notice. */
  function Initial(): (s: AppState)
    ensures Decode(s.doc) == Some(InitialBulletin)
    ensures s.isEditing && !s.showCopyMessage
  {
    AppState(Encode(InitialBulletin), true, false)
  }

  /** The initial document stores the hymn's missing sheet as `null`. */
  lemma InitialSheet()
    ensures InitialHymn.musicSheet.None?
    ensures Lookup(Initial().doc, ["hymn", "musicSheet"]) == Some(JNull)
  {
    EncodedSheet(InitialBulletin);
  }

  /** The first worship entry has no optional properties, and its stored
      object leaves them out rather than holding empty text. */
  lemma InitialFirstEntry()
    ensures InitialWorshipOrder[0] == WorshipOrderItem("주기도문", None, None, None)
    ensures Prop(Some(EncodeWorshipOrderItem(InitialWorshipOrder[0])), "subitem").None?
  {
    AbsentOptionals("주기도문");
  }

  /** An entry without optional properties is stored as `{item}` alone. */
  lemma AbsentOptionals(item: string)
    ensures EncodeWorshipOrderItem(WorshipOrderItem(item, None, None, None)) == JObj([Member("item", JStr(item))])
  {
  }

  /** A document without a hymn sheet stores `null` under
      `hymn.musicSheet`. */
  lemma EncodedSheet(d: BulletinData)
    requires d.hymn.musicSheet.None?
    ensures Lookup(Encode(d), ["hymn", "musicSheet"]) == Some(JNull)
  {
    var j := Encode(d);
    HymnOf(j.members, d);
    NullSheet(Section(j, "hymn"), d.hymn);
    LookupTwo(j, "hymn", "musicSheet");
  }

  /** A hymn without a sheet holds `null` under `musicSheet`. */
  lemma NullSheet(o: Option<Json>, h: Hymn)
    requires DecodeHymn(o) == Some(h) && h.musicSheet.None?
    ensures Prop(o, "musicSheet") == Some(JNull)
  {
    HymnMembers(o.value.members, h);
  }

  // ---------------------------------------------------------------------
  // Opening a shared document

  /** The startup effect, given what `URLSearchParams` returns for `data`
      (`None` when there is no such parameter). Only a non-empty value is
      looked at. When decoding it throws, the error is logged and nothing
      changes; otherwise the parsed value becomes the document, without any
      check of its shape, and the read-only view is shown. */
  function Startup(s: AppState, data: Option<string>): (r: AppState)
    ensures r.showCopyMessage == s.showCopyMessage
    ensures data.None? || data.value == "" ==> r == s
    ensures data.Some? && ShareCodec.Decode(data.value).Failure? ==> r == s
    ensures r != s ==> !r.isEditing && data.Some? && ShareCodec.Decode(data.value) == Success(r.doc)
    ensures data.Some? && data.value != "" && ShareCodec.Decode(data.value).Success?
            ==> r == s.(doc := ShareCodec.Decode(data.value).value, isEditing := false)
  {
    if data.None? || data.value == "" then s
    else
      match ShareCodec.Decode(data.value)
      case Success(parsed) => s.(doc := parsed, isEditing := false)
      case Failure(_) => s
  }

  /** A document's token, given as the `data` value, opens exactly that
      document, read-only, whatever state the editor was in. */
  lemma StartupShared(s: AppState, d: Json)
    requires WellFormed(d)
    ensures Startup(s, Some(ShareCodec.Encode(d).value)) == s.(doc := d, isEditing := false)
  {
    ShareCodec.DecodeEncode(d);
    ShareCodec.EncodeNonEmpty(d);
  }

  /** The parsed value is not checked: a link made from `null` replaces
      the bulletin with `null`. */
  lemma StartupUnchecked(s: AppState)
    ensures var r := Startup(s, Some(ShareCodec.Encode(JNull).value));
            r.doc == JNull && !WellShaped(r.doc) && !r.isEditing
  {
    StartupShared(s, JNull);
  }

  /** A value that is not base64 is ignored: the state is kept. */
  lemma StartupMalformed(s: AppState)
    ensures ShareCodec.Decode("%").Failure?
    ensures Startup(s, Some("%")) == s
  {
    assert Base64.RemoveWhitespace("%") == "%";
    assert Base64.StripPadding("%") == "%";
  }

  // ---------------------------------------------------------------------
  // Sharing

  /** The link written to the clipboard: the page's own address with the
      document's token as the `data` parameter, written without further
      escaping. */
  function ShareLink(doc: Json, origin: string, pathname: string): (url: string)
    ensures var prefix := origin + pathname + "?data=";
            && |prefix| <= |url| && url[..|prefix|] == prefix
            && (WellFormed(doc) ==> ShareCodec.Decode(url[|prefix|..]) == Success(doc))
  {
    var prefix := origin + pathname + "?data=";
    var token := ShareCodec.Encode(doc).value;
    if WellFormed(doc) then ShareCodec.DecodeEncode(doc); prefix + token
    else prefix + token
  }

  /** `+` read as a space, as the form-urlencoded query parser does. */
  function PlusAsSpace(raw: string): (t: string)
    ensures |t| == |raw|
    ensures forall i :: 0 <= i < |raw| ==> t[i] == if raw[i] == '+' then ' ' else raw[i]
  {
    if |raw| == 0 then [] else PlusAsSpace(raw[..|raw| - 1]) + [if raw[|raw| - 1] == '+' then ' ' else raw[|raw| - 1]]
  }

  /** What `URLSearchParams.get` returns for a parameter whose text in the
      address is `raw`: every `+` stands for a space, and `%XX` escapes are
      decoded as UTF-8 (the application/x-www-form-urlencoded parser of the
      WHATWG URL standard). `None` marks text with a malformed escape, which
      the browser repairs instead. */
  function QueryValue(raw: string): (r: Option<string>)
    ensures (forall i :: 0 <= i < |raw| ==> raw[i] != '%') ==> r == Some(PlusAsSpace(raw))
    ensures (forall i :: 0 <= i < |raw| ==> raw[i] != '+') && r.Some? ==> UriComponent.Decode(raw) == Success(r.value)
  {
    PlusAsSpaceCases(raw);
    match UriComponent.Decode(PlusAsSpace(raw))
    case Success(v) => Some(v)
    case Failure(_) => None
  }

  lemma PlusAsSpaceCases(raw: string)
    ensures (forall i :: 0 <= i < |raw| ==> raw[i] != '%') ==> UriComponent.Decode(PlusAsSpace(raw)) == Success(PlusAsSpace(raw))
    ensures (forall i :: 0 <= i < |raw| ==> raw[i] != '+') ==> PlusAsSpace(raw) == raw
  {
    if forall i :: 0 <= i < |raw| ==> raw[i] != '%' {
      UriComponent.DecodeUnescaped(PlusAsSpace(raw));
    }
  }

  /** Text percent-encoded for a URL reads back as itself: its `+` were
      written as `%2B`. */
  lemma QueryValueOfEncoded(t: string)
    ensures QueryValue(UriComponent.Encode(t)) == Some(t)
  {
    var e := UriComponent.Encode(t);
    assert forall i :: 0 <= i < |e| ==> e[i] != '+';
    PlusAsSpaceCases(e);
    UriComponent.DecodeEncode(t);
  }

  /** The link as it should be written: the token percent-encoded, so that
      the `data` value the page reads back is the token itself. */
  function EscapedShareLink(doc: Json, origin: string, pathname: string): (url: string)
    ensures var prefix := origin + pathname + "?data=";
            && |prefix| <= |url| && url[..|prefix|] == prefix
            && QueryValue(url[|prefix|..]) == Some(ShareCodec.Encode(doc).value)
  {
    var prefix := origin + pathname + "?data=";
    var escaped := UriComponent.Encode(ShareCodec.Encode(doc).value);
    QueryValueOfEncoded(ShareCodec.Encode(doc).value);
    assert (prefix + escaped)[|prefix|..] == escaped;
    prefix + escaped
  }

  /** Opening the escaped link of a document shows exactly that document,
      read-only, whatever state the editor was in. */
  lemma OpenEscapedLink(s: AppState, d: Json, origin: string, pathname: string)
    requires WellFormed(d)
    ensures var url := EscapedShareLink(d, origin, pathname);
            var prefix := origin + pathname + "?data=";
            Startup(s, QueryValue(url[|prefix|..])) == s.(doc := d, isEditing := false)
  {
    StartupShared(s, d);
  }

  /** The page reads the `+` of the token of `ab~c` as a space. */
  lemma QueryValueSample(token: string)
    requires token == "JTIyYWJ+YyUyMg=="
    ensures QueryValue(token) == Some("JTIyYWJ YyUyMg==")
  {
    assert forall i :: 0 <= i < |token| ==> token[i] != '%';
    assert PlusAsSpace(token) == "JTIyYWJ YyUyMg==";
  }

  /** The link `handleShare` writes loses its document on the way back:
      the token of the text `ab~c` holds a `+`, the page reads it as a
      space, the decode fails and the editor keeps its state, although the
      token itself opens the document. */
  lemma SharedLinkLost(s: AppState, t: string, origin: string, pathname: string)
    requires ShareCodec.IsSample(t)
    ensures ShareLink(JStr(t), origin, pathname) == origin + pathname + "?data=" + "JTIyYWJ+YyUyMg=="
    ensures QueryValue("JTIyYWJ+YyUyMg==") == Some("JTIyYWJ YyUyMg==")
    ensures Startup(s, QueryValue("JTIyYWJ+YyUyMg==")) == s
    ensures Startup(s, Some("JTIyYWJ+YyUyMg==")) == s.(doc := JStr(t), isEditing := false)
  {
    var token := "JTIyYWJ+YyUyMg==";
    var spaced := "JTIyYWJ YyUyMg==";
    assert ShareCodec.Encode(JStr(t)) == Success(token) by {
      ShareCodec.EncodeSample(t);
    }
    QueryValueSample(token);
    assert ShareCodec.Decode(spaced).Failure? by {
      ShareCodec.DecodeSampleSpaced(spaced);
    }
    assert Startup(s, Some(token)) == s.(doc := JStr(t), isEditing := false) by {
      assert WellFormed(JStr(t));
      StartupShared(s, JStr(t));
    }
  }

  /** `handleShare` once the clipboard write has settled; `copied` tells
      whether it succeeded. On success the notice is shown; on failure an
      alert is shown and the state is kept. The token itself cannot fail to
      be made. */
  function Share(s: AppState, copied: bool): (r: AppState)
    ensures r.doc == s.doc && r.isEditing == s.isEditing
    ensures r.showCopyMessage <==> copied || s.showCopyMessage
  {
    if copied then s.(showCopyMessage := true) else s
  }

  /** How long the notice stays up, in milliseconds. */
  const CopyMessageMillis: nat := 3000

  /** The timer set after a successful copy hides the notice. */
  function HideCopyMessage(s: AppState): (r: AppState)
    ensures r.doc == s.doc && r.isEditing == s.isEditing && !r.showCopyMessage
  {
    s.(showCopyMessage := false)
  }

  /** A successful share followed by its timer leaves the state as it was,
      with no notice. */
  lemma ShareThenHide(s: AppState)
    ensures HideCopyMessage(Share(s, true)) == s.(showCopyMessage := false)
    ensures !s.showCopyMessage ==> HideCopyMessage(Share(s, true)) == s
  {
  }

  // ---------------------------------------------------------------------
  // The mode button

  /** `setIsEditing(!isEditing)` */
  function Toggle(s: AppState): (r: AppState)
    ensures r.isEditing == !s.isEditing
    ensures r.doc == s.doc && r.showCopyMessage == s.showCopyMessage
  {
    s.(isEditing := !s.isEditing)
  }

  /** Pressing the button twice gives back the state. */
  lemma ToggleTwice(s: AppState)
    ensures Toggle(Toggle(s)) == s
  {
  }
}

=== FILE: base64.dfy ===
/** The browser's `btoa` and `atob`: base64 as in section 4 of RFC 4648,
    over strings whose characters stand for single octets (code points up to
    U+00FF). `atob` is the lenient "forgiving-base64 decode" of the WHATWG
    Infra standard: ASCII whitespace is ignored, padding is optional and the
    bits left over in a final partial group are dropped unchecked. */
module Base64 {
  import opened Wrappers
  import Utf8

  type byte = Utf8.byte

  /** The 64 characters of the base64 alphabet (table 1 of RFC 4648). */
  predicate IsBase64Char(c: char)
  {
    'A' <= c <= 'Z' || 'a' <= c <= 'z' || '0' <= c <= '9' || c == '+' || c == '/'
  }

  predicate AllBase64(t: string)
  {
    forall i :: 0 <= i < |t| ==> IsBase64Char(t[i])
  }

  /** The six-bit value a character of the alphabet stands for. */
  function ValueOf(c: char): (r: Option<int>)
    ensures r.Some? <==> IsBase64Char(c)
    ensures r.Some? ==> 0 <= r.value < 64
  {
    if 'A' <= c <= 'Z' then Some(c as int - 'A' as int)
    else if 'a' <= c <= 'z' then Some(c as int - 'a' as int + 26)
    else if '0' <= c <= '9' then Some(c as int - '0' as int + 52)
    else if c == '+' then Some(62)
    else if c == '/' then Some(63)
    else None
  }

  /** The character of the alphabet standing for a six-bit value. */
  function Sextet(n: int): (c: char)
    requires 0 <= n < 64
    ensures IsBase64Char(c)
  {
    if n < 26 then ('A' as int + n) as char
    else if n < 52 then ('a' as int + n - 26) as char
    else if n < 62 then ('0' as int + n - 52) as char
    else if n == 62 then '+'
    else '/'
  }

  /** Each value's character reads back as that value... */
  lemma ValueOfSextet(n: int)
    requires 0 <= n < 64
    ensures ValueOf(Sextet(n)) == Some(n)
  {
  }

  /** ...and each character of the alphabet is the character of its value. */
  lemma SextetOfValue(c: char)
    requires IsBase64Char(c)
    ensures Sextet(ValueOf(c).value) == c
  {
  }

  /** The four characters of one 24-bit group, first octet in the high
      bits (section 4 of RFC 4648). */
  function Quantum(b0: byte, b1: byte, b2: byte): (q: string)
    ensures |q| == 4 && AllBase64(q)
  {
    var x0, x1, x2 := b0 as int, b1 as int, b2 as int;
    [Sextet(x0 / 4), Sextet(x0 % 4 * 16 + x1 / 16), Sextet(x1 % 16 * 4 + x2 / 64), Sextet(x2 % 64)]
  }

  /** The characters of the complete groups of three octets and of the final
      partial group, whose missing bits are zero; no padding. */
  function Sextets(bs: seq<byte>): (t: string)
    ensures |t| == UnpaddedLength(|bs|)
    ensures AllBase64(t)
  {
    if |bs| >= 3 then Quantum(bs[0], bs[1], bs[2]) + Sextets(bs[3..])
    else if |bs| == 2 then Quantum(bs[0], bs[1], 0)[..3]
    else if |bs| == 1 then Quantum(bs[0], 0, 0)[..2]
    else []
  }

  /** Four characters per complete group of three octets, and one more
      character than octets in a final partial group. */
  function UnpaddedLength(n: nat): nat
  {
    if n >= 3 then 4 + UnpaddedLength(n - 3) else if n == 0 then 0 else n + 1
  }

  /** `=` characters completing the last group to four characters. */
  function Padding(bs: seq<byte>): string
  {
    if |bs| % 3 == 1 then "==" else if |bs| % 3 == 2 then "=" else ""
  }

  lemma {:induction false} UnpaddedLengthOf(q: nat, r: nat)
    requires r < 3
    ensures UnpaddedLength(3 * q + r) == 4 * q + (if r == 0 then 0 else r + 1)
  {
    if q > 0 {
      UnpaddedLengthOf(q - 1, r);
    }
  }

  /** The unpadded text is never one character short of a whole number of
      groups, and the padding completes it. */
  lemma UnpaddedLengthMod(n: nat)
    ensures UnpaddedLength(n) % 4 == (if n % 3 == 0 then 0 else n % 3 + 1)
  {
    UnpaddedLengthOf(n / 3, n % 3);
  }

  /** The padded base64 text of an octet sequence. */
  function EncodeBytes(bs: seq<byte>): (t: string)
    ensures |t| % 4 == 0
    ensures forall i :: 0 <= i < |t| ==> IsBase64Char(t[i]) || t[i] == '='
  {
    UnpaddedLengthMod(|bs|);
    Sextets(bs) + Padding(bs)
  }

  /** A string every character of which stands for one octet. */
  predicate IsLatin1(s: string)
  {
    forall i :: 0 <= i < |s| ==> (s[i] as int) < 0x100
  }

  function Latin1Bytes(s: string): (bs: seq<byte>)
    requires IsLatin1(s)
    ensures |bs| == |s|
    ensures forall i :: 0 <= i < |s| ==> bs[i] as int == s[i] as int
  {
    seq(|s|, i requires 0 <= i < |s| => s[i] as int as byte)
  }

  function Latin1String(bs: seq<byte>): (s: string)
    ensures |s| == |bs|
    ensures IsLatin1(s)
    ensures forall i :: 0 <= i < |s| ==> s[i] as int == bs[i] as int
  {
    seq(|bs|, i requires 0 <= i < |bs| => bs[i] as int as char)
  }

  /** `btoa(s)`: throws InvalidCharacterError when a character does not fit
      in one octet; otherwise the padded base64 text of the octets. */
  function Btoa(s: string): (r: Result<string, Exception>)
    ensures r.Failure? <==> exists i :: 0 <= i < |s| && (s[i] as int) >= 0x100
    ensures r.Failure? ==> r.error == InvalidCharacterError
    ensures r.Success? ==> |r.value| % 4 == 0
    ensures r.Success? ==> forall i :: 0 <= i < |r.value| ==> IsBase64Char(r.value[i]) || r.value[i] == '='
  {
    if IsLatin1(s) then Success(EncodeBytes(Latin1Bytes(s)))
    else Failure(InvalidCharacterError)
  }

  /** Tab, line feed, form feed, carriage return and space. */
  predicate IsAsciiWhitespace(c: char)
  {
    c == '\t' || c == '\n' || c as int == 0x0C || c == '\r' || c == ' '
  }

  function RemoveWhitespace(s: string): (t: string)
    ensures |t| <= |s|
    ensures forall i :: 0 <= i < |t| ==> !IsAsciiWhitespace(t[i])
  {
    if |s| == 0 then []
    else if IsAsciiWhitespace(s[0]) then RemoveWhitespace(s[1..])
    else [s[0]] + RemoveWhitespace(s[1..])
  }

  /** When the length is a multiple of four, one or two final `=` go. */
  function StripPadding(s: string): (t: string)
    ensures |s| - 2 <= |t| <= |s|
  {
    if |s| % 4 == 0 && |s| >= 2 && s[|s| - 2] == '=' && s[|s| - 1] == '=' then s[..|s| - 2]
    else if |s| % 4 == 0 && |s| >= 1 && s[|s| - 1] == '=' then s[..|s| - 1]
    else s
  }

  /** The three octets of a 24-bit group given as four sextets. */
  function Octets(a: int, b: int, c: int, d: int): seq<byte>
    requires 0 <= a < 64 && 0 <= b < 64 && 0 <= c < 64 && 0 <= d < 64
  {
    [(a * 4 + b / 16) as byte, (b % 16 * 16 + c / 4) as byte, (c % 4 * 64 + d) as byte]
  }

  function Value(c: char): int
    requires IsBase64Char(c)
  {
    ValueOf(c).value
  }

  /** The octets of unpadded base64 text: four characters give three octets,
      a final three give two and a final two give one, the bits left over
      being dropped. A single final character gives nothing; `Atob` refuses
      such text before it gets here. */
  function DecodeSextets(t: string): (bs: seq<byte>)
    requires AllBase64(t)
  {
    if |t| >= 4 then Octets(Value(t[0]), Value(t[1]), Value(t[2]), Value(t[3])) + DecodeSextets(t[4..])
    else if |t| == 3 then Octets(Value(t[0]), Value(t[1]), Value(t[2]), 0)[..2]
    else if |t| == 2 then Octets(Value(t[0]), Value(t[1]), 0, 0)[..1]
    else []
  }

  /** `atob(s)`: the forgiving decode. After whitespace and padding are
      removed, a length of the form 4k + 1 or a character outside the
      alphabet throws InvalidCharacterError. */
  function Atob(s: string): (r: Result<string, Exception>)
    ensures r.Success? ==> IsLatin1(r.value)
    ensures r.Failure? ==> r.error == InvalidCharacterError
  {
    var t := StripPadding(RemoveWhitespace(s));
    if |t| % 4 == 1 || !AllBase64(t) then Failure(InvalidCharacterError)
    else Success(Latin1String(DecodeSextets(t)))
  }

  lemma Group3(b0: byte, b1: byte, b2: byte)
    ensures var a, b, c, d := b0 as int / 4, b0 as int % 4 * 16 + b1 as int / 16,
                              b1 as int % 16 * 4 + b2 as int / 64, b2 as int % 64;
            && a * 4 + b / 16 == b0 as int
            && b % 16 * 16 + c / 4 == b1 as int
            && c % 4 * 64 + d == b2 as int
  {
  }

  /** The sextets of a group read back as the values they were made from. */
  lemma ValuesOfQuantum(b0: byte, b1: byte, b2: byte)
    ensures var q, x0, x1, x2 := Quantum(b0, b1, b2), b0 as int, b1 as int, b2 as int;
            && Value(q[0]) == x0 / 4 && Value(q[1]) == x0 % 4 * 16 + x1 / 16
            && Value(q[2]) == x1 % 16 * 4 + x2 / 64 && Value(q[3]) == x2 % 64
  {
    var x0, x1, x2 := b0 as int, b1 as int, b2 as int;
    ValueOfSextet(x0 / 4);
    ValueOfSextet(x0 % 4 * 16 + x1 / 16);
    ValueOfSextet(x1 % 16 * 4 + x2 / 64);
    ValueOfSextet(x2 % 64);
  }

  /** The sextets of a group put back together give its octets. */
  lemma OctetsOfQuantum(b0: byte, b1: byte, b2: byte)
    ensures var q := Quantum(b0, b1, b2);
            Octets(Value(q[0]), Value(q[1]), Value(q[2]), Value(q[3])) == [b0, b1, b2]
  {
    ValuesOfQuantum(b0, b1, b2);
    Group3(b0, b1, b2);
  }

  lemma SextetsCons(bs: seq<byte>)
    requires |bs| >= 3
    ensures Sextets(bs) == Quantum(bs[0], bs[1], bs[2]) + Sextets(bs[3..])
  {
  }

  /** Decoding goes group by group. */
  lemma DecodeSextetsCons(q: string, rest: string)
    requires |q| == 4 && AllBase64(q) && AllBase64(rest)
    ensures AllBase64(q + rest)
    ensures DecodeSextets(q + rest)
            == Octets(Value(q[0]), Value(q[1]), Value(q[2]), Value(q[3])) + DecodeSextets(rest)
  {
    var t := q + rest;
    assert t[4..] == rest;
    assert t[0] == q[0] && t[1] == q[1] && t[2] == q[2] && t[3] == q[3];
  }

  /** The first group decodes on its own. */
  lemma {:induction false} DecodeSextetsStep(bs: seq<byte>)
    requires |bs| >= 3
    ensures DecodeSextets(Sextets(bs)) == [bs[0], bs[1], bs[2]] + DecodeSextets(Sextets(bs[3..]))
  {
    SextetsCons(bs);
    DecodeSextetsCons(Quantum(bs[0], bs[1], bs[2]), Sextets(bs[3..]));
    OctetsOfQuantum(bs[0], bs[1], bs[2]);
  }

  lemma DecodeSextetsTwo(b0: byte, b1: byte)
    ensures DecodeSextets(Sextets([b0, b1])) == [b0, b1]
  {
    var q := Quantum(b0, b1, 0);
    assert Sextets([b0, b1]) == q[..3];
    ValuesOfQuantum(b0, b1, 0);
    Group3(b0, b1, 0);
  }

  lemma DecodeSextetsOne(b0: byte)
    ensures DecodeSextets(Sextets([b0])) == [b0]
  {
    var q := Quantum(b0, 0, 0);
    assert Sextets([b0]) == q[..2];
    ValuesOfQuantum(b0, 0, 0);
    Group3(b0, 0, 0);
  }

  /** A final partial group decodes to its one or two octets. */
  lemma DecodeSextetsLast(bs: seq<byte>)
    requires |bs| < 3
    ensures DecodeSextets(Sextets(bs)) == bs
  {
    if |bs| == 2 {
      assert bs == [bs[0], bs[1]];
      DecodeSextetsTwo(bs[0], bs[1]);
    } else if |bs| == 1 {
      assert bs == [bs[0]];
      DecodeSextetsOne(bs[0]);
    }
  }

  lemma FirstThree(bs: seq<byte>)
    requires |bs| >= 3
    ensures bs == [bs[0], bs[1], bs[2]] + bs[3..]
  {
  }

  /** Decoding the unpadded characters of an octet sequence gives it back. */
  lemma {:induction false} DecodeSextetsOfSextets(bs: seq<byte>)
    ensures DecodeSextets(Sextets(bs)) == bs
  {
    if |bs| >= 3 {
      var rest := bs[3..];
      DecodeSextetsStep(bs);
      DecodeSextetsOfSextets(rest);
      FirstThree(bs);
    } else {
      DecodeSextetsLast(bs);
    }
  }

  lemma RemoveWhitespaceNone(s: string)
    requires forall i :: 0 <= i < |s| ==> !IsAsciiWhitespace(s[i])
    ensures RemoveWhitespace(s) == s
  {
    if |s| > 0 {
      RemoveWhitespaceNone(s[1..]);
      assert [s[0]] + s[1..] == s;
    }
  }

  lemma StripPaddingOfEncode(bs: seq<byte>)
    ensures StripPadding(EncodeBytes(bs)) == Sextets(bs)
  {
    var u, p := Sextets(bs), Padding(bs);
    var s := u + p;
    if |bs| % 3 == 1 {
      assert s[..|s| - 2] == u;
    } else if |bs| % 3 == 2 {
      assert s[|s| - 2] == u[|u| - 1];
      assert s[..|s| - 1] == u;
    } else {
      assert s == u;
    }
  }

  /** `atob` undoes `btoa` on every string it accepts. */
  lemma AtobBtoa(s: string)
    requires IsLatin1(s)
    ensures Atob(Btoa(s).value) == Success(s)
  {
    var bs := Latin1Bytes(s);
    var e := EncodeBytes(bs);
    RemoveWhitespaceNone(e);
    StripPaddingOfEncode(bs);
    UnpaddedLengthMod(|bs|);
    DecodeSextetsOfSextets(bs);
    assert Latin1String(bs) == s;
  }

  /** Whitespace is invisible to `atob`: inserting or deleting any of it
      does not change the result. */
  lemma AtobIgnoresWhitespace(s: string)
    ensures Atob(RemoveWhitespace(s)) == Atob(s)
  {
    RemoveWhitespaceNone(RemoveWhitespace(s));
  }

  /** Whitespace is removed piece by piece. */
  lemma {:induction false} RemoveWhitespaceAppend(a: string, b: string)
    ensures RemoveWhitespace(a + b) == RemoveWhitespace(a) + RemoveWhitespace(b)
  {
    if |a| > 0 {
      assert (a + b)[1..] == a[1..] + b;
      RemoveWhitespaceAppend(a[1..], b);
    } else {
      assert a + b == b;
    }
  }

  /** One space between two pieces without whitespace is dropped. */
  lemma RemoveWhitespaceOneSpace(a: string, b: string)
    requires forall i :: 0 <= i < |a| ==> !IsAsciiWhitespace(a[i])
    requires forall i :: 0 <= i < |b| ==> !IsAsciiWhitespace(b[i])
    ensures RemoveWhitespace(a + [' '] + b) == a + b
  {
    RemoveWhitespaceAppend(a, [' '] + b);
    RemoveWhitespaceNone(a);
    RemoveWhitespaceNone(b);
    assert ([' '] + b)[1..] == b;
    assert a + [' '] + b == a + ([' '] + b);
  }

  /** Padding is only removed from text whose length is a whole number of
      groups; padding left after a character went missing is outside the
      alphabet, and `atob` rejects it. */
  lemma AtobStrandedPadding(s: string)
    requires |RemoveWhitespace(s)| % 4 == 3
    requires RemoveWhitespace(s)[|RemoveWhitespace(s)| - 1] == '='
    ensures Atob(s) == Failure(InvalidCharacterError)
  {
    var t := RemoveWhitespace(s);
    assert StripPadding(t) == t;
    assert !IsBase64Char(t[|t| - 1]);
  }

  /** The groups of `btoa("%22ab~c%22")`, one lemma each: `%22`... */
  lemma QuantumQuote(b0: byte, b1: byte, b2: byte)
    requires b0 == 0x25 && b1 == 0x32 && b2 == 0x32
    ensures Quantum(b0, b1, b2) == "JTIy"
  {
    var x0, x1, x2 := b0 as int, b1 as int, b2 as int;
    assert x0 / 4 == 9 && x0 % 4 * 16 + x1 / 16 == 19 && x1 % 16 * 4 + x2 / 64 == 8 && x2 % 64 == 50;
    assert Sextet(9) == 'J' && Sextet(19) == 'T' && Sextet(8) == 'I' && Sextet(50) == 'y';
  }

  /** ...`ab~`, where the `~` (0x7E) ends the group and its low six bits
      `111110` are the character `+`... */
  lemma QuantumTilde(b0: byte, b1: byte, b2: byte)
    requires b0 == 0x61 && b1 == 0x62 && b2 == 0x7E
    ensures Quantum(b0, b1, b2) == "YWJ+"
  {
    var x0, x1, x2 := b0 as int, b1 as int, b2 as int;
    assert x0 / 4 == 24 && x0 % 4 * 16 + x1 / 16 == 22 && x1 % 16 * 4 + x2 / 64 == 9 && x2 % 64 == 62;
    assert Sextet(24) == 'Y' && Sextet(22) == 'W' && Sextet(9) == 'J' && Sextet(62) == '+';
  }

  /** ...`c%2`... */
  lemma QuantumTail(b0: byte, b1: byte, b2: byte)
    requires b0 == 0x63 && b1 == 0x25 && b2 == 0x32
    ensures Quantum(b0, b1, b2) == "YyUy"
  {
    var x0, x1, x2 := b0 as int, b1 as int, b2 as int;
    assert x0 / 4 == 24 && x0 % 4 * 16 + x1 / 16 == 50 && x1 % 16 * 4 + x2 / 64 == 20 && x2 % 64 == 50;
    assert Sextet(24) == 'Y' && Sextet(50) == 'y' && Sextet(20) == 'U';
  }

  /** ...and the final `2`, one octet, written in two characters. */
  lemma QuantumLast(b0: byte)
    requires b0 == 0x32
    ensures Quantum(b0, 0, 0)[..2] == "Mg"
  {
    var x0 := b0 as int;
    assert x0 / 4 == 12 && x0 % 4 * 16 == 32;
    assert Sextet(12) == 'M' && Sextet(32) == 'g';
  }

  /** Ten octets make three whole groups and one final octet. */
  lemma SextetsOfTen(bs: seq<byte>)
    requires |bs| == 10
    ensures Sextets(bs)
            == Quantum(bs[0], bs[1], bs[2]) + (Quantum(bs[3], bs[4], bs[5])
               + (Quantum(bs[6], bs[7], bs[8]) + Quantum(bs[9], 0, 0)[..2]))
  {
    var t0, t1, t2 := bs[3..], bs[6..], bs[9..];
    SextetsCons(bs);
    assert t0[3..] == t1 && t0[0] == bs[3] && t0[1] == bs[4] && t0[2] == bs[5];
    SextetsCons(t0);
    assert t1[3..] == t2 && t1[0] == bs[6] && t1[1] == bs[7] && t1[2] == bs[8];
    SextetsCons(t1);
    assert |t2| == 1 && t2[0] == bs[9];
  }

  /** `btoa` of a Latin-1 string is the base64 of its octets. */
  lemma BtoaOf(s: string, bs: seq<byte>, t: string, p: string)
    requires IsLatin1(s) && Latin1Bytes(s) == bs && Sextets(bs) == t && Padding(bs) == p
    ensures Btoa(s) == Success(t + p)
  {
  }

  /** The base64 of the octets of `%22ab~c%22`: the `~` (0x7E) ends the
      second group, and its low six bits `111110` are the character `+`. */
  lemma SextetsTilde(bs: seq<byte>)
    requires |bs| == 10 && bs[0] == 0x25 && bs[1] == 0x32 && bs[2] == 0x32
    requires bs[3] == 0x61 && bs[4] == 0x62 && bs[5] == 0x7E && bs[6] == 0x63
    requires bs[7] == 0x25 && bs[8] == 0x32 && bs[9] == 0x32
    ensures Sextets(bs) == "JTIyYWJ+YyUyMg" && Padding(bs) == "=="
  {
    SextetsOfTen(bs);
    QuantumQuote(bs[0], bs[1], bs[2]);
    QuantumTilde(bs[3], bs[4], bs[5]);
    QuantumTail(bs[6], bs[7], bs[8]);
    QuantumLast(bs[9]);
  }

  /** `btoa` of `%22ab~c%22` (given character by character) holds a `+`
      and ends in two padding characters. */
  lemma BtoaTilde(s: string)
    requires |s| == 10 && s[0] == '%' && s[1] == '2' && s[2] == '2' && s[3] == 'a'
    requires s[4] == 'b' && s[5] == '~' && s[6] == 'c' && s[7] == '%' && s[8] == '2' && s[9] == '2'
    ensures Btoa(s) == Success("JTIyYWJ+YyUyMg==")
  {
    assert IsLatin1(s);
    var bs := Latin1Bytes(s);
    SextetsTilde(bs);
    BtoaOf(s, bs, "JTIyYWJ+YyUyMg", "==");
    assert "JTIyYWJ+YyUyMg" + "==" == "JTIyYWJ+YyUyMg==";
  }

  /** The token `JTIyYWJ+YyUyMg==` with its `+` read as a space loses that
      space. */
  lemma RemoveWhitespaceTilde(s: string)
    requires s == "JTIyYWJ YyUyMg=="
    ensures RemoveWhitespace(s) == "JTIyYWJYyUyMg=="
  {
    RemoveWhitespaceOneSpace("JTIyYWJ", "YyUyMg==");
    assert "JTIyYWJ" + [' '] + "YyUyMg==" == s;
  }
}

=== FILE: bulletin.dfy ===
/** The bulletin document as the type declarations describe it: a fixed
    record of eight sections, five ordered lists of entries, one nested
    account record and one nullable leaf, every other leaf being text. The
    typed form is connected to the JavaScript value it is stored as by an
    encoder (properties in declaration order) and a strict decoder that
    accepts exactly the values of the declared shape, in any property
    order.

    Each decoder checks that the object's property names are distinct and
    all among the names the record declares, and reads each declared
    property with its declared kind. */
module Bulletin {
  import opened Wrappers
  import opened JsonValue

  datatype WorshipOrderItem = WorshipOrderItem(
    item: string, subitem: Option<string>, person: Option<string>, subperson: Option<string>)

  datatype NewsItem = NewsItem(date: string, event: string)

  datatype FinanceReportItem = FinanceReportItem(item: string, amount: string)

  datatype MissionaryItem = MissionaryItem(country: string, names: string)

  datatype WeeklyScheduleItem = WeeklyScheduleItem(date: string, prayer: string, sermon: string)

  datatype Main = Main(issue: string, date: string, time: string)

  datatype About = About(title: string, body: string)

  /** `musicSheet` is `null` until an image is chosen. */
  datatype Hymn = Hymn(title: string, musicSheet: Option<string>)

  datatype News = News(title: string, items: seq<NewsItem>)

  datatype Account = Account(bank: string, number: string, holder: string)

  datatype Finance = Finance(reports: seq<FinanceReportItem>, account: Account)

  datatype Missionaries = Missionaries(title: string, quote: string, items: seq<MissionaryItem>)

  datatype Schedule = Schedule(
    title: string, weekly: seq<WeeklyScheduleItem>, prayerList: string, sermonList: string)

  datatype BulletinData = BulletinData(
    main: Main, about: About, worshipOrder: seq<WorshipOrderItem>, hymn: Hymn,
    news: News, finance: Finance, missionaries: Missionaries, schedule: Schedule)

  // ---------------------------------------------------------------------
  // Leaves

  /** A text leaf. */
  function Text(o: Option<Json>): (r: Option<string>)
    ensures r.Some? <==> o.Some? && o.value.JStr?
    ensures r.Some? ==> o == Some(JStr(r.value))
  {
    match o
    case Some(JStr(s)) => Some(s)
    case _ => None
  }

  /** An optional text property: absent is `Some(None)`, a string is
      `Some(Some(s))`, anything else does not fit. */
  function OptionalText(o: Option<Json>): (r: Option<Option<string>>)
    ensures r == Some(None) <==> o.None?
    ensures r.Some? && r.value.Some? <==> o.Some? && o.value.JStr?
  {
    match o
    case None => Some(None)
    case Some(JStr(s)) => Some(Some(s))
    case _ => None
  }

  /** A `string | null` leaf: `null` is `Some(None)`. */
  function NullableText(o: Option<Json>): (r: Option<Option<string>>)
    ensures r == Some(None) <==> o == Some(JNull)
    ensures r.Some? && r.value.Some? <==> o.Some? && o.value.JStr?
  {
    match o
    case Some(JNull) => Some(None)
    case Some(JStr(s)) => Some(Some(s))
    case _ => None
  }

  function NullableJson(o: Option<string>): Json
  {
    if o.Some? then JStr(o.value) else JNull
  }

  // ---------------------------------------------------------------------
  // Lists

  /** Every element decodes; `None` as soon as one does not. */
  function DecodeList<T>(es: seq<Json>, decode: Json -> Option<T>): (r: Option<seq<T>>)
    ensures r.Some? <==> forall i :: 0 <= i < |es| ==> decode(es[i]).Some?
    ensures r.Some? ==> |r.value| == |es|
    ensures r.Some? ==> forall i :: 0 <= i < |es| ==> decode(es[i]) == Some(r.value[i])
  {
    if |es| == 0 then Some([])
    else
      match decode(es[0])
      case None => None
      case Some(x) =>
        match DecodeList(es[1..], decode)
        case None => None
        case Some(xs) => Some([x] + xs)
  }

  /** An array property whose every element decodes. */
  function List<T>(o: Option<Json>, decode: Json -> Option<T>): (r: Option<seq<T>>)
    ensures r.Some? ==> o.Some? && o.value.JArr?
  {
    match o
    case Some(JArr(es)) => DecodeList(es, decode)
    case _ => None
  }

  function EncodeList<T>(xs: seq<T>, encode: T -> Json): (es: seq<Json>)
    ensures |es| == |xs|
    ensures forall i :: 0 <= i < |xs| ==> es[i] == encode(xs[i])
  {
    seq(|xs|, i requires 0 <= i < |xs| => encode(xs[i]))
  }

  /** A list decodes to the entries it was encoded from when each entry
      does. */
  lemma DecodeEncodeList<T>(xs: seq<T>, encode: T -> Json, decode: Json -> Option<T>)
    requires forall i :: 0 <= i < |xs| ==> decode(encode(xs[i])) == Some(xs[i])
    ensures DecodeList(EncodeList(xs, encode), decode) == Some(xs)
  {
    var es := EncodeList(xs, encode);
    assert forall i :: 0 <= i < |es| ==> decode(es[i]) == Some(xs[i]);
    var r := DecodeList(es, decode);
    assert r.Some?;
    assert forall i :: 0 <= i < |xs| ==> r.value[i] == xs[i];
    assert r.value == xs;
  }

  /** Replacing one element by one that decodes to `x` replaces the decoded
      element by `x`. */
  lemma DecodeListUpdate<T>(es: seq<Json>, decode: Json -> Option<T>, i: nat, e: Json, x: T)
    requires i < |es| && DecodeList(es, decode).Some? && decode(e) == Some(x)
    ensures DecodeList(es[i := e], decode) == Some(DecodeList(es, decode).value[i := x])
  {
    var xs := DecodeList(es, decode).value;
    var es' := es[i := e];
    assert forall j :: 0 <= j < |es'| ==> decode(es'[j]) == Some(xs[i := x][j]);
    var r := DecodeList(es', decode);
    assert r.Some?;
    assert forall j :: 0 <= j < |es'| ==> r.value[j] == xs[i := x][j];
    assert r.value == xs[i := x];
  }

  /** A list of entries that each decode to well-formed values is
      well-formed. */
  lemma ListWellFormed<T>(o: Option<Json>, decode: Json -> Option<T>)
    requires List(o, decode).Some?
    requires forall e :: decode(e).Some? ==> WellFormed(e)
    ensures WellFormed(o.value)
  {
    var es := o.value.elems;
    assert forall i :: 0 <= i < |es| ==> decode(es[i]).Some?;
  }

  // ---------------------------------------------------------------------
  // List entries

  /** `{...o, [k]: s}` when the optional value is present. */
  function WithOptional(ms: seq<Member>, k: string, v: Option<string>): seq<Member>
  {
    if v.Some? then Put(ms, k, JStr(v.value)) else ms
  }

  /** Adding an absent optional property keeps the names distinct and
      allowed, makes the property read back as the optional value, and
      leaves every other property as it was. */
  lemma WithOptionalFacts(ms: seq<Member>, k: string, v: Option<string>, ks: seq<string>)
    requires Distinct(Keys(ms)) && KeysWithin(ms, ks) && k in ks && Get(ms, k).None?
    ensures Distinct(Keys(WithOptional(ms, k, v))) && KeysWithin(WithOptional(ms, k, v), ks)
    ensures OptionalText(Get(WithOptional(ms, k, v), k)) == Some(v)
    ensures forall k' :: k' != k ==> Get(WithOptional(ms, k, v), k') == Get(ms, k')
  {
    if v.Some? {
      DistinctPut(ms, k, JStr(v.value));
      KeysWithinPut(ms, k, JStr(v.value), ks);
    }
  }

  const WorshipOrderItemKeys: seq<string> := ["item", "subitem", "person", "subperson"]

  /** `item` first, then whichever optional properties are present, in
      declaration order. */
  function WorshipOrderItemObject(w: WorshipOrderItem): seq<Member>
  {
    var m0 := [Member("item", JStr(w.item))];
    WithOptional(WithOptional(WithOptional(m0, "subitem", w.subitem), "person", w.person),
                 "subperson", w.subperson)
  }

  lemma WorshipOrderItemObjectReads(w: WorshipOrderItem)
    ensures var ms := WorshipOrderItemObject(w);
            && Distinct(Keys(ms)) && KeysWithin(ms, WorshipOrderItemKeys)
            && Get(ms, "item") == Some(JStr(w.item))
            && OptionalText(Get(ms, "subitem")) == Some(w.subitem)
            && OptionalText(Get(ms, "person")) == Some(w.person)
            && OptionalText(Get(ms, "subperson")) == Some(w.subperson)
  {
    var ks := WorshipOrderItemKeys;
    var m0 := [Member("item", JStr(w.item))];
    var m1 := WithOptional(m0, "subitem", w.subitem);
    var m2 := WithOptional(m1, "person", w.person);
    var m3 := WithOptional(m2, "subperson", w.subperson);
    assert Keys(m0) == ["item"];
    assert KeysWithin(m0, ks);
    assert Get(m0, "item") == Some(JStr(w.item));
    assert Get(m0, "subitem") == None && Get(m0, "person") == None && Get(m0, "subperson") == None;
    WithOptionalFacts(m0, "subitem", w.subitem, ks);
    assert Get(m1, "item") == Some(JStr(w.item));
    assert Get(m1, "person") == None && Get(m1, "subperson") == None;
    WithOptionalFacts(m1, "person", w.person, ks);
    assert Get(m2, "item") == Some(JStr(w.item));
    assert Get(m2, "subitem") == Get(m1, "subitem");
    assert Get(m2, "subperson") == None;
    WithOptionalFacts(m2, "subperson", w.subperson, ks);
    assert Get(m3, "item") == Some(JStr(w.item));
    assert Get(m3, "subitem") == Get(m1, "subitem");
    assert Get(m3, "person") == Get(m2, "person");
  }

  function EncodeWorshipOrderItem(w: WorshipOrderItem): (j: Json)
    ensures DecodeWorshipOrderItem(j) == Some(w)
  {
    WorshipOrderItemObjectReads(w);
    WorshipOrderItemMembers(WorshipOrderItemObject(w), w);
    JObj(WorshipOrderItemObject(w))
  }

  /** A worship-order entry must have `item`; `subitem`, `person` and
      `subperson` may each be missing, which is not the same as `""`. */
  function DecodeWorshipOrderItem(j: Json): (r: Option<WorshipOrderItem>)
    ensures r.Some? ==> j.JObj? && "item" in Keys(j.members)
    ensures r.Some? ==> (r.value.subitem.None? <==> "subitem" !in Keys(j.members))
    ensures r.Some? ==> (r.value.person.None? <==> "person" !in Keys(j.members))
    ensures r.Some? ==> (r.value.subperson.None? <==> "subperson" !in Keys(j.members))
  {
    match j
    case JObj(ms) =>
      if Distinct(Keys(ms)) && KeysWithin(ms, WorshipOrderItemKeys) then
        match (Text(Get(ms, "item")), OptionalText(Get(ms, "subitem")),
               OptionalText(Get(ms, "person")), OptionalText(Get(ms, "subperson")))
        case (Some(item), Some(subitem), Some(person), Some(subperson)) =>
          Some(WorshipOrderItem(item, subitem, person, subperson))
        case _ => None
      else None
    case _ => None
  }

  lemma WorshipOrderItemMembers(ms: seq<Member>, w: WorshipOrderItem)
    ensures DecodeWorshipOrderItem(JObj(ms)) == Some(w)
            <==> && Distinct(Keys(ms)) && KeysWithin(ms, WorshipOrderItemKeys)
                 && Get(ms, "item") == Some(JStr(w.item))
                 && OptionalText(Get(ms, "subitem")) == Some(w.subitem)
                 && OptionalText(Get(ms, "person")) == Some(w.person)
                 && OptionalText(Get(ms, "subperson")) == Some(w.subperson)
  {
  }

  lemma WorshipOrderItemKeysCases()
    ensures forall k :: k in WorshipOrderItemKeys ==> k == "item" || k == "subitem" || k == "person" || k == "subperson"
  {
  }

  /** Every entry of this shape is a well-formed value. */
  lemma WorshipOrderItemWellFormed(j: Json)
    requires DecodeWorshipOrderItem(j).Some?
    ensures WellFormed(j)
  {
    WorshipOrderItemMembers(j.members, DecodeWorshipOrderItem(j).value);
    WorshipOrderItemKeysCases();
    WellFormedObject(j.members, WorshipOrderItemKeys);
  }

  const NewsItemKeys: seq<string> := ["date", "event"]

  function EncodeNewsItem(n: NewsItem): (j: Json)
    ensures DecodeNewsItem(j) == Some(n)
  {
    var ms := [Member("date", JStr(n.date)), Member("event", JStr(n.event))];
    assert Keys(ms) == NewsItemKeys;
    LiteralKeys(ms, NewsItemKeys);
    GetDistinct(ms, 0);
    GetDistinct(ms, 1);
    NewsItemMembers(ms, n);
    JObj(ms)
  }

  function DecodeNewsItem(j: Json): Option<NewsItem>
  {
    match j
    case JObj(ms) =>
      if Distinct(Keys(ms)) && KeysWithin(ms, NewsItemKeys) then
        match (Text(Get(ms, "date")), Text(Get(ms, "event")))
        case (Some(date), Some(event)) => Some(NewsItem(date, event))
        case _ => None
      else None
    case _ => None
  }

  lemma NewsItemMembers(ms: seq<Member>, n: NewsItem)
    ensures DecodeNewsItem(JObj(ms)) == Some(n)
            <==> && Distinct(Keys(ms)) && KeysWithin(ms, NewsItemKeys)
                 && Get(ms, "date") == Some(JStr(n.date)) && Get(ms, "event") == Some(JStr(n.event))
  {
  }

  lemma NewsItemKeysCases()
    ensures forall k :: k in NewsItemKeys ==> k == "date" || k == "event"
  {
  }

  /** Every entry of this shape is a well-formed value. */
  lemma NewsItemWellFormed(j: Json)
    requires DecodeNewsItem(j).Some?
    ensures WellFormed(j)
  {
    NewsItemMembers(j.members, DecodeNewsItem(j).value);
    NewsItemKeysCases();
    WellFormedObject(j.members, NewsItemKeys);
  }

  const FinanceReportItemKeys: seq<string> := ["item", "amount"]

  function EncodeFinanceReportItem(f: FinanceReportItem): (j: Json)
    ensures DecodeFinanceReportItem(j) == Some(f)
  {
    var ms := [Member("item", JStr(f.item)), Member("amount", JStr(f.amount))];
    assert Keys(ms) == FinanceReportItemKeys;
    LiteralKeys(ms, FinanceReportItemKeys);
    GetDistinct(ms, 0);
    GetDistinct(ms, 1);
    FinanceReportItemMembers(ms, f);
    JObj(ms)
  }

  /** `amount` is text such as "4,201,023", never a number. */
  function DecodeFinanceReportItem(j: Json): Option<FinanceReportItem>
  {
    match j
    case JObj(ms) =>
      if Distinct(Keys(ms)) && KeysWithin(ms, FinanceReportItemKeys) then
        match (Text(Get(ms, "item")), Text(Get(ms, "amount")))
        case (Some(item), Some(amount)) => Some(FinanceReportItem(item, amount))
        case _ => None
      else None
    case _ => None
  }

  lemma FinanceReportItemMembers(ms: seq<Member>, f: FinanceReportItem)
    ensures DecodeFinanceReportItem(JObj(ms)) == Some(f)
            <==> && Distinct(Keys(ms)) && KeysWithin(ms, FinanceReportItemKeys)
                 && Get(ms, "item") == Some(JStr(f.item)) && Get(ms, "amount") == Some(JStr(f.amount))
  {
  }

  lemma FinanceReportItemKeysCases()
    ensures forall k :: k in FinanceReportItemKeys ==> k == "item" || k == "amount"
  {
  }

  /** Every entry of this shape is a well-formed value. */
  lemma FinanceReportItemWellFormed(j: Json)
    requires DecodeFinanceReportItem(j).Some?
    ensures WellFormed(j)
  {
    FinanceReportItemMembers(j.members, DecodeFinanceReportItem(j).value);
    FinanceReportItemKeysCases();
    WellFormedObject(j.members, FinanceReportItemKeys);
  }

  const MissionaryItemKeys: seq<string> := ["country", "names"]

  function EncodeMissionaryItem(m: MissionaryItem): (j: Json)
    ensures DecodeMissionaryItem(j) == Some(m)
  {
    var ms := [Member("country", JStr(m.country)), Member("names", JStr(m.names))];
    assert Keys(ms) == MissionaryItemKeys;
    LiteralKeys(ms, MissionaryItemKeys);
    GetDistinct(ms, 0);
    GetDistinct(ms, 1);
    MissionaryItemMembers(ms, m);
    JObj(ms)
  }

  function DecodeMissionaryItem(j: Json): Option<MissionaryItem>
  {
    match j
    case JObj(ms) =>
      if Distinct(Keys(ms)) && KeysWithin(ms, MissionaryItemKeys) then
        match (Text(Get(ms, "country")), Text(Get(ms, "names")))
        case (Some(country), Some(names)) => Some(MissionaryItem(country, names))
        case _ => None
      else None
    case _ => None
  }

  lemma MissionaryItemMembers(ms: seq<Member>, m: MissionaryItem)
    ensures DecodeMissionaryItem(JObj(ms)) == Some(m)
            <==> && Distinct(Keys(ms)) && KeysWithin(ms, MissionaryItemKeys)
                 && Get(ms, "country") == Some(JStr(m.country)) && Get(ms, "names") == Some(JStr(m.names))
  {
  }

  lemma MissionaryItemKeysCases()
    ensures forall k :: k in MissionaryItemKeys ==> k == "country" || k == "names"
  {
  }

  /** Every entry of this shape is a well-formed value. */
  lemma MissionaryItemWellFormed(j: Json)
    requires DecodeMissionaryItem(j).Some?
    ensures WellFormed(j)
  {
    MissionaryItemMembers(j.members, DecodeMissionaryItem(j).value);
    MissionaryItemKeysCases();
    WellFormedObject(j.members, MissionaryItemKeys);
  }

  const WeeklyScheduleItemKeys: seq<string> := ["date", "prayer", "sermon"]

  function EncodeWeeklyScheduleItem(w: WeeklyScheduleItem): (j: Json)
    ensures DecodeWeeklyScheduleItem(j) == Some(w)
  {
    var ms := [Member("date", JStr(w.date)), Member("prayer", JStr(w.prayer)),
               Member("sermon", JStr(w.sermon))];
    assert Keys(ms) == WeeklyScheduleItemKeys;
    LiteralKeys(ms, WeeklyScheduleItemKeys);
    GetDistinct(ms, 0);
    GetDistinct(ms, 1);
    GetDistinct(ms, 2);
    WeeklyScheduleItemMembers(ms, w);
    JObj(ms)
  }

  function DecodeWeeklyScheduleItem(j: Json): Option<WeeklyScheduleItem>
  {
    match j
    case JObj(ms) =>
      if Distinct(Keys(ms)) && KeysWithin(ms, WeeklyScheduleItemKeys) then
        match (Text(Get(ms, "date")), Text(Get(ms, "prayer")), Text(Get(ms, "sermon")))
        case (Some(date), Some(prayer), Some(sermon)) => Some(WeeklyScheduleItem(date, prayer, sermon))
        case _ => None
      else None
    case _ => None
  }

  lemma WeeklyScheduleItemMembers(ms: seq<Member>, w: WeeklyScheduleItem)
    ensures DecodeWeeklyScheduleItem(JObj(ms)) == Some(w)
            <==> && Distinct(Keys(ms)) && KeysWithin(ms, WeeklyScheduleItemKeys)
                 && Get(ms, "date") == Some(JStr(w.date)) && Get(ms, "prayer") == Some(JStr(w.prayer))
                 && Get(ms, "sermon") == Some(JStr(w.sermon))
  {
  }

  lemma WeeklyScheduleItemKeysCases()
    ensures forall k :: k in WeeklyScheduleItemKeys ==> k == "date" || k == "prayer" || k == "sermon"
  {
  }

  /** Every entry of this shape is a well-formed value. */
  lemma WeeklyScheduleItemWellFormed(j: Json)
    requires DecodeWeeklyScheduleItem(j).Some?
    ensures WellFormed(j)
  {
    WeeklyScheduleItemMembers(j.members, DecodeWeeklyScheduleItem(j).value);
    WeeklyScheduleItemKeysCases();
    WellFormedObject(j.members, WeeklyScheduleItemKeys);
  }

  // ---------------------------------------------------------------------
  // Sections

  const MainKeys: seq<string> := ["issue", "date", "time"]

  function EncodeMain(m: Main): (j: Json)
    ensures DecodeMain(Some(j)) == Some(m)
  {
    var ms := [Member("issue", JStr(m.issue)), Member("date", JStr(m.date)),
               Member("time", JStr(m.time))];
    assert Keys(ms) == MainKeys;
    LiteralKeys(ms, MainKeys);
    GetDistinct(ms, 0);
    GetDistinct(ms, 1);
    GetDistinct(ms, 2);
    MainMembers(ms, m);
    JObj(ms)
  }

  function DecodeMain(o: Option<Json>): Option<Main>
  {
    match o
    case Some(JObj(ms)) =>
      if Distinct(Keys(ms)) && KeysWithin(ms, MainKeys) then
        match (Text(Get(ms, "issue")), Text(Get(ms, "date")), Text(Get(ms, "time")))
        case (Some(issue), Some(date), Some(time)) => Some(Main(issue, date, time))
        case _ => None
      else None
    case _ => None
  }

  lemma MainMembers(ms: seq<Member>, m: Main)
    ensures DecodeMain(Some(JObj(ms))) == Some(m)
            <==> && Distinct(Keys(ms)) && KeysWithin(ms, MainKeys)
                 && Get(ms, "issue") == Some(JStr(m.issue)) && Get(ms, "date") == Some(JStr(m.date))
                 && Get(ms, "time") == Some(JStr(m.time))
  {
  }

  lemma MainKeysCases()
    ensures forall k :: k in MainKeys ==> k == "issue" || k == "date" || k == "time"
  {
  }

  lemma MainWellFormed(o: Option<Json>)
    requires DecodeMain(o).Some?
    ensures WellFormed(o.value)
  {
    MainMembers(o.value.members, DecodeMain(o).value);
    MainKeysCases();
    WellFormedObject(o.value.members, MainKeys);
  }

  const AboutKeys: seq<string> := ["title", "body"]

  function EncodeAbout(a: About): (j: Json)
    ensures DecodeAbout(Some(j)) == Some(a)
  {
    var ms := [Member("title", JStr(a.title)), Member("body", JStr(a.body))];
    assert Keys(ms) == AboutKeys;
    LiteralKeys(ms, AboutKeys);
    GetDistinct(ms, 0);
    GetDistinct(ms, 1);
    AboutMembers(ms, a);
    JObj(ms)
  }

  function DecodeAbout(o: Option<Json>): Option<About>
  {
    match o
    case Some(JObj(ms)) =>
      if Distinct(Keys(ms)) && KeysWithin(ms, AboutKeys) then
        match (Text(Get(ms, "title")), Text(Get(ms, "body")))
        case (Some(title), Some(body)) => Some(About(title, body))
        case _ => None
      else None
    case _ => None
  }

  lemma AboutMembers(ms: seq<Member>, a: About)
    ensures DecodeAbout(Some(JObj(ms))) == Some(a)
            <==> && Distinct(Keys(ms)) && KeysWithin(ms, AboutKeys)
                 && Get(ms, "title") == Some(JStr(a.title)) && Get(ms, "body") == Some(JStr(a.body))
  {
  }

  lemma AboutKeysCases()
    ensures forall k :: k in AboutKeys ==> k == "title" || k == "body"
  {
  }

  lemma AboutWellFormed(o: Option<Json>)
    requires DecodeAbout(o).Some?
    ensures WellFormed(o.value)
  {
    AboutMembers(o.value.members, DecodeAbout(o).value);
    AboutKeysCases();
    WellFormedObject(o.value.members, AboutKeys);
  }

  const HymnKeys: seq<string> := ["title", "musicSheet"]

  function EncodeHymn(h: Hymn): (j: Json)
    ensures DecodeHymn(Some(j)) == Some(h)
  {
    var ms := [Member("title", JStr(h.title)), Member("musicSheet", NullableJson(h.musicSheet))];
    assert Keys(ms) == HymnKeys;
    LiteralKeys(ms, HymnKeys);
    GetDistinct(ms, 0);
    GetDistinct(ms, 1);
    HymnMembers(ms, h);
    JObj(ms)
  }

  /** `musicSheet` is either `null` or text. */
  function DecodeHymn(o: Option<Json>): Option<Hymn>
  {
    match o
    case Some(JObj(ms)) =>
      if Distinct(Keys(ms)) && KeysWithin(ms, HymnKeys) then
        match (Text(Get(ms, "title")), NullableText(Get(ms, "musicSheet")))
        case (Some(title), Some(musicSheet)) => Some(Hymn(title, musicSheet))
        case _ => None
      else None
    case _ => None
  }

  lemma HymnMembers(ms: seq<Member>, h: Hymn)
    ensures DecodeHymn(Some(JObj(ms))) == Some(h)
            <==> && Distinct(Keys(ms)) && KeysWithin(ms, HymnKeys)
                 && Get(ms, "title") == Some(JStr(h.title))
                 && NullableText(Get(ms, "musicSheet")) == Some(h.musicSheet)
  {
  }

  lemma HymnKeysCases()
    ensures forall k :: k in HymnKeys ==> k == "title" || k == "musicSheet"
  {
  }

  lemma HymnWellFormed(o: Option<Json>)
    requires DecodeHymn(o).Some?
    ensures WellFormed(o.value)
  {
    HymnMembers(o.value.members, DecodeHymn(o).value);
    HymnKeysCases();
    WellFormedObject(o.value.members, HymnKeys);
  }

  const NewsKeys: seq<string> := ["title", "items"]

  function EncodeNews(n: News): (j: Json)
    ensures DecodeNews(Some(j)) == Some(n)
  {
    var ms := [Member("title", JStr(n.title)),
               Member("items", JArr(EncodeList(n.items, EncodeNewsItem)))];
    assert Keys(ms) == NewsKeys;
    LiteralKeys(ms, NewsKeys);
    GetDistinct(ms, 0);
    GetDistinct(ms, 1);
    DecodeEncodeList(n.items, EncodeNewsItem, DecodeNewsItem);
    NewsMembers(ms, n);
    JObj(ms)
  }

  function DecodeNews(o: Option<Json>): Option<News>
  {
    match o
    case Some(JObj(ms)) =>
      if Distinct(Keys(ms)) && KeysWithin(ms, NewsKeys) then
        match (Text(Get(ms, "title")), List(Get(ms, "items"), DecodeNewsItem))
        case (Some(title), Some(items)) => Some(News(title, items))
        case _ => None
      else None
    case _ => None
  }

  lemma NewsMembers(ms: seq<Member>, n: News)
    ensures DecodeNews(Some(JObj(ms))) == Some(n)
            <==> && Distinct(Keys(ms)) && KeysWithin(ms, NewsKeys)
                 && Get(ms, "title") == Some(JStr(n.title))
                 && List(Get(ms, "items"), DecodeNewsItem) == Some(n.items)
  {
  }

  lemma NewsKeysCases()
    ensures forall k :: k in NewsKeys ==> k == "title" || k == "items"
  {
  }

  lemma NewsWellFormed(o: Option<Json>)
    requires DecodeNews(o).Some?
    ensures WellFormed(o.value)
  {
    var ms := o.value.members;
    NewsMembers(ms, DecodeNews(o).value);
    forall e | DecodeNewsItem(e).Some?
      ensures WellFormed(e)
    {
      NewsItemWellFormed(e);
    }
    ListWellFormed(Get(ms, "items"), DecodeNewsItem);
    NewsKeysCases();
    WellFormedObject(ms, NewsKeys);
  }

  const AccountKeys: seq<string> := ["bank", "number", "holder"]

  function EncodeAccount(a: Account): (j: Json)
    ensures DecodeAccount(Some(j)) == Some(a)
  {
    var ms := [Member("bank", JStr(a.bank)), Member("number", JStr(a.number)),
               Member("holder", JStr(a.holder))];
    assert Keys(ms) == AccountKeys;
    LiteralKeys(ms, AccountKeys);
    GetDistinct(ms, 0);
    GetDistinct(ms, 1);
    GetDistinct(ms, 2);
    AccountMembers(ms, a);
    JObj(ms)
  }

  /** A single record, not a list. */
  function DecodeAccount(o: Option<Json>): Option<Account>
  {
    match o
    case Some(JObj(ms)) =>
      if Distinct(Keys(ms)) && KeysWithin(ms, AccountKeys) then
        match (Text(Get(ms, "bank")), Text(Get(ms, "number")), Text(Get(ms, "holder")))
        case (Some(bank), Some(number), Some(holder)) => Some(Account(bank, number, holder))
        case _ => None
      else None
    case _ => None
  }

  lemma AccountMembers(ms: seq<Member>, a: Account)
    ensures DecodeAccount(Some(JObj(ms))) == Some(a)
            <==> && Distinct(Keys(ms)) && KeysWithin(ms, AccountKeys)
                 && Get(ms, "bank") == Some(JStr(a.bank)) && Get(ms, "number") == Some(JStr(a.number))
                 && Get(ms, "holder") == Some(JStr(a.holder))
  {
  }

  lemma AccountKeysCases()
    ensures forall k :: k in AccountKeys ==> k == "bank" || k == "number" || k == "holder"
  {
  }

  lemma AccountWellFormed(o: Option<Json>)
    requires DecodeAccount(o).Some?
    ensures WellFormed(o.value)
  {
    AccountMembers(o.value.members, DecodeAccount(o).value);
    AccountKeysCases();
    WellFormedObject(o.value.members, AccountKeys);
  }

  const FinanceKeys: seq<string> := ["reports", "account"]

  /** The literal decodes to the section its two values decode to. */
  lemma DecodeFinanceObject(f: Finance, reports: Json, account: Json)
    requires List(Some(reports), DecodeFinanceReportItem) == Some(f.reports)
    requires DecodeAccount(Some(account)) == Some(f.account)
    ensures DecodeFinance(Some(JObj([Member("reports", reports), Member("account", account)]))) == Some(f)
  {
    FinanceObjectReads(reports, account);
    FinanceMembers([Member("reports", reports), Member("account", account)], f);
  }

  lemma FinanceObjectReads(reports: Json, account: Json)
    ensures var ms := [Member("reports", reports), Member("account", account)];
            && Distinct(Keys(ms)) && KeysWithin(ms, FinanceKeys)
            && Get(ms, "reports") == Some(reports) && Get(ms, "account") == Some(account)
  {
    var ms := [Member("reports", reports), Member("account", account)];
    assert Keys(ms) == FinanceKeys;
    LiteralKeys(ms, FinanceKeys);
    GetDistinct(ms, 0);
    GetDistinct(ms, 1);
  }

  function EncodeFinance(f: Finance): (j: Json)
    ensures DecodeFinance(Some(j)) == Some(f)
  {
    var reports := JArr(EncodeList(f.reports, EncodeFinanceReportItem));
    DecodeEncodeList(f.reports, EncodeFinanceReportItem, DecodeFinanceReportItem);
    DecodeFinanceObject(f, reports, EncodeAccount(f.account));
    JObj([Member("reports", reports), Member("account", EncodeAccount(f.account))])
  }

  function DecodeFinance(o: Option<Json>): Option<Finance>
  {
    match o
    case Some(JObj(ms)) =>
      if Distinct(Keys(ms)) && KeysWithin(ms, FinanceKeys) then
        match (List(Get(ms, "reports"), DecodeFinanceReportItem), DecodeAccount(Get(ms, "account")))
        case (Some(reports), Some(account)) => Some(Finance(reports, account))
        case _ => None
      else None
    case _ => None
  }

  lemma FinanceMembers(ms: seq<Member>, f: Finance)
    ensures DecodeFinance(Some(JObj(ms))) == Some(f)
            <==> && Distinct(Keys(ms)) && KeysWithin(ms, FinanceKeys)
                 && List(Get(ms, "reports"), DecodeFinanceReportItem) == Some(f.reports)
                 && DecodeAccount(Get(ms, "account")) == Some(f.account)
  {
  }

  lemma FinanceKeysCases()
    ensures forall k :: k in FinanceKeys ==> k == "reports" || k == "account"
  {
  }

  lemma FinanceWellFormed(o: Option<Json>)
    requires DecodeFinance(o).Some?
    ensures WellFormed(o.value)
  {
    var ms := o.value.members;
    FinanceMembers(ms, DecodeFinance(o).value);
    forall e | DecodeFinanceReportItem(e).Some?
      ensures WellFormed(e)
    {
      FinanceReportItemWellFormed(e);
    }
    ListWellFormed(Get(ms, "reports"), DecodeFinanceReportItem);
    AccountWellFormed(Get(ms, "account"));
    FinanceKeysCases();
    WellFormedObject(ms, FinanceKeys);
  }

  const MissionariesKeys: seq<string> := ["title", "quote", "items"]

  function EncodeMissionaries(m: Missionaries): (j: Json)
    ensures DecodeMissionaries(Some(j)) == Some(m)
  {
    var ms := [Member("title", JStr(m.title)), Member("quote", JStr(m.quote)),
               Member("items", JArr(EncodeList(m.items, EncodeMissionaryItem)))];
    assert Keys(ms) == MissionariesKeys;
    LiteralKeys(ms, MissionariesKeys);
    GetDistinct(ms, 0);
    GetDistinct(ms, 1);
    GetDistinct(ms, 2);
    DecodeEncodeList(m.items, EncodeMissionaryItem, DecodeMissionaryItem);
    MissionariesMembers(ms, m);
    JObj(ms)
  }

  function DecodeMissionaries(o: Option<Json>): Option<Missionaries>
  {
    match o
    case Some(JObj(ms)) =>
      if Distinct(Keys(ms)) && KeysWithin(ms, MissionariesKeys) then
        match (Text(Get(ms, "title")), Text(Get(ms, "quote")), List(Get(ms, "items"), DecodeMissionaryItem))
        case (Some(title), Some(quote), Some(items)) => Some(Missionaries(title, quote, items))
        case _ => None
      else None
    case _ => None
  }

  lemma MissionariesMembers(ms: seq<Member>, m: Missionaries)
    ensures DecodeMissionaries(Some(JObj(ms))) == Some(m)
            <==> && Distinct(Keys(ms)) && KeysWithin(ms, MissionariesKeys)
                 && Get(ms, "title") == Some(JStr(m.title)) && Get(ms, "quote") == Some(JStr(m.quote))
                 && List(Get(ms, "items"), DecodeMissionaryItem) == Some(m.items)
  {
  }

  lemma MissionariesKeysCases()
    ensures forall k :: k in MissionariesKeys ==> k == "title" || k == "quote" || k == "items"
  {
  }

  lemma MissionariesWellFormed(o: Option<Json>)
    requires DecodeMissionaries(o).Some?
    ensures WellFormed(o.value)
  {
    var ms := o.value.members;
    MissionariesMembers(ms, DecodeMissionaries(o).value);
    forall e | DecodeMissionaryItem(e).Some?
      ensures WellFormed(e)
    {
      MissionaryItemWellFormed(e);
    }
    ListWellFormed(Get(ms, "items"), DecodeMissionaryItem);
    MissionariesKeysCases();
    WellFormedObject(ms, MissionariesKeys);
  }

  const ScheduleKeys: seq<string> := ["title", "weekly", "prayerList", "sermonList"]

  lemma ScheduleKeysDistinct()
    ensures Distinct(ScheduleKeys)
  {
  }

  /** The object literal of the schedule section with the given values. */
  function ScheduleObject(title: Json, weekly: Json, prayerList: Json, sermonList: Json): seq<Member>
  {
    [Member("title", title), Member("weekly", weekly), Member("prayerList", prayerList),
     Member("sermonList", sermonList)]
  }

  lemma ScheduleObjectKeys(title: Json, weekly: Json, prayerList: Json, sermonList: Json)
    ensures Keys(ScheduleObject(title, weekly, prayerList, sermonList)) == ScheduleKeys
  {
  }

  /** The literal decodes to the section whose list its `weekly` value
      decodes to. */
  lemma DecodeScheduleObject(s: Schedule, weekly: Json)
    requires List(Some(weekly), DecodeWeeklyScheduleItem) == Some(s.weekly)
    ensures DecodeSchedule(Some(JObj(ScheduleObject(JStr(s.title), weekly, JStr(s.prayerList),
                                                    JStr(s.sermonList))))) == Some(s)
  {
    var ms := ScheduleObject(JStr(s.title), weekly, JStr(s.prayerList), JStr(s.sermonList));
    ScheduleObjectKeys(JStr(s.title), weekly, JStr(s.prayerList), JStr(s.sermonList));
    ScheduleKeysDistinct();
    LiteralKeys(ms, ScheduleKeys);
    GetDistinct(ms, 0);
    GetDistinct(ms, 1);
    GetDistinct(ms, 2);
    GetDistinct(ms, 3);
    ScheduleMembers(ms, s);
  }

  function EncodeSchedule(s: Schedule): (j: Json)
    ensures DecodeSchedule(Some(j)) == Some(s)
  {
    var weekly := JArr(EncodeList(s.weekly, EncodeWeeklyScheduleItem));
    DecodeEncodeList(s.weekly, EncodeWeeklyScheduleItem, DecodeWeeklyScheduleItem);
    DecodeScheduleObject(s, weekly);
    JObj(ScheduleObject(JStr(s.title), weekly, JStr(s.prayerList), JStr(s.sermonList)))
  }

  function DecodeSchedule(o: Option<Json>): Option<Schedule>
  {
    match o
    case Some(JObj(ms)) =>
      if Distinct(Keys(ms)) && KeysWithin(ms, ScheduleKeys) then
        match (Text(Get(ms, "title")), List(Get(ms, "weekly"), DecodeWeeklyScheduleItem),
               Text(Get(ms, "prayerList")), Text(Get(ms, "sermonList")))
        case (Some(title), Some(weekly), Some(prayerList), Some(sermonList)) =>
          Some(Schedule(title, weekly, prayerList, sermonList))
        case _ => None
      else None
    case _ => None
  }

  lemma ScheduleMembers(ms: seq<Member>, s: Schedule)
    ensures DecodeSchedule(Some(JObj(ms))) == Some(s)
            <==> && Distinct(Keys(ms)) && KeysWithin(ms, ScheduleKeys)
                 && Get(ms, "title") == Some(JStr(s.title))
                 && List(Get(ms, "weekly"), DecodeWeeklyScheduleItem) == Some(s.weekly)
                 && Get(ms, "prayerList") == Some(JStr(s.prayerList))
                 && Get(ms, "sermonList") == Some(JStr(s.sermonList))
  {
  }

  lemma ScheduleKeysCases()
    ensures forall k :: k in ScheduleKeys ==> k == "title" || k == "weekly" || k == "prayerList" || k == "sermonList"
  {
  }

  lemma ScheduleWellFormed(o: Option<Json>)
    requires DecodeSchedule(o).Some?
    ensures WellFormed(o.value)
  {
    var ms := o.value.members;
    ScheduleMembers(ms, DecodeSchedule(o).value);
    forall e | DecodeWeeklyScheduleItem(e).Some?
      ensures WellFormed(e)
    {
      WeeklyScheduleItemWellFormed(e);
    }
    ListWellFormed(Get(ms, "weekly"), DecodeWeeklyScheduleItem);
    ScheduleKeysCases();
    WellFormedObject(ms, ScheduleKeys);
  }

  // ---------------------------------------------------------------------
  // The document

  /** The property names of the document, in declaration order. */
  const DocumentKeys: seq<string> :=
    ["main", "about", "worshipOrder", "hymn", "news", "finance", "missionaries", "schedule"]

  lemma DocumentKeysDistinct()
    ensures Distinct(DocumentKeys)
  {
  }

  /** The object literal of the document with the given section values. */
  function DocumentObject(main: Json, about: Json, worshipOrder: Json, hymn: Json,
                          news: Json, finance: Json, missionaries: Json, schedule: Json): seq<Member>
  {
    [Member("main", main), Member("about", about), Member("worshipOrder", worshipOrder),
     Member("hymn", hymn), Member("news", news), Member("finance", finance),
     Member("missionaries", missionaries), Member("schedule", schedule)]
  }

  lemma DocumentObjectKeys(main: Json, about: Json, worshipOrder: Json, hymn: Json,
                           news: Json, finance: Json, missionaries: Json, schedule: Json)
    ensures Keys(DocumentObject(main, about, worshipOrder, hymn, news, finance, missionaries, schedule))
            == DocumentKeys
  {
  }

  /** The literal has the eight section names and reads back each section. */
  lemma DocumentObjectReads(main: Json, about: Json, worshipOrder: Json, hymn: Json,
                            news: Json, finance: Json, missionaries: Json, schedule: Json)
    ensures var ms := DocumentObject(main, about, worshipOrder, hymn, news, finance, missionaries, schedule);
            && Distinct(Keys(ms)) && KeysWithin(ms, DocumentKeys)
            && Get(ms, "main") == Some(main) && Get(ms, "about") == Some(about)
            && Get(ms, "worshipOrder") == Some(worshipOrder) && Get(ms, "hymn") == Some(hymn)
            && Get(ms, "news") == Some(news) && Get(ms, "finance") == Some(finance)
            && Get(ms, "missionaries") == Some(missionaries) && Get(ms, "schedule") == Some(schedule)
  {
    var ms := DocumentObject(main, about, worshipOrder, hymn, news, finance, missionaries, schedule);
    DocumentObjectKeys(main, about, worshipOrder, hymn, news, finance, missionaries, schedule);
    DocumentKeysDistinct();
    LiteralKeys(ms, DocumentKeys);
    GetDistinct(ms, 0);
    GetDistinct(ms, 1);
    GetDistinct(ms, 2);
    GetDistinct(ms, 3);
    GetDistinct(ms, 4);
    GetDistinct(ms, 5);
    GetDistinct(ms, 6);
    GetDistinct(ms, 7);
  }

  /** The literal decodes to the document whose sections its values
      decode to. */
  lemma DecodeDocumentObject(d: BulletinData, main: Json, about: Json, worshipOrder: Json, hymn: Json,
                             news: Json, finance: Json, missionaries: Json, schedule: Json)
    requires DecodeMain(Some(main)) == Some(d.main) && DecodeAbout(Some(about)) == Some(d.about)
    requires List(Some(worshipOrder), DecodeWorshipOrderItem) == Some(d.worshipOrder)
    requires DecodeHymn(Some(hymn)) == Some(d.hymn) && DecodeNews(Some(news)) == Some(d.news)
    requires DecodeFinance(Some(finance)) == Some(d.finance)
    requires DecodeMissionaries(Some(missionaries)) == Some(d.missionaries)
    requires DecodeSchedule(Some(schedule)) == Some(d.schedule)
    ensures Decode(JObj(DocumentObject(main, about, worshipOrder, hymn, news, finance, missionaries, schedule)))
            == Some(d)
  {
    var ms := DocumentObject(main, about, worshipOrder, hymn, news, finance, missionaries, schedule);
    DocumentObjectReads(main, about, worshipOrder, hymn, news, finance, missionaries, schedule);
    DocumentMembers(ms, d);
  }

  /** The object literal of the document: sections in declaration order. */
  function Encode(d: BulletinData): (j: Json)
    ensures Decode(j) == Some(d)
  {
    var worshipOrder := JArr(EncodeList(d.worshipOrder, EncodeWorshipOrderItem));
    DecodeEncodeList(d.worshipOrder, EncodeWorshipOrderItem, DecodeWorshipOrderItem);
    DecodeDocumentObject(d, EncodeMain(d.main), EncodeAbout(d.about), worshipOrder, EncodeHymn(d.hymn),
                         EncodeNews(d.news), EncodeFinance(d.finance), EncodeMissionaries(d.missionaries),
                         EncodeSchedule(d.schedule));
    JObj(DocumentObject(EncodeMain(d.main), EncodeAbout(d.about), worshipOrder, EncodeHymn(d.hymn),
                        EncodeNews(d.news), EncodeFinance(d.finance), EncodeMissionaries(d.missionaries),
                        EncodeSchedule(d.schedule)))
  }

  /** The document: exactly the eight sections, each of its declared
      shape. */
  function Decode(j: Json): Option<BulletinData>
  {
    match j
    case JObj(ms) =>
      if Distinct(Keys(ms)) && KeysWithin(ms, DocumentKeys) then
        match (DecodeMain(Get(ms, "main")), DecodeAbout(Get(ms, "about")),
               List(Get(ms, "worshipOrder"), DecodeWorshipOrderItem), DecodeHymn(Get(ms, "hymn")),
               DecodeNews(Get(ms, "news")), DecodeFinance(Get(ms, "finance")),
               DecodeMissionaries(Get(ms, "missionaries")), DecodeSchedule(Get(ms, "schedule")))
        case (Some(main), Some(about), Some(worshipOrder), Some(hymn),
              Some(news), Some(finance), Some(missionaries), Some(schedule)) =>
          Some(BulletinData(main, about, worshipOrder, hymn, news, finance, missionaries, schedule))
        case _ => None
      else None
    case _ => None
  }

  lemma DocumentMembers(ms: seq<Member>, d: BulletinData)
    ensures Decode(JObj(ms)) == Some(d)
            <==> && Distinct(Keys(ms)) && KeysWithin(ms, DocumentKeys)
                 && DecodeMain(Get(ms, "main")) == Some(d.main)
                 && DecodeAbout(Get(ms, "about")) == Some(d.about)
                 && List(Get(ms, "worshipOrder"), DecodeWorshipOrderItem) == Some(d.worshipOrder)
                 && DecodeHymn(Get(ms, "hymn")) == Some(d.hymn)
                 && DecodeNews(Get(ms, "news")) == Some(d.news)
                 && DecodeFinance(Get(ms, "finance")) == Some(d.finance)
                 && DecodeMissionaries(Get(ms, "missionaries")) == Some(d.missionaries)
                 && DecodeSchedule(Get(ms, "schedule")) == Some(d.schedule)
  {
  }

  /** A value of the declared document shape. */
  predicate WellShaped(j: Json)
  {
    Decode(j).Some?
  }

  lemma DocumentKeysCases()
    ensures forall k :: k in DocumentKeys ==>
              || k == "main" || k == "about" || k == "worshipOrder" || k == "hymn"
              || k == "news" || k == "finance" || k == "missionaries" || k == "schedule"
  {
  }

  /** Every section of a document of the declared shape is present and
      well-formed. */
  lemma SectionValuesWellFormed(ms: seq<Member>)
    requires WellShaped(JObj(ms))
    ensures Get(ms, "main").Some? && WellFormed(Get(ms, "main").value)
    ensures Get(ms, "about").Some? && WellFormed(Get(ms, "about").value)
    ensures Get(ms, "worshipOrder").Some? && WellFormed(Get(ms, "worshipOrder").value)
    ensures Get(ms, "hymn").Some? && WellFormed(Get(ms, "hymn").value)
    ensures Get(ms, "news").Some? && WellFormed(Get(ms, "news").value)
    ensures Get(ms, "finance").Some? && WellFormed(Get(ms, "finance").value)
    ensures Get(ms, "missionaries").Some? && WellFormed(Get(ms, "missionaries").value)
    ensures Get(ms, "schedule").Some? && WellFormed(Get(ms, "schedule").value)
  {
    DocumentMembers(ms, Decode(JObj(ms)).value);
    MainWellFormed(Get(ms, "main"));
    AboutWellFormed(Get(ms, "about"));
    forall e | DecodeWorshipOrderItem(e).Some?
      ensures WellFormed(e)
    {
      WorshipOrderItemWellFormed(e);
    }
    ListWellFormed(Get(ms, "worshipOrder"), DecodeWorshipOrderItem);
    HymnWellFormed(Get(ms, "hymn"));
    NewsWellFormed(Get(ms, "news"));
    FinanceWellFormed(Get(ms, "finance"));
    MissionariesWellFormed(Get(ms, "missionaries"));
    ScheduleWellFormed(Get(ms, "schedule"));
  }

  /** A document of the declared shape is a well-formed value: every
      object in it has distinct property names. */
  lemma WellShapedWellFormed(j: Json)
    requires WellShaped(j)
    ensures WellFormed(j)
  {
    DocumentMembers(j.members, Decode(j).value);
    SectionValuesWellFormed(j.members);
    DocumentObjectWellFormed(j.members);
  }

  lemma DocumentObjectWellFormed(ms: seq<Member>)
    requires Distinct(Keys(ms)) && KeysWithin(ms, DocumentKeys)
    requires Get(ms, "main").Some? && WellFormed(Get(ms, "main").value)
    requires Get(ms, "about").Some? && WellFormed(Get(ms, "about").value)
    requires Get(ms, "worshipOrder").Some? && WellFormed(Get(ms, "worshipOrder").value)
    requires Get(ms, "hymn").Some? && WellFormed(Get(ms, "hymn").value)
    requires Get(ms, "news").Some? && WellFormed(Get(ms, "news").value)
    requires Get(ms, "finance").Some? && WellFormed(Get(ms, "finance").value)
    requires Get(ms, "missionaries").Some? && WellFormed(Get(ms, "missionaries").value)
    requires Get(ms, "schedule").Some? && WellFormed(Get(ms, "schedule").value)
    ensures WellFormed(JObj(ms))
  {
    forall i | 0 <= i < |ms|
      ensures WellFormed(ms[i].value)
    {
      GetDistinct(ms, i);
      var k := ms[i].key;
      assert k in DocumentKeys;
      DocumentKeysCases();
      if k == "main" {
      } else if k == "about" {
      } else if k == "worshipOrder" {
      } else if k == "hymn" {
      } else if k == "news" {
      } else if k == "finance" {
      } else if k == "missionaries" {
      } else {
        assert k == "schedule";
      }
    }
  }
}

=== FILE: deep_copy_edits.dfy ===
/** The editor's updaters in their deep-copy form: the previous document
    is copied with `JSON.parse(JSON.stringify(prev))` and the copy is then
    changed in place by property assignment. The copy shares nothing with
    the previous document, so changing it in place is the same as building
    each changed object anew with the property replaced. */
module DeepCopyEdits {
  import opened Wrappers
  import opened JsonValue
  import JsonText
  import opened EditMode
  import opened Bulletin
  import opened Fields

  // ---------------------------------------------------------------------
  // The copy and the assignment

  /** `JSON.parse(JSON.stringify(prev))` */
  function DeepCopy(j: Json): Result<Json, Exception>
  {
    JsonText.Parse(JsonText.Stringify(j))
  }

  /** Copying a JavaScript value through its JSON text neither throws nor
      changes it. */
  lemma DeepCopyEqual(j: Json)
    requires WellFormed(j)
    ensures DeepCopy(j) == Success(j)
  {
    JsonText.ParseStringify(j);
  }

  predicate IsObject(o: Option<Json>)
  {
    o.Some? && o.value.JObj?
  }

  /** The assignment `target[k] = v` in module (strict-mode) code: on an
      object it sets the property, which keeps its place or is added after
      the others, exactly as the literal `{...target, [k]: v}` would; on
      `undefined` and `null`, and on a string or boolean, which cannot take
      properties, it throws a TypeError. */
  function Assign(target: Option<Json>, k: string, v: Json): (r: Result<Json, Exception>)
    requires !IsArray(target)
    ensures r.Success? <==> IsObject(target)
    ensures r.Success? ==> r.value == With(target, k, v)
    ensures r.Failure? ==> r.error == TypeError
  {
    match target
    case Some(JObj(ms)) => Success(JObj(Put(ms, k, v)))
    case _ => Failure(TypeError)
  }

  // ---------------------------------------------------------------------
  // handleTextChange

  /** What the copy-based `handleTextChange` needs: a document object, a
      name with at least two pieces, and no array among the values it
      assigns into (the section and, with a subfield, its field). */
  predicate CopyTextChangeDefined(prev: Json, name: string)
  {
    var parts := Split(name);
    && WellFormed(prev) && prev.JObj? && |parts| >= 2
    && !IsArray(Section(prev, parts[0]))
    && (HasSubfield(parts) ==> !IsArray(Prop(Section(prev, parts[0]), parts[1])))
  }

  /** `handleTextChange` on a copy: `newPrev[section][field] = value`, or
      with a subfield `newPrev[section][field][subfield] = value`. Reading
      `field` of a missing or `null` section throws, and so does assigning
      into a missing or `null` value, a string or a boolean (module code is
      strict). It succeeds exactly when the values it assigns into are
      objects. */
  function CopyTextChange(prev: Json, name: string, value: string): (r: Result<Json, Exception>)
    requires CopyTextChangeDefined(prev, name)
    ensures var parts, sec := Split(name), Section(prev, Split(name)[0]);
            r.Success? <==> IsObject(sec) && (HasSubfield(parts) ==> IsObject(Prop(sec, parts[1])))
    ensures r.Failure? ==> r.error == TypeError
  {
    DeepCopyEqual(prev);
    var parts := Split(name);
    var copy := DeepCopy(prev).value;
    var sec := Section(copy, parts[0]);
    if HasSubfield(parts) then
      if !Readable(sec) then Failure(TypeError)
      else
        var leaf :- Assign(Prop(sec, parts[1]), parts[2], JStr(value));
        var sec' :- Assign(sec, parts[1], leaf);
        Success(With(Some(copy), parts[0], sec'))
    else
      var sec' :- Assign(sec, parts[1], JStr(value));
      Success(With(Some(copy), parts[0], sec'))
  }

  /** Every name the spread-based edit accepts, the copy-based one
      accepts too. */
  lemma TextChangeCopyDefined(prev: Json, name: string)
    requires WellFormed(prev) && TextChangeDefined(prev, name)
    ensures CopyTextChangeDefined(prev, name)
  {
  }

  /** When the copy-based edit succeeds, the named leaf holds the text. */
  lemma CopyTextChangeWrites(prev: Json, name: string, value: string)
    requires CopyTextChangeDefined(prev, name)
    ensures var r, parts := CopyTextChange(prev, name, value), Split(name);
            r.Success? ==>
              Lookup(r.value, if HasSubfield(parts) then parts[..3] else parts[..2]) == Some(JStr(value))
  {
    var r := CopyTextChange(prev, name, value);
    CopyTextChangeSpread(prev, name, value);
    if r.Success? {
      assert r.value == TextChange(prev, name, value);
      TextChangeWrites(prev, name, value);
    }
  }

  /** The copy-based edit succeeds exactly when the objects it assigns
      into exist, and then it gives the same document as the spread-based
      edit. Where the spread-based edit would create a missing section or
      field, the copy-based one throws a TypeError instead. */
  lemma CopyTextChangeSpread(prev: Json, name: string, value: string)
    requires CopyTextChangeDefined(prev, name)
    ensures var parts, r := Split(name), CopyTextChange(prev, name, value);
            var sec := Section(prev, parts[0]);
            && (r.Success? <==> IsObject(sec) && (HasSubfield(parts) ==> IsObject(Prop(sec, parts[1]))))
            && (r.Success? ==> TextChangeDefined(prev, name) && r.value == TextChange(prev, name, value))
            && (r.Failure? ==> r.error == TypeError)
  {
    DeepCopyEqual(prev);
  }

  // ---------------------------------------------------------------------
  // handleArrayChange

  /** When `l` is a list, the entry at `index` exists. */
  predicate ListEditable(l: Option<Json>, index: nat)
  {
    IsArray(l) ==> index < |l.value.elems|
  }

  /** What the copy-based `handleArrayChange` needs: a document object and,
      for the section and for each of its `items`, `reports` and `weekly`
      that is a list, an entry at `index`. */
  predicate CopyArrayChangeDefined(prev: Json, section: string, index: nat)
  {
    && WellFormed(prev) && prev.JObj?
    && var sec := Section(prev, section);
       && ListEditable(sec, index)
       && ListEditable(Prop(sec, "items"), index)
       && ListEditable(Prop(sec, "reports"), index)
       && ListEditable(Prop(sec, "weekly"), index)
  }

  /** `if (key in o && Array.isArray(o[key])) o[key] = updateArray(o[key])`
      on a section object. */
  function UpdateListUnder(o: Json, key: string, index: nat, field: string, value: string): (r: Json)
    requires o.JObj? && ListEditable(Prop(Some(o), key), index)
    ensures r.JObj?
    ensures forall k :: k != key ==> Prop(Some(r), k) == Prop(Some(o), k)
  {
    var l := Prop(Some(o), key);
    if IsArray(l) then With(Some(o), key, JArr(UpdateArray(l.value.elems, index, field, value))) else o
  }

  /** The three independent checks of an object section, in order:
      `items`, then `reports`, then `weekly`. */
  function UpdateLists(o: Json, index: nat, field: string, value: string): (r: Json)
    requires o.JObj? && ListEditable(Prop(Some(o), "items"), index)
    requires ListEditable(Prop(Some(o), "reports"), index) && ListEditable(Prop(Some(o), "weekly"), index)
    ensures r.JObj?
    ensures forall k :: k !in ListKeys ==> Prop(Some(r), k) == Prop(Some(o), k)
  {
    var a := UpdateListUnder(o, "items", index, field, value);
    var b := UpdateListUnder(a, "reports", index, field, value);
    UpdateListUnder(b, "weekly", index, field, value)
  }

  /** Each list of the section is updated, whichever others there are. */
  lemma UpdateListsEvery(o: Json, index: nat, field: string, value: string, key: string)
    requires o.JObj? && ListEditable(Prop(Some(o), "items"), index)
    requires ListEditable(Prop(Some(o), "reports"), index) && ListEditable(Prop(Some(o), "weekly"), index)
    requires key in ListKeys && IsArray(Prop(Some(o), key))
    ensures Prop(Some(UpdateLists(o, index, field, value)), key)
            == Some(JArr(UpdateArray(Prop(Some(o), key).value.elems, index, field, value)))
  {
    var a := UpdateListUnder(o, "items", index, field, value);
    var b := UpdateListUnder(a, "reports", index, field, value);
    var c := UpdateListUnder(b, "weekly", index, field, value);
    var updated := Some(JArr(UpdateArray(Prop(Some(o), key).value.elems, index, field, value)));
    if key == "items" {
      UpdateListUnderWrites(o, key, index, field, value);
      assert Prop(Some(b), key) == Prop(Some(a), key);
      assert Prop(Some(c), key) == Prop(Some(b), key);
    } else if key == "reports" {
      assert Prop(Some(a), key) == Prop(Some(o), key);
      UpdateListUnderWrites(a, key, index, field, value);
      assert Prop(Some(c), key) == Prop(Some(b), key);
    } else {
      assert Prop(Some(a), key) == Prop(Some(o), key);
      assert Prop(Some(b), key) == Prop(Some(a), key);
      UpdateListUnderWrites(b, key, index, field, value);
    }
  }

  /** The step stores the updated list under `key` when there is one. */
  lemma UpdateListUnderWrites(o: Json, key: string, index: nat, field: string, value: string)
    requires o.JObj? && ListEditable(Prop(Some(o), key), index) && IsArray(Prop(Some(o), key))
    ensures Prop(Some(UpdateListUnder(o, key, index, field, value)), key)
            == Some(JArr(UpdateArray(Prop(Some(o), key).value.elems, index, field, value)))
  {
    WithProps(Some(o), key, JArr(UpdateArray(Prop(Some(o), key).value.elems, index, field, value)));
  }

  /** `handleArrayChange` on a copy: a section that is a list has its entry
      updated; otherwise, for an object section, each of `items`, `reports`
      and `weekly` that is a list has its entry updated, each check
      independent of the others; any other section is left alone. */
  function CopyArrayChange(prev: Json, section: string, index: nat, field: string, value: string): (r: Result<Json, Exception>)
    requires CopyArrayChangeDefined(prev, section, index)
    ensures r.Success? && r.value.JObj?
  {
    DeepCopyEqual(prev);
    var copy := DeepCopy(prev).value;
    var sec := Section(copy, section);
    if IsArray(sec) then
      Success(With(Some(copy), section, JArr(UpdateArray(sec.value.elems, index, field, value))))
    else if IsObject(sec) then
      Success(With(Some(copy), section, UpdateLists(sec.value, index, field, value)))
    else
      Success(copy)
  }

  /** No two of `items`, `reports` and `weekly` are lists. */
  predicate AtMostOneArray(o: Option<Json>)
  {
    && !(IsArray(Prop(o, "items")) && IsArray(Prop(o, "reports")))
    && !(IsArray(Prop(o, "items")) && IsArray(Prop(o, "weekly")))
    && !(IsArray(Prop(o, "reports")) && IsArray(Prop(o, "weekly")))
  }

  /** With at most one list in the section, the independent checks of the
      copy-based edit and the first-match dispatch of the spread-based one
      edit the same list, and the two give the same document. */
  lemma CopyArrayChangeSpread(prev: Json, section: string, index: nat, field: string, value: string)
    requires CopyArrayChangeDefined(prev, section, index) && AtMostOneArray(Section(prev, section))
    ensures ArrayChangeDefined(prev, section, index)
    ensures CopyArrayChange(prev, section, index, field, value) == Success(ArrayChange(prev, section, index, field, value))
  {
    DeepCopyEqual(prev);
    var sec := Section(prev, section);
    if IsObject(sec) && !IsArray(sec) {
      var o := sec.value;
      var c := UpdateLists(o, index, field, value);
      match FindList(sec)
      case NoList =>
        assert c == o;
        PutSame(prev.members, section);
      case Bare(_) =>
      case Under(key, es) =>
        assert c == With(sec, key, JArr(UpdateArray(es, index, field, value)));
    }
  }

  /** Every list of an object section is edited, not only the first: the
      copy-based edit holds the updated list under each of `items`,
      `reports` and `weekly` that held one. */
  lemma CopyArrayChangeEveryList(prev: Json, section: string, index: nat, field: string, value: string, key: string)
    requires CopyArrayChangeDefined(prev, section, index)
    requires IsObject(Section(prev, section)) && key in ListKeys && IsArray(Prop(Section(prev, section), key))
    ensures var r := CopyArrayChange(prev, section, index, field, value).value;
            Prop(Section(r, section), key)
            == Some(JArr(UpdateArray(Prop(Section(prev, section), key).value.elems, index, field, value)))
  {
    DeepCopyEqual(prev);
    var o := Section(prev, section).value;
    UpdateListsEvery(o, index, field, value, key);
    WithProps(Some(prev), section, UpdateLists(o, index, field, value));
  }

  /** A section that holds no list is left alone: the copy is returned
      unchanged and equals the previous document. */
  lemma CopyArrayChangeNoList(prev: Json, section: string, index: nat, field: string, value: string)
    requires CopyArrayChangeDefined(prev, section, index) && FindList(Section(prev, section)).NoList?
    ensures CopyArrayChange(prev, section, index, field, value) == Success(prev)
  {
    CopyArrayChangeSpread(prev, section, index, field, value);
  }

  /** Where the spread-based edit is defined and the section names at most
      one list, the copy-based edit is defined too. */
  lemma CopyArrayChangeDefinedFind(prev: Json, section: string, index: nat)
    requires WellFormed(prev) && ArrayChangeDefined(prev, section, index)
    requires Prop(Section(prev, section), "items").Some? ==> Prop(Section(prev, section), "reports").None?
    requires Prop(Section(prev, section), "items").Some? ==> Prop(Section(prev, section), "weekly").None?
    requires Prop(Section(prev, section), "reports").Some? ==> Prop(Section(prev, section), "weekly").None?
    ensures CopyArrayChangeDefined(prev, section, index) && AtMostOneArray(Section(prev, section))
  {
  }

  // ---------------------------------------------------------------------
  // On well-shaped documents

  /** The objects a text input assigns into exist in a well-shaped
      document: its section and, for the bank account, `finance.account`. */
  lemma TextTargets(ms: seq<Member>, d: BulletinData, f: TextField)
    requires Decode(JObj(ms)) == Some(d)
    ensures IsObject(Section(JObj(ms), Path(f)[0]))
    ensures IsAccount(f) ==> IsObject(Prop(Section(JObj(ms), "finance"), "account"))
  {
    match f {
      case MainIssue | MainDate | MainTime => MainOf(ms, d); MainShape(Section(JObj(ms), "main"));
      case AboutTitle | AboutBody => AboutOf(ms, d); AboutShape(Section(JObj(ms), "about"));
      case HymnTitle => HymnOf(ms, d); HymnShape(Section(JObj(ms), "hymn"));
      case NewsTitle => NewsOf(ms, d); NewsShape(Section(JObj(ms), "news"));
      case AccountBank | AccountNumber | AccountHolder =>
        FinanceOf(ms, d);
        FinanceShape(Section(JObj(ms), "finance"));
        AccountReads(Section(JObj(ms), "finance"), d.finance);
      case MissionariesQuote => MissionariesOf(ms, d); MissionariesShape(Section(JObj(ms), "missionaries"));
      case SchedulePrayerList | ScheduleSermonList => ScheduleOf(ms, d); ScheduleShape(Section(JObj(ms), "schedule"));
    }
  }

  /** On a well-shaped document the copy-based text edit never throws and
      agrees with the spread-based one: the result is well-shaped and only
      the input's text has changed. */
  lemma CopyTextChangeTyped(j: Json, d: BulletinData, f: TextField, v: string)
    requires Decode(j) == Some(d)
    ensures WellFormed(j) && TextChangeDefined(j, Name(f)) && CopyTextChangeDefined(j, Name(f))
    ensures CopyTextChange(j, Name(f), v) == Success(TextChange(j, Name(f), v))
    ensures Decode(CopyTextChange(j, Name(f), v).value) == Some(SetText(d, f, v))
  {
    WellShapedWellFormed(j);
    TextChangeTyped(j, d, f, v);
    NamePath(f);
    TextTargets(j.members, d, f);
    TextChangeCopyDefined(j, Name(f));
    CopyTextChangeSpread(j, Name(f), v);
  }

  /** On a well-shaped document the copy-based list edit of an entry the
      form shows agrees with the spread-based one: each section holds at
      most one list, so the independent checks find the same list as the
      first-match dispatch. */
  lemma CopyArrayChangeTyped(j: Json, d: BulletinData, a: ArrayField, i: nat, v: string)
    requires Decode(j) == Some(d) && i < ListLength(d, a)
    ensures CopyArrayChangeDefined(j, ListSection(a), i)
    ensures CopyArrayChange(j, ListSection(a), i, EntryKey(a), v)
            == Success(ArrayChange(j, ListSection(a), i, EntryKey(a), v))
    ensures Decode(CopyArrayChange(j, ListSection(a), i, EntryKey(a), v).value) == Some(SetEntry(d, a, i, v))
  {
    var s := ListSection(a);
    WellShapedWellFormed(j);
    ArrayChangeTyped(j, d, a, i, v);
    AtMostOneList(j, d, s);
    CopyArrayChangeDefinedFind(j, s, i);
    CopyArrayChangeSpread(j, s, i, EntryKey(a), v);
  }

  /** A list edit pointed at `main`, `about` or `hymn` of a well-shaped
      document finds no list and gives back the document unchanged. */
  lemma CopyNoListSection(j: Json, d: BulletinData, s: string, i: nat, k: string, v: string)
    requires Decode(j) == Some(d) && (s == "main" || s == "about" || s == "hymn")
    ensures CopyArrayChangeDefined(j, s, i)
    ensures CopyArrayChange(j, s, i, k, v) == Success(j)
  {
    WellShapedWellFormed(j);
    NoListSection(j, d, s, i, k, v);
    AtMostOneList(j, d, s);
    CopyArrayChangeDefinedFind(j, s, i);
    CopyArrayChangeNoList(j, s, i, k, v);
  }
}

=== FILE: document_edits.dfy ===
/** How writes on the JSON value of a bulletin show up in its decoded
    `BulletinData`: writing a property of a section object, or replacing a
    whole section, decodes to the record with that one field or section
    replaced and everything else as before. */
module DocumentEdits {
  import opened Wrappers
  import opened JsonValue
  import opened Bulletin

  /** A write of an allowed name keeps the names distinct and allowed. */
  lemma PutWithin(ms: seq<Member>, k: string, v: Json, ks: seq<string>)
    requires Distinct(Keys(ms)) && KeysWithin(ms, ks) && k in ks
    ensures Distinct(Keys(Put(ms, k, v))) && KeysWithin(Put(ms, k, v), ks)
  {
    DistinctPut(ms, k, v);
    KeysWithinPut(ms, k, v, ks);
  }

  // ---------------------------------------------------------------------
  // Text fields of the sections

  function SetMainText(m: Main, k: string, v: string): Main
    requires k in MainKeys
  {
    if k == "issue" then m.(issue := v) else if k == "date" then m.(date := v) else m.(time := v)
  }

  lemma MainPut(ms: seq<Member>, m: Main, k: string, v: string)
    requires DecodeMain(Some(JObj(ms))) == Some(m) && k in MainKeys
    ensures DecodeMain(Some(JObj(Put(ms, k, JStr(v))))) == Some(SetMainText(m, k, v))
  {
    MainMembers(ms, m);
    PutWithin(ms, k, JStr(v), MainKeys);
    MainKeysCases();
    MainMembers(Put(ms, k, JStr(v)), SetMainText(m, k, v));
  }

  function SetAboutText(a: About, k: string, v: string): About
    requires k in AboutKeys
  {
    if k == "title" then a.(title := v) else a.(body := v)
  }

  lemma AboutPut(ms: seq<Member>, a: About, k: string, v: string)
    requires DecodeAbout(Some(JObj(ms))) == Some(a) && k in AboutKeys
    ensures DecodeAbout(Some(JObj(Put(ms, k, JStr(v))))) == Some(SetAboutText(a, k, v))
  {
    AboutMembers(ms, a);
    PutWithin(ms, k, JStr(v), AboutKeys);
    AboutKeysCases();
    AboutMembers(Put(ms, k, JStr(v)), SetAboutText(a, k, v));
  }

  lemma HymnTitlePut(ms: seq<Member>, h: Hymn, v: string)
    requires DecodeHymn(Some(JObj(ms))) == Some(h)
    ensures DecodeHymn(Some(JObj(Put(ms, "title", JStr(v))))) == Some(h.(title := v))
  {
    HymnMembers(ms, h);
    PutWithin(ms, "title", JStr(v), HymnKeys);
    HymnMembers(Put(ms, "title", JStr(v)), h.(title := v));
  }

  /** Storing a data URL as the music sheet makes it present. */
  lemma HymnMusicSheetPut(ms: seq<Member>, h: Hymn, url: string)
    requires DecodeHymn(Some(JObj(ms))) == Some(h)
    ensures DecodeHymn(Some(JObj(Put(ms, "musicSheet", JStr(url))))) == Some(h.(musicSheet := Some(url)))
  {
    HymnMembers(ms, h);
    PutWithin(ms, "musicSheet", JStr(url), HymnKeys);
    HymnMembers(Put(ms, "musicSheet", JStr(url)), h.(musicSheet := Some(url)));
  }

  lemma NewsTitlePut(ms: seq<Member>, n: News, v: string)
    requires DecodeNews(Some(JObj(ms))) == Some(n)
    ensures DecodeNews(Some(JObj(Put(ms, "title", JStr(v))))) == Some(n.(title := v))
  {
    NewsMembers(ms, n);
    PutWithin(ms, "title", JStr(v), NewsKeys);
    NewsMembers(Put(ms, "title", JStr(v)), n.(title := v));
  }

  lemma NewsItemsPut(ms: seq<Member>, n: News, x: Json, items: seq<NewsItem>)
    requires DecodeNews(Some(JObj(ms))) == Some(n) && List(Some(x), DecodeNewsItem) == Some(items)
    ensures DecodeNews(Some(JObj(Put(ms, "items", x)))) == Some(n.(items := items))
  {
    NewsMembers(ms, n);
    PutWithin(ms, "items", x, NewsKeys);
    NewsMembers(Put(ms, "items", x), n.(items := items));
  }

  function SetAccountText(a: Account, k: string, v: string): Account
    requires k in AccountKeys
  {
    if k == "bank" then a.(bank := v) else if k == "number" then a.(number := v) else a.(holder := v)
  }

  lemma AccountPut(ms: seq<Member>, a: Account, k: string, v: string)
    requires DecodeAccount(Some(JObj(ms))) == Some(a) && k in AccountKeys
    ensures DecodeAccount(Some(JObj(Put(ms, k, JStr(v))))) == Some(SetAccountText(a, k, v))
  {
    AccountMembers(ms, a);
    PutWithin(ms, k, JStr(v), AccountKeys);
    AccountKeysCases();
    AccountMembers(Put(ms, k, JStr(v)), SetAccountText(a, k, v));
  }

  lemma FinanceAccountPut(ms: seq<Member>, f: Finance, x: Json, a: Account)
    requires DecodeFinance(Some(JObj(ms))) == Some(f) && DecodeAccount(Some(x)) == Some(a)
    ensures DecodeFinance(Some(JObj(Put(ms, "account", x)))) == Some(f.(account := a))
  {
    FinanceMembers(ms, f);
    PutWithin(ms, "account", x, FinanceKeys);
    FinanceMembers(Put(ms, "account", x), f.(account := a));
  }

  lemma FinanceReportsPut(ms: seq<Member>, f: Finance, x: Json, reports: seq<FinanceReportItem>)
    requires DecodeFinance(Some(JObj(ms))) == Some(f) && List(Some(x), DecodeFinanceReportItem) == Some(reports)
    ensures DecodeFinance(Some(JObj(Put(ms, "reports", x)))) == Some(f.(reports := reports))
  {
    FinanceMembers(ms, f);
    PutWithin(ms, "reports", x, FinanceKeys);
    FinanceMembers(Put(ms, "reports", x), f.(reports := reports));
  }

  lemma MissionariesQuotePut(ms: seq<Member>, m: Missionaries, v: string)
    requires DecodeMissionaries(Some(JObj(ms))) == Some(m)
    ensures DecodeMissionaries(Some(JObj(Put(ms, "quote", JStr(v))))) == Some(m.(quote := v))
  {
    MissionariesMembers(ms, m);
    PutWithin(ms, "quote", JStr(v), MissionariesKeys);
    MissionariesMembers(Put(ms, "quote", JStr(v)), m.(quote := v));
  }

  lemma MissionariesItemsPut(ms: seq<Member>, m: Missionaries, x: Json, items: seq<MissionaryItem>)
    requires DecodeMissionaries(Some(JObj(ms))) == Some(m) && List(Some(x), DecodeMissionaryItem) == Some(items)
    ensures DecodeMissionaries(Some(JObj(Put(ms, "items", x)))) == Some(m.(items := items))
  {
    MissionariesMembers(ms, m);
    PutWithin(ms, "items", x, MissionariesKeys);
    MissionariesMembers(Put(ms, "items", x), m.(items := items));
  }

  function SetScheduleText(s: Schedule, k: string, v: string): Schedule
    requires k == "prayerList" || k == "sermonList"
  {
    if k == "prayerList" then s.(prayerList := v) else s.(sermonList := v)
  }

  lemma ScheduleTextPut(ms: seq<Member>, s: Schedule, k: string, v: string)
    requires DecodeSchedule(Some(JObj(ms))) == Some(s) && (k == "prayerList" || k == "sermonList")
    ensures DecodeSchedule(Some(JObj(Put(ms, k, JStr(v))))) == Some(SetScheduleText(s, k, v))
  {
    ScheduleMembers(ms, s);
    PutWithin(ms, k, JStr(v), ScheduleKeys);
    ScheduleMembers(Put(ms, k, JStr(v)), SetScheduleText(s, k, v));
  }

  lemma ScheduleWeeklyPut(ms: seq<Member>, s: Schedule, x: Json, weekly: seq<WeeklyScheduleItem>)
    requires DecodeSchedule(Some(JObj(ms))) == Some(s) && List(Some(x), DecodeWeeklyScheduleItem) == Some(weekly)
    ensures DecodeSchedule(Some(JObj(Put(ms, "weekly", x)))) == Some(s.(weekly := weekly))
  {
    ScheduleMembers(ms, s);
    PutWithin(ms, "weekly", x, ScheduleKeys);
    ScheduleMembers(Put(ms, "weekly", x), s.(weekly := weekly));
  }

  // ---------------------------------------------------------------------
  // Text fields of the list entries

  /** The entry with one property set: `item` is replaced, and each of
      the optional properties becomes present. */
  function SetWorshipText(w: WorshipOrderItem, k: string, v: string): WorshipOrderItem
    requires k in WorshipOrderItemKeys
  {
    if k == "item" then w.(item := v)
    else if k == "subitem" then w.(subitem := Some(v))
    else if k == "person" then w.(person := Some(v))
    else w.(subperson := Some(v))
  }

  lemma WorshipOrderItemPut(ms: seq<Member>, w: WorshipOrderItem, k: string, v: string)
    requires DecodeWorshipOrderItem(JObj(ms)) == Some(w) && k in WorshipOrderItemKeys
    ensures DecodeWorshipOrderItem(JObj(Put(ms, k, JStr(v)))) == Some(SetWorshipText(w, k, v))
  {
    WorshipOrderItemMembers(ms, w);
    PutWithin(ms, k, JStr(v), WorshipOrderItemKeys);
    WorshipOrderItemKeysCases();
    WorshipOrderItemMembers(Put(ms, k, JStr(v)), SetWorshipText(w, k, v));
  }

  function SetNewsItemText(n: NewsItem, k: string, v: string): NewsItem
    requires k in NewsItemKeys
  {
    if k == "date" then n.(date := v) else n.(event := v)
  }

  lemma NewsItemPut(ms: seq<Member>, n: NewsItem, k: string, v: string)
    requires DecodeNewsItem(JObj(ms)) == Some(n) && k in NewsItemKeys
    ensures DecodeNewsItem(JObj(Put(ms, k, JStr(v)))) == Some(SetNewsItemText(n, k, v))
  {
    NewsItemMembers(ms, n);
    PutWithin(ms, k, JStr(v), NewsItemKeys);
    NewsItemKeysCases();
    NewsItemMembers(Put(ms, k, JStr(v)), SetNewsItemText(n, k, v));
  }

  function SetReportText(f: FinanceReportItem, k: string, v: string): FinanceReportItem
    requires k in FinanceReportItemKeys
  {
    if k == "item" then f.(item := v) else f.(amount := v)
  }

  lemma FinanceReportItemPut(ms: seq<Member>, f: FinanceReportItem, k: string, v: string)
    requires DecodeFinanceReportItem(JObj(ms)) == Some(f) && k in FinanceReportItemKeys
    ensures DecodeFinanceReportItem(JObj(Put(ms, k, JStr(v)))) == Some(SetReportText(f, k, v))
  {
    FinanceReportItemMembers(ms, f);
    PutWithin(ms, k, JStr(v), FinanceReportItemKeys);
    FinanceReportItemKeysCases();
    FinanceReportItemMembers(Put(ms, k, JStr(v)), SetReportText(f, k, v));
  }

  function SetMissionaryText(m: MissionaryItem, k: string, v: string): MissionaryItem
    requires k in MissionaryItemKeys
  {
    if k == "country" then m.(country := v) else m.(names := v)
  }

  lemma MissionaryItemPut(ms: seq<Member>, m: MissionaryItem, k: string, v: string)
    requires DecodeMissionaryItem(JObj(ms)) == Some(m) && k in MissionaryItemKeys
    ensures DecodeMissionaryItem(JObj(Put(ms, k, JStr(v)))) == Some(SetMissionaryText(m, k, v))
  {
    MissionaryItemMembers(ms, m);
    PutWithin(ms, k, JStr(v), MissionaryItemKeys);
    MissionaryItemKeysCases();
    MissionaryItemMembers(Put(ms, k, JStr(v)), SetMissionaryText(m, k, v));
  }

  function SetWeeklyText(w: WeeklyScheduleItem, k: string, v: string): WeeklyScheduleItem
    requires k in WeeklyScheduleItemKeys
  {
    if k == "date" then w.(date := v) else if k == "prayer" then w.(prayer := v) else w.(sermon := v)
  }

  lemma WeeklyScheduleItemPut(ms: seq<Member>, w: WeeklyScheduleItem, k: string, v: string)
    requires DecodeWeeklyScheduleItem(JObj(ms)) == Some(w) && k in WeeklyScheduleItemKeys
    ensures DecodeWeeklyScheduleItem(JObj(Put(ms, k, JStr(v)))) == Some(SetWeeklyText(w, k, v))
  {
    WeeklyScheduleItemMembers(ms, w);
    PutWithin(ms, k, JStr(v), WeeklyScheduleItemKeys);
    WeeklyScheduleItemKeysCases();
    WeeklyScheduleItemMembers(Put(ms, k, JStr(v)), SetWeeklyText(w, k, v));
  }

  // ---------------------------------------------------------------------
  // Whole sections of the document

  /** Two member lists hold the same value under every section name but
      `k`. */
  predicate SameSectionsExcept(ms': seq<Member>, ms: seq<Member>, k: string)
  {
    && (k != "main" ==> Get(ms', "main") == Get(ms, "main"))
    && (k != "about" ==> Get(ms', "about") == Get(ms, "about"))
    && (k != "worshipOrder" ==> Get(ms', "worshipOrder") == Get(ms, "worshipOrder"))
    && (k != "hymn" ==> Get(ms', "hymn") == Get(ms, "hymn"))
    && (k != "news" ==> Get(ms', "news") == Get(ms, "news"))
    && (k != "finance" ==> Get(ms', "finance") == Get(ms, "finance"))
    && (k != "missionaries" ==> Get(ms', "missionaries") == Get(ms, "missionaries"))
    && (k != "schedule" ==> Get(ms', "schedule") == Get(ms, "schedule"))
  }

  lemma PutSectionsA(ms: seq<Member>, k: string, x: Json)
    ensures var r := Put(ms, k, x);
            && (k != "main" ==> Get(r, "main") == Get(ms, "main"))
            && (k != "about" ==> Get(r, "about") == Get(ms, "about"))
            && (k != "worshipOrder" ==> Get(r, "worshipOrder") == Get(ms, "worshipOrder"))
            && (k != "hymn" ==> Get(r, "hymn") == Get(ms, "hymn"))
  {
  }

  lemma PutSectionsB(ms: seq<Member>, k: string, x: Json)
    ensures var r := Put(ms, k, x);
            && (k != "news" ==> Get(r, "news") == Get(ms, "news"))
            && (k != "finance" ==> Get(r, "finance") == Get(ms, "finance"))
            && (k != "missionaries" ==> Get(r, "missionaries") == Get(ms, "missionaries"))
            && (k != "schedule" ==> Get(r, "schedule") == Get(ms, "schedule"))
  {
  }

  /** What the sections of a decoded document decode to. */
  lemma DocumentSections(ms: seq<Member>, d: BulletinData)
    requires Decode(JObj(ms)) == Some(d)
    ensures DecodeMain(Get(ms, "main")) == Some(d.main)
    ensures DecodeAbout(Get(ms, "about")) == Some(d.about)
    ensures List(Get(ms, "worshipOrder"), DecodeWorshipOrderItem) == Some(d.worshipOrder)
    ensures DecodeHymn(Get(ms, "hymn")) == Some(d.hymn)
    ensures DecodeNews(Get(ms, "news")) == Some(d.news)
    ensures DecodeFinance(Get(ms, "finance")) == Some(d.finance)
    ensures DecodeMissionaries(Get(ms, "missionaries")) == Some(d.missionaries)
    ensures DecodeSchedule(Get(ms, "schedule")) == Some(d.schedule)
    ensures Distinct(Keys(ms)) && KeysWithin(ms, DocumentKeys)
  { }

  /** Writing one section of a document: the names stay distinct section
      names, the section holds the new value and the others are as they
      were. */
  lemma PutSection(ms: seq<Member>, d: BulletinData, k: string, x: Json)
    requires Decode(JObj(ms)) == Some(d) && k in DocumentKeys
    ensures Distinct(Keys(Put(ms, k, x))) && KeysWithin(Put(ms, k, x), DocumentKeys)
    ensures Get(Put(ms, k, x), k) == Some(x)
    ensures SameSectionsExcept(Put(ms, k, x), ms, k)
  {
    DocumentMembers(ms, d);
    PutWithin(ms, k, x, DocumentKeys);
    PutSectionsA(ms, k, x);
    PutSectionsB(ms, k, x);
  }

  /** Decoding reads only the sections: a member list agreeing with a
      document on every section but `main` decodes to the document with
      that section replaced. */
  lemma MainSwap(ms: seq<Member>, ms': seq<Member>, d: BulletinData, y: Main)
    requires Decode(JObj(ms)) == Some(d)
    requires Distinct(Keys(ms')) && KeysWithin(ms', DocumentKeys)
    requires DecodeMain(Get(ms', "main")) == Some(y)
    requires SameSectionsExcept(ms', ms, "main")
    ensures Decode(JObj(ms')) == Some(d.(main := y))
  {
  }

  /** `{...o, main: x}` on a document object `o`: the document
      with its `main` section replaced by what `x` decodes to. */
  lemma WithMain(ms: seq<Member>, d: BulletinData, x: Json, y: Main)
    requires Decode(JObj(ms)) == Some(d) && DecodeMain(Some(x)) == Some(y)
    ensures Decode(With(Some(JObj(ms)), "main", x)) == Some(d.(main := y))
  {
    PutSection(ms, d, "main", x);
    MainSwap(ms, Put(ms, "main", x), d, y);
  }

  /** Decoding reads only the sections: a member list agreeing with a
      document on every section but `about` decodes to the document with
      that section replaced. */
  lemma AboutSwap(ms: seq<Member>, ms': seq<Member>, d: BulletinData, y: About)
    requires Decode(JObj(ms)) == Some(d)
    requires Distinct(Keys(ms')) && KeysWithin(ms', DocumentKeys)
    requires DecodeAbout(Get(ms', "about")) == Some(y)
    requires SameSectionsExcept(ms', ms, "about")
    ensures Decode(JObj(ms')) == Some(d.(about := y))
  {
  }

  /** `{...o, about: x}` on a document object `o`: the document
      with its `about` section replaced by what `x` decodes to. */
  lemma WithAbout(ms: seq<Member>, d: BulletinData, x: Json, y: About)
    requires Decode(JObj(ms)) == Some(d) && DecodeAbout(Some(x)) == Some(y)
    ensures Decode(With(Some(JObj(ms)), "about", x)) == Some(d.(about := y))
  {
    PutSection(ms, d, "about", x);
    AboutSwap(ms, Put(ms, "about", x), d, y);
  }

  /** Decoding reads only the sections: a member list agreeing with a
      document on every section but `worshipOrder` decodes to the document with
      that section replaced. */
  lemma WorshipOrderSwap(ms: seq<Member>, ms': seq<Member>, d: BulletinData, y: seq<WorshipOrderItem>)
    requires Decode(JObj(ms)) == Some(d)
    requires Distinct(Keys(ms')) && KeysWithin(ms', DocumentKeys)
    requires List(Get(ms', "worshipOrder"), DecodeWorshipOrderItem) == Some(y)
    requires SameSectionsExcept(ms', ms, "worshipOrder")
    ensures Decode(JObj(ms')) == Some(d.(worshipOrder := y))
  {
  }

  /** `{...o, worshipOrder: x}` on a document object `o`: the document
      with its `worshipOrder` section replaced by what `x` decodes to. */
  lemma WithWorshipOrder(ms: seq<Member>, d: BulletinData, x: Json, y: seq<WorshipOrderItem>)
    requires Decode(JObj(ms)) == Some(d) && List(Some(x), DecodeWorshipOrderItem) == Some(y)
    ensures Decode(With(Some(JObj(ms)), "worshipOrder", x)) == Some(d.(worshipOrder := y))
  {
    PutSection(ms, d, "worshipOrder", x);
    WorshipOrderSwap(ms, Put(ms, "worshipOrder", x), d, y);
  }

  /** Decoding reads only the sections: a member list agreeing with a
      document on every section but `hymn` decodes to the document with
      that section replaced. */
  lemma HymnSwap(ms: seq<Member>, ms': seq<Member>, d: BulletinData, y: Hymn)
    requires Decode(JObj(ms)) == Some(d)
    requires Distinct(Keys(ms')) && KeysWithin(ms', DocumentKeys)
    requires DecodeHymn(Get(ms', "hymn")) == Some(y)
    requires SameSectionsExcept(ms', ms, "hymn")
    ensures Decode(JObj(ms')) == Some(d.(hymn := y))
  {
  }

  /** `{...o, hymn: x}` on a document object `o`: the document
      with its `hymn` section replaced by what `x` decodes to. */
  lemma WithHymn(ms: seq<Member>, d: BulletinData, x: Json, y: Hymn)
    requires Decode(JObj(ms)) == Some(d) && DecodeHymn(Some(x)) == Some(y)
    ensures Decode(With(Some(JObj(ms)), "hymn", x)) == Some(d.(hymn := y))
  {
    PutSection(ms, d, "hymn", x);
    HymnSwap(ms, Put(ms, "hymn", x), d, y);
  }

  /** Decoding reads only the sections: a member list agreeing with a
      document on every section but `news` decodes to the document with
      that section replaced. */
  lemma NewsSwap(ms: seq<Member>, ms': seq<Member>, d: BulletinData, y: News)
    requires Decode(JObj(ms)) == Some(d)
    requires Distinct(Keys(ms')) && KeysWithin(ms', DocumentKeys)
    requires DecodeNews(Get(ms', "news")) == Some(y)
    requires SameSectionsExcept(ms', ms, "news")
    ensures Decode(JObj(ms')) == Some(d.(news := y))
  {
  }

  /** `{...o, news: x}` on a document object `o`: the document
      with its `news` section replaced by what `x` decodes to. */
  lemma WithNews(ms: seq<Member>, d: BulletinData, x: Json, y: News)
    requires Decode(JObj(ms)) == Some(d) && DecodeNews(Some(x)) == Some(y)
    ensures Decode(With(Some(JObj(ms)), "news", x)) == Some(d.(news := y))
  {
    PutSection(ms, d, "news", x);
    NewsSwap(ms, Put(ms, "news", x), d, y);
  }

  /** Decoding reads only the sections: a member list agreeing with a
      document on every section but `finance` decodes to the document with
      that section replaced. */
  lemma FinanceSwap(ms: seq<Member>, ms': seq<Member>, d: BulletinData, y: Finance)
    requires Decode(JObj(ms)) == Some(d)
    requires Distinct(Keys(ms')) && KeysWithin(ms', DocumentKeys)
    requires DecodeFinance(Get(ms', "finance")) == Some(y)
    requires SameSectionsExcept(ms', ms, "finance")
    ensures Decode(JObj(ms')) == Some(d.(finance := y))
  {
  }

  /** `{...o, finance: x}` on a document object `o`: the document
      with its `finance` section replaced by what `x` decodes to. */
  lemma WithFinance(ms: seq<Member>, d: BulletinData, x: Json, y: Finance)
    requires Decode(JObj(ms)) == Some(d) && DecodeFinance(Some(x)) == Some(y)
    ensures Decode(With(Some(JObj(ms)), "finance", x)) == Some(d.(finance := y))
  {
    PutSection(ms, d, "finance", x);
    FinanceSwap(ms, Put(ms, "finance", x), d, y);
  }

  /** Decoding reads only the sections: a member list agreeing with a
      document on every section but `missionaries` decodes to the document with
      that section replaced. */
  lemma MissionariesSwap(ms: seq<Member>, ms': seq<Member>, d: BulletinData, y: Missionaries)
    requires Decode(JObj(ms)) == Some(d)
    requires Distinct(Keys(ms')) && KeysWithin(ms', DocumentKeys)
    requires DecodeMissionaries(Get(ms', "missionaries")) == Some(y)
    requires SameSectionsExcept(ms', ms, "missionaries")
    ensures Decode(JObj(ms')) == Some(d.(missionaries := y))
  {
  }

  /** `{...o, missionaries: x}` on a document object `o`: the document
      with its `missionaries` section replaced by what `x` decodes to. */
  lemma WithMissionaries(ms: seq<Member>, d: BulletinData, x: Json, y: Missionaries)
    requires Decode(JObj(ms)) == Some(d) && DecodeMissionaries(Some(x)) == Some(y)
    ensures Decode(With(Some(JObj(ms)), "missionaries", x)) == Some(d.(missionaries := y))
  {
    PutSection(ms, d, "missionaries", x);
    MissionariesSwap(ms, Put(ms, "missionaries", x), d, y);
  }

  /** Decoding reads only the sections: a member list agreeing with a
      document on every section but `schedule` decodes to the document with
      that section replaced. */
  lemma ScheduleSwap(ms: seq<Member>, ms': seq<Member>, d: BulletinData, y: Schedule)
    requires Decode(JObj(ms)) == Some(d)
    requires Distinct(Keys(ms')) && KeysWithin(ms', DocumentKeys)
    requires DecodeSchedule(Get(ms', "schedule")) == Some(y)
    requires SameSectionsExcept(ms', ms, "schedule")
    ensures Decode(JObj(ms')) == Some(d.(schedule := y))
  {
  }

  /** `{...o, schedule: x}` on a document object `o`: the document
      with its `schedule` section replaced by what `x` decodes to. */
  lemma WithSchedule(ms: seq<Member>, d: BulletinData, x: Json, y: Schedule)
    requires Decode(JObj(ms)) == Some(d) && DecodeSchedule(Some(x)) == Some(y)
    ensures Decode(With(Some(JObj(ms)), "schedule", x)) == Some(d.(schedule := y))
  {
    PutSection(ms, d, "schedule", x);
    ScheduleSwap(ms, Put(ms, "schedule", x), d, y);
  }
}

=== FILE: edit_mode.dfy ===
/** The editor's state updaters in their spread-based form: each takes the
    previous document value and returns the next one, built with object
    spread so that the previous value is never mutated. */
module EditMode {
  import opened Wrappers
  import opened JsonValue

  // ---------------------------------------------------------------------
  // Field names

  /** `name.split('.')`: the pieces between dots, empty pieces included. */
  function Split(name: string): (parts: seq<string>)
    ensures |parts| >= 1
    ensures forall i :: 0 <= i < |parts| ==> '.' !in parts[i]
  {
    if |name| == 0 then [""]
    else
      var tail := Split(name[1..]);
      if name[0] == '.' then [""] + tail
      else [[name[0]] + tail[0]] + tail[1..]
  }

  /** `parts.join('.')`, the inverse of `Split`. */
  function Join(parts: seq<string>): string
    requires |parts| >= 1
  {
    if |parts| == 1 then parts[0] else parts[0] + "." + Join(parts[1..])
  }

  /** Splitting a name and joining the pieces gives the name back. */
  lemma {:induction false} JoinSplit(name: string)
    ensures Join(Split(name)) == name
  {
    if |name| > 0 {
      var tail := Split(name[1..]);
      JoinSplit(name[1..]);
      if name[0] == '.' {
        assert Join([""] + tail) == "" + "." + Join(tail);
      } else {
        var parts := Split(name);
        assert parts[1..] == tail[1..];
        if |tail| == 1 {
          assert Join(parts) == [name[0]] + tail[0];
        } else {
          assert Join(parts) == [name[0]] + (tail[0] + "." + Join(tail[1..]));
        }
        assert [name[0]] + name[1..] == name;
      }
    }
  }

  /** A dot-free piece in front of a name joins the first piece of the
      name. */
  lemma {:induction false} SplitPrefix(p: string, rest: string)
    requires '.' !in p
    ensures Split(p + rest) == [p + Split(rest)[0]] + Split(rest)[1..]
  {
    if |p| > 0 {
      SplitPrefix(p[1..], rest);
      assert (p + rest)[1..] == p[1..] + rest;
      assert [p[0]] + (p[1..] + Split(rest)[0]) == p + Split(rest)[0];
    } else {
      assert p + rest == rest;
      assert Split(rest) == [Split(rest)[0]] + Split(rest)[1..];
      assert p + Split(rest)[0] == Split(rest)[0];
    }
  }

  /** Joining dot-free pieces and splitting the result gives the pieces
      back. */
  lemma {:induction false} SplitJoin(parts: seq<string>)
    requires |parts| >= 1
    requires forall i :: 0 <= i < |parts| ==> '.' !in parts[i]
    ensures Split(Join(parts)) == parts
  {
    var p := parts[0];
    if |parts| == 1 {
      SplitPrefix(p, "");
      assert p + "" == p;
    } else {
      var rest := Join(parts[1..]);
      SplitJoin(parts[1..]);
      assert Join(parts) == p + ("." + rest);
      assert ("." + rest)[1..] == rest;
      assert Split("." + rest) == [""] + parts[1..];
      SplitPrefix(p, "." + rest);
      assert p + "" == p;
      assert [p] + parts[1..] == parts;
    }
  }

  /** `if (subfield)`: the third piece exists and is not empty. */
  predicate HasSubfield(parts: seq<string>)
  {
    |parts| >= 3 && parts[2] != ""
  }

  // ---------------------------------------------------------------------
  // Property access on arbitrary values

  /** Values whose properties can be read without a TypeError. */
  predicate Readable(o: Option<Json>)
  {
    o.Some? && !o.value.JNull?
  }

  predicate IsArray(o: Option<Json>)
  {
    o.Some? && o.value.JArr?
  }

  /** `prev[section]`; `undefined` when there is no such section. */
  function Section(prev: Json, section: string): Option<Json>
  {
    Prop(Some(prev), section)
  }

  // ---------------------------------------------------------------------
  // handleTextChange

  /** What `handleTextChange` needs to run without a TypeError and without
      spreading a string or an array: a document object, a name with at
      least two pieces, a section that is not a string or an array and, for
      three pieces, a section that is present and not `null` whose field is
      not a string or an array. */
  predicate TextChangeDefined(prev: Json, name: string)
  {
    var parts := Split(name);
    && prev.JObj? && |parts| >= 2
    && Spreadable(Section(prev, parts[0]))
    && (HasSubfield(parts) ==>
          Readable(Section(prev, parts[0])) && Spreadable(Prop(Section(prev, parts[0]), parts[1])))
  }

  /** `{...prev, [section]: {...prev[section], [field]: v}}`: the shape
      every updater of the form shares. */
  function SetField(prev: Json, section: string, field: string, v: Json): (r: Json)
    ensures r.JObj?
  {
    With(Some(prev), section, With(Section(prev, section), field, v))
  }

  /** `SetField` stores `v` two levels down and changes nothing else: not
      the other sections, not the other properties of the section. */
  lemma SetFieldProps(prev: Json, section: string, field: string, v: Json)
    requires prev.JObj? && Spreadable(Section(prev, section))
    ensures var r := SetField(prev, section, field, v);
            && Lookup(r, [section, field]) == Some(v)
            && (forall k :: k != section ==> Section(r, k) == Section(prev, k))
            && (forall k :: k != field ==> Prop(Section(r, section), k) == Prop(Section(prev, section), k))
  {
    var inner := With(Section(prev, section), field, v);
    WithProps(Section(prev, section), field, v);
    WithProps(Some(prev), section, inner);
    LookupTwo(SetField(prev, section, field, v), section, field);
  }

  /** `handleTextChange(name, value)`: `{...prev, [section]:
      {...prev[section], [field]: value}}`, or with a subfield `{...prev,
      [section]: {...prev[section], [field]: {...prev[section][field],
      [subfield]: value}}}`. */
  function TextChange(prev: Json, name: string, value: string): (r: Json)
    requires TextChangeDefined(prev, name)
    ensures r.JObj?
  {
    var parts := Split(name);
    if HasSubfield(parts) then
      SetField(prev, parts[0], parts[1], With(Prop(Section(prev, parts[0]), parts[1]), parts[2], JStr(value)))
    else
      SetField(prev, parts[0], parts[1], JStr(value))
  }

  /** The edit writes the value at the leaf the name designates: two pieces
      deep, or three when there is a subfield. */
  lemma TextChangeWrites(prev: Json, name: string, value: string)
    requires TextChangeDefined(prev, name)
    ensures var parts := Split(name);
            Lookup(TextChange(prev, name, value), if HasSubfield(parts) then parts[..3] else parts[..2])
            == Some(JStr(value))
  {
    var parts := Split(name);
    var section, field := parts[0], parts[1];
    if HasSubfield(parts) {
      var old_ := Prop(Section(prev, section), field);
      var leaf := With(old_, parts[2], JStr(value));
      var r := SetField(prev, section, field, leaf);
      SetFieldProps(prev, section, field, leaf);
      WithProps(old_, parts[2], JStr(value));
      LookupThree(r, section, field, parts[2]);
      LookupTwo(Section(r, section).value, field, parts[2]);
      LookupTwo(r, section, field);
      assert parts[..3] == [section, field, parts[2]];
    } else {
      SetFieldProps(prev, section, field, JStr(value));
      assert parts[..2] == [section, field];
    }
  }

  /** Nothing else changes: the other sections, the other fields of the
      section and, with a subfield, the other subfields. */
  lemma TextChangeFrame(prev: Json, name: string, value: string)
    requires TextChangeDefined(prev, name)
    ensures var r, parts := TextChange(prev, name, value), Split(name);
            && (forall k :: k != parts[0] ==> Section(r, k) == Section(prev, k))
            && (forall k :: k != parts[1] ==> Prop(Section(r, parts[0]), k) == Prop(Section(prev, parts[0]), k))
            && (HasSubfield(parts) ==>
                  forall k :: k != parts[2] ==>
                    Prop(Prop(Section(r, parts[0]), parts[1]), k) == Prop(Prop(Section(prev, parts[0]), parts[1]), k))
  {
    var parts := Split(name);
    var section, field := parts[0], parts[1];
    if HasSubfield(parts) {
      var leaf := With(Prop(Section(prev, section), field), parts[2], JStr(value));
      SetFieldProps(prev, section, field, leaf);
      LookupTwo(SetField(prev, section, field, leaf), section, field);
      WithProps(Prop(Section(prev, section), field), parts[2], JStr(value));
    } else {
      SetFieldProps(prev, section, field, JStr(value));
    }
  }

  /** A two-piece name `section.field` sets `prev[section][field]`. */
  lemma TextChangeTwo(prev: Json, name: string, section: string, field: string, value: string)
    requires Split(name) == [section, field]
    requires prev.JObj? && Spreadable(Section(prev, section))
    ensures TextChangeDefined(prev, name)
    ensures TextChange(prev, name, value) == SetField(prev, section, field, JStr(value))
  { }

  /** A three-piece name `section.field.subfield` with a non-empty
      subfield sets `prev[section][field][subfield]`. */
  lemma TextChangeThree(prev: Json, name: string, section: string, field: string, subfield: string, value: string)
    requires Split(name) == [section, field, subfield] && subfield != ""
    requires prev.JObj? && Readable(Section(prev, section)) && Spreadable(Section(prev, section))
    requires Spreadable(Prop(Section(prev, section), field))
    ensures TextChangeDefined(prev, name)
    ensures TextChange(prev, name, value)
            == SetField(prev, section, field, With(Prop(Section(prev, section), field), subfield, JStr(value)))
  { }

  // ---------------------------------------------------------------------
  // handleArrayChange

  /** The names under which a section may hold its list, in the order they
      are tried. */
  const ListKeys: seq<string> := ["items", "reports", "weekly"]

  /** Where a section value holds its list. */
  datatype ListAt = Bare(elems: seq<Json>) | Under(key: string, elems: seq<Json>) | NoList

  /** The dispatch of `handleArrayChange`: the section itself when it is an
      array, otherwise the first of `items`, `reports` and `weekly` that
      holds an array, otherwise nothing. */
  function FindList(o: Option<Json>): (l: ListAt)
    ensures l.Bare? <==> IsArray(o)
    ensures l.Bare? ==> l.elems == o.value.elems
    ensures l.Under? ==> o.Some? && o.value.JObj? && l.key in ListKeys && Prop(o, l.key) == Some(JArr(l.elems))
    ensures l.Under? && l.key != "items" ==> !IsArray(Prop(o, "items"))
    ensures l.Under? && l.key == "weekly" ==> !IsArray(Prop(o, "reports"))
    ensures l.NoList? ==> !IsArray(o) && forall k :: k in ListKeys ==> !IsArray(Prop(o, k))
  {
    if IsArray(o) then Bare(o.value.elems)
    else if o.Some? && o.value.JObj? then
      if IsArray(Prop(o, "items")) then Under("items", Prop(o, "items").value.elems)
      else if IsArray(Prop(o, "reports")) then Under("reports", Prop(o, "reports").value.elems)
      else if IsArray(Prop(o, "weekly")) then Under("weekly", Prop(o, "weekly").value.elems)
      else NoList
    else NoList
  }

  /** `updateArray`: a copy of the list whose `index`-th entry is
      `{...arr[index], [field]: value}`. The entry keeps its other
      properties in their order; a missing `field` is added after them.
      An entry that is a string or an array is spread into its index
      properties first; one that is `null` or a boolean contributes none. */
  function UpdateArray(arr: seq<Json>, index: nat, field: string, value: string): (r: seq<Json>)
    requires index < |arr|
    ensures |r| == |arr|
    ensures forall i :: 0 <= i < |arr| && i != index ==> r[i] == arr[i]
    ensures r[index].JObj? && Get(r[index].members, field) == Some(JStr(value))
    ensures forall k :: k != field ==> Get(r[index].members, k) == Get(Spread(Some(arr[index])), k)
    ensures Keys(r[index].members)
            == if field in Keys(Spread(Some(arr[index]))) then Keys(Spread(Some(arr[index])))
               else Keys(Spread(Some(arr[index]))) + [field]
  {
    PutKeys(Spread(Some(arr[index])), field, JStr(value));
    arr[index := With(Some(arr[index]), field, JStr(value))]
  }

  /** An entry that is an object keeps every property but `field`. */
  lemma UpdateArrayObject(arr: seq<Json>, index: nat, field: string, value: string)
    requires index < |arr| && arr[index].JObj?
    ensures forall k :: k != field ==> Get(UpdateArray(arr, index, field, value)[index].members, k) == Prop(Some(arr[index]), k)
  {
  }

  /** An entry that is a string becomes an object holding each character
      under its index, next to `field`. */
  lemma UpdateArrayString(arr: seq<Json>, index: nat, field: string, value: string, i: nat)
    requires index < |arr| && arr[index].JStr? && i < |arr[index].s| && IndexName(i) != field
    ensures Get(UpdateArray(arr, index, field, value)[index].members, IndexName(i)) == Some(JStr([arr[index].s[i]]))
  {
    IndexMembersRead(Characters(arr[index].s));
  }

  /** An entry that is an array becomes an object holding each element
      under its index, next to `field`. */
  lemma UpdateArrayArray(arr: seq<Json>, index: nat, field: string, value: string, i: nat)
    requires index < |arr| && arr[index].JArr? && i < |arr[index].elems| && IndexName(i) != field
    ensures Get(UpdateArray(arr, index, field, value)[index].members, IndexName(i)) == Some(arr[index].elems[i])
  {
    IndexMembersRead(arr[index].elems);
  }

  /** Editing `item` of the entry `"ab"` to `"x"` gives the entry
      `{0: "a", 1: "b", item: "x"}`, as `{..."ab", item: "x"}` does. */
  lemma UpdateArrayStringExample()
    ensures UpdateArray([JStr("ab")], 0, "item", "x")
            == [JObj([Member("0", JStr("a")), Member("1", JStr("b")), Member("item", JStr("x"))])]
  {
    var entry := [Member("0", JStr("a")), Member("1", JStr("b"))];
    SpreadExample();
    assert Put(entry[1..], "item", JStr("x")) == [entry[1], Member("item", JStr("x"))];
    assert Put(entry, "item", JStr("x")) == entry + [Member("item", JStr("x"))];
    var edited := With(Some(JStr("ab")), "item", JStr("x"));
    assert edited == JObj(entry + [Member("item", JStr("x"))]);
    assert entry + [Member("item", JStr("x"))]
           == [Member("0", JStr("a")), Member("1", JStr("b")), Member("item", JStr("x"))];
    assert UpdateArray([JStr("ab")], 0, "item", "x") == [JStr("ab")][0 := edited] == [edited];
  }

  /** `{..."ab"}` is `{0: "a", 1: "b"}`. */
  lemma SpreadExample()
    ensures Spread(Some(JStr("ab"))) == [Member("0", JStr("a")), Member("1", JStr("b"))]
  {
    assert IndexName(0) == "0" && IndexName(1) == "1";
    var cs := Characters("ab");
    assert cs == [JStr("a"), JStr("b")];
    var ms := IndexMembers(cs);
    assert |ms| == 2 && ms[0] == Member("0", JStr("a")) && ms[1] == Member("1", JStr("b"));
  }

  /** The list entry to be edited exists. */
  predicate EntryEditable(l: ListAt, index: nat)
  {
    match l
    case NoList => true
    case Bare(es) => index < |es|
    case Under(_, es) => index < |es|
  }

  /** What `handleArrayChange` needs: a document object and, when the
      section holds a list, an index inside it (the form only passes
      indices of the entries it shows). */
  predicate ArrayChangeDefined(prev: Json, section: string, index: nat)
  {
    prev.JObj? && EntryEditable(FindList(Section(prev, section)), index)
  }

  function ArrayChange(prev: Json, section: string, index: nat, field: string, value: string): (r: Json)
    requires ArrayChangeDefined(prev, section, index)
    ensures r.JObj?
    ensures FindList(Section(prev, section)).NoList? ==> r == prev
  {
    match FindList(Section(prev, section))
    case NoList => prev
    case Bare(es) => With(Some(prev), section, JArr(UpdateArray(es, index, field, value)))
    case Under(key, es) => SetField(prev, section, key, JArr(UpdateArray(es, index, field, value)))
  }

  /** The edit leaves the other sections alone and, when the list is under
      a key of the section, the section's other properties too. */
  lemma ArrayChangeFrame(prev: Json, section: string, index: nat, field: string, value: string)
    requires ArrayChangeDefined(prev, section, index)
    ensures var r := ArrayChange(prev, section, index, field, value);
            forall k :: k != section ==> Section(r, k) == Section(prev, k)
    ensures var r, l := ArrayChange(prev, section, index, field, value), FindList(Section(prev, section));
            l.Under? ==> forall k :: k != l.key ==> Prop(Section(r, section), k) == Prop(Section(prev, section), k)
  {
    match FindList(Section(prev, section))
    case NoList =>
    case Bare(es) =>
      WithProps(Some(prev), section, JArr(UpdateArray(es, index, field, value)));
    case Under(key, es) =>
      SetFieldProps(prev, section, key, JArr(UpdateArray(es, index, field, value)));
  }

  /** Replacing the list a section holds under a key leaves the dispatch
      finding the new list under the same key: the keys tried before it
      still hold no array. */
  lemma FindListWith(o: Option<Json>, es: seq<Json>)
    requires FindList(o).Under?
    ensures FindList(Some(With(o, FindList(o).key, JArr(es)))) == Under(FindList(o).key, es)
  {
    WithProps(o, FindList(o).key, JArr(es));
  }

  /** The section still holds its list in the same place, now with the
      entry updated: the dispatch finds the edited list where it found the
      original. */
  lemma ArrayChangeWrites(prev: Json, section: string, index: nat, field: string, value: string)
    requires ArrayChangeDefined(prev, section, index)
    ensures var r, l := ArrayChange(prev, section, index, field, value), FindList(Section(prev, section));
            && (l.Bare? ==> FindList(Section(r, section)) == Bare(UpdateArray(l.elems, index, field, value)))
            && (l.Under? ==> FindList(Section(r, section)) == Under(l.key, UpdateArray(l.elems, index, field, value)))
  {
    match FindList(Section(prev, section))
    case NoList =>
    case Bare(es) =>
      WithProps(Some(prev), section, JArr(UpdateArray(es, index, field, value)));
    case Under(key, es) =>
      var l := JArr(UpdateArray(es, index, field, value));
      FindListWith(Section(prev, section), UpdateArray(es, index, field, value));
      WithProps(Some(prev), section, With(Section(prev, section), key, l));
  }

  // ---------------------------------------------------------------------
  // The hymn image

  /** The updater run once the chosen image has been read as a data URL:
      `{...prev, hymn: {...prev.hymn, musicSheet: url}}`. Only a `null`
      document throws, on reading `prev.hymn`; any other document and any
      `hymn` are spread, a string or an array into its index-named
      properties. */
  function SetMusicSheet(prev: Json, url: string): (r: Json)
    requires !prev.JNull?
    ensures r.JObj?
  {
    SetField(prev, "hymn", "musicSheet", JStr(url))
  }

  /** For every document the updater accepts, the result holds the spread
      properties of the document with `hymn` replaced, and the new `hymn`
      holds the spread properties of the old one with `musicSheet` set. */
  lemma MusicSheetSpread(prev: Json, url: string)
    requires !prev.JNull?
    ensures var r := SetMusicSheet(prev, url);
            && Lookup(r, ["hymn", "musicSheet"]) == Some(JStr(url))
            && (forall k :: k != "hymn" ==> Section(r, k) == Get(Spread(Some(prev)), k))
            && (forall k :: k != "musicSheet" ==>
                  Prop(Section(r, "hymn"), k) == Get(Spread(Section(prev, "hymn")), k))
  {
    LookupTwo(SetMusicSheet(prev, url), "hymn", "musicSheet");
  }

  /** A `hymn` that is a string is spread into one property per character,
      next to `musicSheet`: `{..."ab", musicSheet: url}` is
      `{0: "a", 1: "b", musicSheet: url}`. */
  lemma MusicSheetStringHymn(prev: Json, url: string, i: nat)
    requires Section(prev, "hymn").Some? && Section(prev, "hymn").value.JStr?
    requires i < |Section(prev, "hymn").value.s|
    ensures var h, t := Section(SetMusicSheet(prev, url), "hymn"), Section(prev, "hymn").value.s;
            Prop(h, IndexName(i)) == Some(JStr([t[i]])) && Prop(h, "musicSheet") == Some(JStr(url))
  {
    var t := Section(prev, "hymn").value.s;
    var h := Section(SetMusicSheet(prev, url), "hymn");
    assert Prop(h, IndexName(i)) == Get(IndexMembers(Characters(t)), IndexName(i)) by {
      MusicSheetSpread(prev, url);
      assert IndexName(i)[0] != 'm';
    }
    assert Get(IndexMembers(Characters(t)), IndexName(i)) == Some(JStr([t[i]])) by {
      IndexMembersRead(Characters(t));
    }
    MusicSheetSpread(prev, url);
  }

  /** A `hymn` that is an array is spread into one property per element,
      next to `musicSheet`. */
  lemma MusicSheetArrayHymn(prev: Json, url: string, i: nat)
    requires Section(prev, "hymn").Some? && Section(prev, "hymn").value.JArr?
    requires i < |Section(prev, "hymn").value.elems|
    ensures var h, es := Section(SetMusicSheet(prev, url), "hymn"), Section(prev, "hymn").value.elems;
            Prop(h, IndexName(i)) == Some(es[i]) && Prop(h, "musicSheet") == Some(JStr(url))
  {
    MusicSheetSpread(prev, url);
    IndexMembersRead(Section(prev, "hymn").value.elems);
    assert IndexName(i)[0] != 'm';
  }

  /** The image updater is the text updater on the name `hymn.musicSheet`. */
  lemma MusicSheetIsTextChange(prev: Json, url: string)
    requires prev.JObj? && Spreadable(Section(prev, "hymn"))
    ensures TextChangeDefined(prev, "hymn.musicSheet")
    ensures SetMusicSheet(prev, url) == TextChange(prev, "hymn.musicSheet", url)
  {
    SplitJoin(["hymn", "musicSheet"]);
    assert Join(["hymn", "musicSheet"]) == "hymn.musicSheet";
  }

  /** The image updater stores the data URL as `hymn.musicSheet` and
      changes nothing else. */
  lemma MusicSheetProps(prev: Json, url: string)
    requires prev.JObj? && Spreadable(Section(prev, "hymn"))
    ensures var r := SetMusicSheet(prev, url);
            && Lookup(r, ["hymn", "musicSheet"]) == Some(JStr(url))
            && (forall k :: k != "hymn" ==> Section(r, k) == Section(prev, k))
            && (forall k :: k != "musicSheet" ==> Prop(Section(r, "hymn"), k) == Prop(Section(prev, "hymn"), k))
  {
    SetFieldProps(prev, "hymn", "musicSheet", JStr(url));
  }
}

=== FILE: fields.dfy ===
/** The form's inputs in the bulletin's own terms: which dotted names the
    text inputs pass to `handleTextChange`, which section and property the
    list inputs pass to `handleArrayChange`, and what the two handlers do to
    a well-shaped document, stated on its decoded `BulletinData`. */
module Fields {
  import opened Wrappers
  import opened JsonValue
  import opened Bulletin
  import opened EditMode
  import opened DocumentEdits

  // ---------------------------------------------------------------------
  // Text inputs

  /** The text inputs of the form, one per `name` attribute. */
  datatype TextField =
    | MainIssue | MainDate | MainTime
    | AboutTitle | AboutBody
    | HymnTitle
    | NewsTitle
    | AccountBank | AccountNumber | AccountHolder
    | MissionariesQuote
    | SchedulePrayerList | ScheduleSermonList

  /** The pieces of the input's name: a section, a property and, for the
      bank account only, a property of that. */
  function Path(f: TextField): (p: seq<string>)
    ensures 2 <= |p| <= 3 && p[0] in DocumentKeys
    ensures |p| == 3 <==> IsAccount(f)
    ensures |p| == 3 ==> p[..2] == ["finance", "account"]
    ensures forall i :: 0 <= i < |p| ==> p[i] != "" && '.' !in p[i]
  {
    match f
    case MainIssue => ["main", "issue"]
    case MainDate => ["main", "date"]
    case MainTime => ["main", "time"]
    case AboutTitle => ["about", "title"]
    case AboutBody => ["about", "body"]
    case HymnTitle => ["hymn", "title"]
    case NewsTitle => ["news", "title"]
    case AccountBank => ["finance", "account", "bank"]
    case AccountNumber => ["finance", "account", "number"]
    case AccountHolder => ["finance", "account", "holder"]
    case MissionariesQuote => ["missionaries", "quote"]
    case SchedulePrayerList => ["schedule", "prayerList"]
    case ScheduleSermonList => ["schedule", "sermonList"]
  }

  predicate IsAccount(f: TextField)
  {
    f.AccountBank? || f.AccountNumber? || f.AccountHolder?
  }

  /** The `name` attribute of the input. */
  function Name(f: TextField): string
  {
    Join(Path(f))
  }

  /** `name.split('.')` gives back the pieces the name was made of, and
      only the bank-account inputs have three, `finance.account.*`. */
  lemma NamePath(f: TextField)
    ensures Split(Name(f)) == Path(f)
    ensures |Split(Name(f))| == 3 <==> IsAccount(f)
    ensures IsAccount(f) ==> Split(Name(f))[..2] == ["finance", "account"]
  {
    var p := Path(f);
    SplitJoin(p);
  }

  /** The text the input shows. */
  function GetText(d: BulletinData, f: TextField): string
  {
    match f
    case MainIssue => d.main.issue
    case MainDate => d.main.date
    case MainTime => d.main.time
    case AboutTitle => d.about.title
    case AboutBody => d.about.body
    case HymnTitle => d.hymn.title
    case NewsTitle => d.news.title
    case AccountBank => d.finance.account.bank
    case AccountNumber => d.finance.account.number
    case AccountHolder => d.finance.account.holder
    case MissionariesQuote => d.missionaries.quote
    case SchedulePrayerList => d.schedule.prayerList
    case ScheduleSermonList => d.schedule.sermonList
  }

  /** The bulletin with the input's text replaced: that text reads back,
      every other input keeps its text, and the lists, the image and the
      two titles no input edits are kept. */
  function SetText(d: BulletinData, f: TextField, v: string): (r: BulletinData)
    ensures GetText(r, f) == v
    ensures forall g :: g != f ==> GetText(r, g) == GetText(d, g)
    ensures r.worshipOrder == d.worshipOrder && r.news.items == d.news.items
    ensures r.finance.reports == d.finance.reports && r.missionaries.items == d.missionaries.items
    ensures r.schedule.weekly == d.schedule.weekly && r.hymn.musicSheet == d.hymn.musicSheet
    ensures r.missionaries.title == d.missionaries.title && r.schedule.title == d.schedule.title
  {
    match f
    case MainIssue => d.(main := d.main.(issue := v))
    case MainDate => d.(main := d.main.(date := v))
    case MainTime => d.(main := d.main.(time := v))
    case AboutTitle => d.(about := d.about.(title := v))
    case AboutBody => d.(about := d.about.(body := v))
    case HymnTitle => d.(hymn := d.hymn.(title := v))
    case NewsTitle => d.(news := d.news.(title := v))
    case AccountBank => d.(finance := d.finance.(account := d.finance.account.(bank := v)))
    case AccountNumber => d.(finance := d.finance.(account := d.finance.account.(number := v)))
    case AccountHolder => d.(finance := d.finance.(account := d.finance.account.(holder := v)))
    case MissionariesQuote => d.(missionaries := d.missionaries.(quote := v))
    case SchedulePrayerList => d.(schedule := d.schedule.(prayerList := v))
    case ScheduleSermonList => d.(schedule := d.schedule.(sermonList := v))
  }

  /** The inputs that edit the section `main`, `about`, and so on. */
  predicate InMain(f: TextField) { f.MainIssue? || f.MainDate? || f.MainTime? }
  predicate InAbout(f: TextField) { f.AboutTitle? || f.AboutBody? }
  predicate InSchedule(f: TextField) { f.SchedulePrayerList? || f.ScheduleSermonList? }

  // ---------------------------------------------------------------------
  // Reading and writing one section, whatever surrounds it

  lemma MainWith(o: Option<Json>, m: Main, k: string, v: string)
    requires DecodeMain(o) == Some(m) && k in MainKeys
    ensures Spreadable(o)
    ensures Prop(o, "issue") == Some(JStr(m.issue)) && Prop(o, "date") == Some(JStr(m.date))
    ensures Prop(o, "time") == Some(JStr(m.time))
    ensures DecodeMain(Some(With(o, k, JStr(v)))) == Some(SetMainText(m, k, v))
  {
    MainMembers(o.value.members, m);
    MainPut(o.value.members, m, k, v);
  }

  lemma AboutWith(o: Option<Json>, a: About, k: string, v: string)
    requires DecodeAbout(o) == Some(a) && k in AboutKeys
    ensures Spreadable(o)
    ensures Prop(o, "title") == Some(JStr(a.title)) && Prop(o, "body") == Some(JStr(a.body))
    ensures DecodeAbout(Some(With(o, k, JStr(v)))) == Some(SetAboutText(a, k, v))
  {
    AboutMembers(o.value.members, a);
    AboutPut(o.value.members, a, k, v);
  }

  lemma HymnTitleWith(o: Option<Json>, h: Hymn, v: string)
    requires DecodeHymn(o) == Some(h)
    ensures Spreadable(o)
    ensures Prop(o, "title") == Some(JStr(h.title))
    ensures DecodeHymn(Some(With(o, "title", JStr(v)))) == Some(h.(title := v))
  {
    HymnMembers(o.value.members, h);
    HymnTitlePut(o.value.members, h, v);
  }

  lemma HymnMusicSheetWith(o: Option<Json>, h: Hymn, url: string)
    requires DecodeHymn(o) == Some(h)
    ensures Spreadable(o)
    ensures DecodeHymn(Some(With(o, "musicSheet", JStr(url)))) == Some(h.(musicSheet := Some(url)))
  {
    HymnMusicSheetPut(o.value.members, h, url);
  }

  lemma NewsTitleWith(o: Option<Json>, n: News, v: string)
    requires DecodeNews(o) == Some(n)
    ensures Spreadable(o)
    ensures Prop(o, "title") == Some(JStr(n.title))
    ensures DecodeNews(Some(With(o, "title", JStr(v)))) == Some(n.(title := v))
  {
    NewsMembers(o.value.members, n);
    NewsTitlePut(o.value.members, n, v);
  }

  /** `finance.account.<k>`: the account is an object inside the finance
      section, read as `prev.finance.account` and spread. */
  lemma AccountReads(o: Option<Json>, f: Finance)
    requires DecodeFinance(o) == Some(f)
    ensures Prop(Prop(o, "account"), "bank") == Some(JStr(f.account.bank))
    ensures Prop(Prop(o, "account"), "number") == Some(JStr(f.account.number))
    ensures Prop(Prop(o, "account"), "holder") == Some(JStr(f.account.holder))
  {
    var fms := o.value.members;
    FinanceMembers(fms, f);
    AccountMembers(Get(fms, "account").value.members, f.account);
  }

  lemma AccountWith(o: Option<Json>, f: Finance, k: string, v: string)
    requires DecodeFinance(o) == Some(f) && k in AccountKeys
    ensures Readable(o) && Spreadable(o) && Spreadable(Prop(o, "account"))
    ensures DecodeFinance(Some(With(o, "account", With(Prop(o, "account"), k, JStr(v)))))
            == Some(f.(account := SetAccountText(f.account, k, v)))
  {
    var fms := o.value.members;
    FinanceMembers(fms, f);
    var ams := Get(fms, "account").value.members;
    AccountPut(ams, f.account, k, v);
    FinanceAccountPut(fms, f, JObj(Put(ams, k, JStr(v))), SetAccountText(f.account, k, v));
  }

  lemma MissionariesQuoteWith(o: Option<Json>, m: Missionaries, v: string)
    requires DecodeMissionaries(o) == Some(m)
    ensures Spreadable(o)
    ensures Prop(o, "quote") == Some(JStr(m.quote))
    ensures DecodeMissionaries(Some(With(o, "quote", JStr(v)))) == Some(m.(quote := v))
  {
    MissionariesMembers(o.value.members, m);
    MissionariesQuotePut(o.value.members, m, v);
  }

  lemma ScheduleWith(o: Option<Json>, s: Schedule, k: string, v: string)
    requires DecodeSchedule(o) == Some(s) && (k == "prayerList" || k == "sermonList")
    ensures Spreadable(o)
    ensures DecodeSchedule(Some(With(o, k, JStr(v)))) == Some(SetScheduleText(s, k, v))
  {
    ScheduleMembers(o.value.members, s);
    ScheduleTextPut(o.value.members, s, k, v);
  }

  lemma ScheduleReads(o: Option<Json>, s: Schedule)
    requires DecodeSchedule(o) == Some(s)
    ensures Prop(o, "prayerList") == Some(JStr(s.prayerList))
    ensures Prop(o, "sermonList") == Some(JStr(s.sermonList))
  {
    ScheduleMembers(o.value.members, s);
  }

  // ---------------------------------------------------------------------
  // Reading an input's text

  /** A two-piece path whose section holds `x` under `k`. */
  lemma LeafTwo(j: Json, section: string, k: string, x: Json)
    requires Prop(Section(j, section), k) == Some(x)
    ensures Lookup(j, [section, k]) == Some(x)
  {
    LookupTwo(j, section, k);
  }

  lemma LeafThree(j: Json, section: string, k: string, k': string, x: Json)
    requires Prop(Prop(Section(j, section), k), k') == Some(x)
    ensures Lookup(j, [section, k, k']) == Some(x)
  {
    LookupThree(j, section, k, k');
    LookupTwo(Section(j, section).value, k, k');
  }

  /** In a well-shaped document every input's name leads to a string: the
      text the input shows. */
  lemma TextLeaf(j: Json, d: BulletinData, f: TextField)
    requires Decode(j) == Some(d)
    ensures Lookup(j, Path(f)) == Some(JStr(GetText(d, f)))
  {
    var ms := j.members;
    DocumentSections(ms, d);
    match f {
      case MainIssue | MainDate | MainTime => MainLeaf(j, d, f);
      case AboutTitle | AboutBody => AboutLeaf(j, d, f);
      case HymnTitle => HymnLeaf(j, d, f);
      case NewsTitle => NewsLeaf(j, d, f);
      case AccountBank | AccountNumber | AccountHolder => AccountLeaf(j, d, f);
      case MissionariesQuote => MissionariesLeaf(j, d, f);
      case SchedulePrayerList | ScheduleSermonList => ScheduleLeaf(j, d, f);
    }
  }

  lemma MainLeaf(j: Json, d: BulletinData, f: TextField)
    requires j.JObj? && DecodeMain(Get(j.members, "main")) == Some(d.main) && InMain(f)
    ensures Lookup(j, Path(f)) == Some(JStr(GetText(d, f)))
  {
    MainWith(Get(j.members, "main"), d.main, "issue", "");
    LeafTwo(j, "main", Path(f)[1], JStr(GetText(d, f)));
  }

  lemma AboutLeaf(j: Json, d: BulletinData, f: TextField)
    requires j.JObj? && DecodeAbout(Get(j.members, "about")) == Some(d.about) && InAbout(f)
    ensures Lookup(j, Path(f)) == Some(JStr(GetText(d, f)))
  {
    AboutWith(Get(j.members, "about"), d.about, "title", "");
    LeafTwo(j, "about", Path(f)[1], JStr(GetText(d, f)));
  }

  lemma HymnLeaf(j: Json, d: BulletinData, f: TextField)
    requires j.JObj? && DecodeHymn(Get(j.members, "hymn")) == Some(d.hymn) && f.HymnTitle?
    ensures Lookup(j, Path(f)) == Some(JStr(GetText(d, f)))
  {
    HymnTitleWith(Get(j.members, "hymn"), d.hymn, "");
    LeafTwo(j, "hymn", "title", JStr(GetText(d, f)));
  }

  lemma NewsLeaf(j: Json, d: BulletinData, f: TextField)
    requires j.JObj? && DecodeNews(Get(j.members, "news")) == Some(d.news) && f.NewsTitle?
    ensures Lookup(j, Path(f)) == Some(JStr(GetText(d, f)))
  {
    NewsTitleWith(Get(j.members, "news"), d.news, "");
    LeafTwo(j, "news", "title", JStr(GetText(d, f)));
  }

  lemma AccountLeaf(j: Json, d: BulletinData, f: TextField)
    requires j.JObj? && DecodeFinance(Get(j.members, "finance")) == Some(d.finance) && IsAccount(f)
    ensures Lookup(j, Path(f)) == Some(JStr(GetText(d, f)))
  {
    AccountReads(Get(j.members, "finance"), d.finance);
    LeafThree(j, "finance", "account", Path(f)[2], JStr(GetText(d, f)));
  }

  lemma MissionariesLeaf(j: Json, d: BulletinData, f: TextField)
    requires j.JObj? && DecodeMissionaries(Get(j.members, "missionaries")) == Some(d.missionaries)
    requires f.MissionariesQuote?
    ensures Lookup(j, Path(f)) == Some(JStr(GetText(d, f)))
  {
    MissionariesQuoteWith(Get(j.members, "missionaries"), d.missionaries, "");
    LeafTwo(j, "missionaries", "quote", JStr(GetText(d, f)));
  }

  lemma ScheduleLeaf(j: Json, d: BulletinData, f: TextField)
    requires j.JObj? && DecodeSchedule(Get(j.members, "schedule")) == Some(d.schedule) && InSchedule(f)
    ensures Lookup(j, Path(f)) == Some(JStr(GetText(d, f)))
  {
    ScheduleReads(Get(j.members, "schedule"), d.schedule);
    LeafTwo(j, "schedule", Path(f)[1], JStr(GetText(d, f)));
  }

  // ---------------------------------------------------------------------
  // Typing into an input

  lemma MainEdit(ms: seq<Member>, d: BulletinData, k: string, v: string)
    requires Decode(JObj(ms)) == Some(d) && k in MainKeys
    ensures Spreadable(Section(JObj(ms), "main"))
    ensures Decode(SetField(JObj(ms), "main", k, JStr(v))) == Some(d.(main := SetMainText(d.main, k, v)))
  {
    var o := Section(JObj(ms), "main");
    MainOf(ms, d);
    MainWith(o, d.main, k, v);
    WithMain(ms, d, With(o, k, JStr(v)), SetMainText(d.main, k, v));
  }

  lemma AboutEdit(ms: seq<Member>, d: BulletinData, k: string, v: string)
    requires Decode(JObj(ms)) == Some(d) && k in AboutKeys
    ensures Spreadable(Section(JObj(ms), "about"))
    ensures Decode(SetField(JObj(ms), "about", k, JStr(v))) == Some(d.(about := SetAboutText(d.about, k, v)))
  {
    var o := Section(JObj(ms), "about");
    AboutOf(ms, d);
    AboutWith(o, d.about, k, v);
    WithAbout(ms, d, With(o, k, JStr(v)), SetAboutText(d.about, k, v));
  }

  lemma HymnTitleEdit(ms: seq<Member>, d: BulletinData, v: string)
    requires Decode(JObj(ms)) == Some(d)
    ensures Spreadable(Section(JObj(ms), "hymn"))
    ensures Decode(SetField(JObj(ms), "hymn", "title", JStr(v))) == Some(d.(hymn := d.hymn.(title := v)))
  {
    var o := Section(JObj(ms), "hymn");
    HymnOf(ms, d);
    HymnTitleWith(o, d.hymn, v);
    WithHymn(ms, d, With(o, "title", JStr(v)), d.hymn.(title := v));
  }

  lemma NewsTitleEdit(ms: seq<Member>, d: BulletinData, v: string)
    requires Decode(JObj(ms)) == Some(d)
    ensures Spreadable(Section(JObj(ms), "news"))
    ensures Decode(SetField(JObj(ms), "news", "title", JStr(v))) == Some(d.(news := d.news.(title := v)))
  {
    var o := Section(JObj(ms), "news");
    NewsOf(ms, d);
    NewsTitleWith(o, d.news, v);
    WithNews(ms, d, With(o, "title", JStr(v)), d.news.(title := v));
  }

  lemma AccountEdit(ms: seq<Member>, d: BulletinData, k: string, v: string)
    requires Decode(JObj(ms)) == Some(d) && k in AccountKeys
    ensures Readable(Section(JObj(ms), "finance")) && Spreadable(Section(JObj(ms), "finance"))
    ensures Spreadable(Prop(Section(JObj(ms), "finance"), "account"))
    ensures Decode(SetField(JObj(ms), "finance", "account",
                            With(Prop(Section(JObj(ms), "finance"), "account"), k, JStr(v))))
            == Some(d.(finance := d.finance.(account := SetAccountText(d.finance.account, k, v))))
  {
    var o := Section(JObj(ms), "finance");
    FinanceOf(ms, d);
    AccountWith(o, d.finance, k, v);
    WithFinance(ms, d, With(o, "account", With(Prop(o, "account"), k, JStr(v))),
                d.finance.(account := SetAccountText(d.finance.account, k, v)));
  }

  lemma MissionariesQuoteEdit(ms: seq<Member>, d: BulletinData, v: string)
    requires Decode(JObj(ms)) == Some(d)
    ensures Spreadable(Section(JObj(ms), "missionaries"))
    ensures Decode(SetField(JObj(ms), "missionaries", "quote", JStr(v)))
            == Some(d.(missionaries := d.missionaries.(quote := v)))
  {
    var o := Section(JObj(ms), "missionaries");
    MissionariesOf(ms, d);
    MissionariesQuoteWith(o, d.missionaries, v);
    WithMissionaries(ms, d, With(o, "quote", JStr(v)), d.missionaries.(quote := v));
  }

  lemma ScheduleEdit(ms: seq<Member>, d: BulletinData, k: string, v: string)
    requires Decode(JObj(ms)) == Some(d) && (k == "prayerList" || k == "sermonList")
    ensures Spreadable(Section(JObj(ms), "schedule"))
    ensures Decode(SetField(JObj(ms), "schedule", k, JStr(v)))
            == Some(d.(schedule := SetScheduleText(d.schedule, k, v)))
  {
    var o := Section(JObj(ms), "schedule");
    ScheduleOf(ms, d);
    ScheduleWith(o, d.schedule, k, v);
    WithSchedule(ms, d, With(o, k, JStr(v)), SetScheduleText(d.schedule, k, v));
  }

  // The typed edit of each input is the section setter on the input's
  // last name piece.

  lemma SetTextMain(d: BulletinData, f: TextField, v: string)
    requires InMain(f)
    ensures SetText(d, f, v) == d.(main := SetMainText(d.main, Path(f)[1], v))
  { }

  lemma SetTextAbout(d: BulletinData, f: TextField, v: string)
    requires InAbout(f)
    ensures SetText(d, f, v) == d.(about := SetAboutText(d.about, Path(f)[1], v))
  { }

  lemma SetTextAccount(d: BulletinData, f: TextField, v: string)
    requires IsAccount(f)
    ensures SetText(d, f, v) == d.(finance := d.finance.(account := SetAccountText(d.finance.account, Path(f)[2], v)))
  { }

  lemma SetTextSchedule(d: BulletinData, f: TextField, v: string)
    requires InSchedule(f)
    ensures SetText(d, f, v) == d.(schedule := SetScheduleText(d.schedule, Path(f)[1], v))
  { }

  lemma TextChangeTwoTyped(j: Json, d: BulletinData, f: TextField, v: string)
    requires Decode(j) == Some(d) && !IsAccount(f)
    ensures TextChangeDefined(j, Name(f))
    ensures Decode(TextChange(j, Name(f), v)) == Some(SetText(d, f, v))
  {
    NamePath(f);
    var ms, p := j.members, Path(f);
    match f {
      case MainIssue | MainDate | MainTime => MainEdit(ms, d, p[1], v); SetTextMain(d, f, v);
      case AboutTitle | AboutBody => AboutEdit(ms, d, p[1], v); SetTextAbout(d, f, v);
      case HymnTitle => HymnTitleEdit(ms, d, v);
      case NewsTitle => NewsTitleEdit(ms, d, v);
      case MissionariesQuote => MissionariesQuoteEdit(ms, d, v);
      case SchedulePrayerList | ScheduleSermonList => ScheduleEdit(ms, d, p[1], v); SetTextSchedule(d, f, v);
    }
    TextChangeTwo(j, Name(f), p[0], p[1], v);
  }

  lemma TextChangeAccountTyped(j: Json, d: BulletinData, f: TextField, v: string)
    requires Decode(j) == Some(d) && IsAccount(f)
    ensures TextChangeDefined(j, Name(f))
    ensures Decode(TextChange(j, Name(f), v)) == Some(SetText(d, f, v))
  {
    NamePath(f);
    SetTextAccount(d, f, v);
    var p := Path(f);
    AccountEdit(j.members, d, p[2], v);
    TextChangeThree(j, Name(f), p[0], p[1], p[2], v);
  }

  /** Typing into any input of a well-shaped document runs without error
      and leaves a well-shaped document whose only change is that input's
      text. */
  lemma TextChangeTyped(j: Json, d: BulletinData, f: TextField, v: string)
    requires Decode(j) == Some(d)
    ensures TextChangeDefined(j, Name(f))
    ensures Decode(TextChange(j, Name(f), v)) == Some(SetText(d, f, v))
  {
    if IsAccount(f) {
      TextChangeAccountTyped(j, d, f, v);
    } else {
      TextChangeTwoTyped(j, d, f, v);
    }
  }

  // ---------------------------------------------------------------------
  // List inputs

  /** The inputs of the list entries: a section holding a list, and the
      entry property the input edits. */
  datatype ArrayField =
    | WorshipItem | WorshipSubitem | WorshipPerson | WorshipSubperson
    | NewsDate | NewsEvent
    | ReportItem | ReportAmount
    | MissionaryCountry | MissionaryNames
    | WeeklyDate | WeeklyPrayer | WeeklySermon

  /** The section name the input passes. */
  function ListSection(a: ArrayField): (s: string)
    ensures s in DocumentKeys
  {
    match a
    case WorshipItem | WorshipSubitem | WorshipPerson | WorshipSubperson => "worshipOrder"
    case NewsDate | NewsEvent => "news"
    case ReportItem | ReportAmount => "finance"
    case MissionaryCountry | MissionaryNames => "missionaries"
    case WeeklyDate | WeeklyPrayer | WeeklySermon => "schedule"
  }

  /** The entry property the input passes. */
  function EntryKey(a: ArrayField): string
  {
    match a
    case WorshipItem => "item"
    case WorshipSubitem => "subitem"
    case WorshipPerson => "person"
    case WorshipSubperson => "subperson"
    case NewsDate => "date"
    case NewsEvent => "event"
    case ReportItem => "item"
    case ReportAmount => "amount"
    case MissionaryCountry => "country"
    case MissionaryNames => "names"
    case WeeklyDate => "date"
    case WeeklyPrayer => "prayer"
    case WeeklySermon => "sermon"
  }

  /** The number of entries of the input's list. */
  function ListLength(d: BulletinData, a: ArrayField): nat
  {
    match a
    case WorshipItem | WorshipSubitem | WorshipPerson | WorshipSubperson => |d.worshipOrder|
    case NewsDate | NewsEvent => |d.news.items|
    case ReportItem | ReportAmount => |d.finance.reports|
    case MissionaryCountry | MissionaryNames => |d.missionaries.items|
    case WeeklyDate | WeeklyPrayer | WeeklySermon => |d.schedule.weekly|
  }

  /** The text the input shows for entry `i`; `None` for an optional
      property the entry does not have. */
  function EntryText(d: BulletinData, a: ArrayField, i: nat): Option<string>
    requires i < ListLength(d, a)
  {
    match a
    case WorshipItem => Some(d.worshipOrder[i].item)
    case WorshipSubitem => d.worshipOrder[i].subitem
    case WorshipPerson => d.worshipOrder[i].person
    case WorshipSubperson => d.worshipOrder[i].subperson
    case NewsDate => Some(d.news.items[i].date)
    case NewsEvent => Some(d.news.items[i].event)
    case ReportItem => Some(d.finance.reports[i].item)
    case ReportAmount => Some(d.finance.reports[i].amount)
    case MissionaryCountry => Some(d.missionaries.items[i].country)
    case MissionaryNames => Some(d.missionaries.items[i].names)
    case WeeklyDate => Some(d.schedule.weekly[i].date)
    case WeeklyPrayer => Some(d.schedule.weekly[i].prayer)
    case WeeklySermon => Some(d.schedule.weekly[i].sermon)
  }

  /** The bulletin with one entry's property set: the list keeps its
      length and the new text reads back (an absent optional property
      becomes present). */
  function SetEntry(d: BulletinData, a: ArrayField, i: nat, v: string): (r: BulletinData)
    requires i < ListLength(d, a)
    ensures ListLength(r, a) == ListLength(d, a) && EntryText(r, a, i) == Some(v)
    ensures r.hymn == d.hymn && r.missionaries.title == d.missionaries.title
    ensures r.schedule.title == d.schedule.title
  {
    var k := EntryKey(a);
    match a
    case WorshipItem | WorshipSubitem | WorshipPerson | WorshipSubperson =>
      d.(worshipOrder := d.worshipOrder[i := SetWorshipText(d.worshipOrder[i], k, v)])
    case NewsDate | NewsEvent =>
      d.(news := d.news.(items := d.news.items[i := SetNewsItemText(d.news.items[i], k, v)]))
    case ReportItem | ReportAmount =>
      d.(finance := d.finance.(reports := d.finance.reports[i := SetReportText(d.finance.reports[i], k, v)]))
    case MissionaryCountry | MissionaryNames =>
      d.(missionaries := d.missionaries.(items := d.missionaries.items[i := SetMissionaryText(d.missionaries.items[i], k, v)]))
    case WeeklyDate | WeeklyPrayer | WeeklySermon =>
      d.(schedule := d.schedule.(weekly := d.schedule.weekly[i := SetWeeklyText(d.schedule.weekly[i], k, v)]))
  }

  /** Every list keeps its length, every other entry and every other
      property of the same entry keep their text, and so does every text
      input. */
  lemma SetEntryFrame(d: BulletinData, a: ArrayField, i: nat, v: string, b: ArrayField, i': nat)
    requires i < ListLength(d, a) && i' < ListLength(d, b) && (b != a || i' != i)
    ensures ListLength(SetEntry(d, a, i, v), b) == ListLength(d, b)
    ensures EntryText(SetEntry(d, a, i, v), b, i') == EntryText(d, b, i')
  { }

  lemma SetEntryTexts(d: BulletinData, a: ArrayField, i: nat, v: string, f: TextField)
    requires i < ListLength(d, a)
    ensures GetText(SetEntry(d, a, i, v), f) == GetText(d, f)
  { }

  // Reading and writing one list, whatever surrounds it.

  /** Writing one property of entry `i` of a list that decodes. */
  lemma EntryUpdate<T>(es: seq<Json>, decode: Json -> Option<T>, i: nat, k: string, v: string, x: T)
    requires i < |es| && DecodeList(es, decode).Some? && es[i].JObj?
    requires decode(JObj(Put(es[i].members, k, JStr(v)))) == Some(x)
    ensures Spreadable(Some(es[i]))
    ensures DecodeList(UpdateArray(es, i, k, v), decode) == Some(DecodeList(es, decode).value[i := x])
  {
    DecodeListUpdate(es, decode, i, JObj(Put(es[i].members, k, JStr(v))), x);
  }

  lemma WorshipOrderEntries(es: seq<Json>, ws: seq<WorshipOrderItem>, i: nat, k: string, v: string)
    requires DecodeList(es, DecodeWorshipOrderItem) == Some(ws) && i < |ws| && k in WorshipOrderItemKeys
    ensures i < |es| && Spreadable(Some(es[i]))
    ensures DecodeList(UpdateArray(es, i, k, v), DecodeWorshipOrderItem) == Some(ws[i := SetWorshipText(ws[i], k, v)])
  {
    WorshipOrderAt(es, ws, i, k, v);
    EntryUpdate(es, DecodeWorshipOrderItem, i, k, v, SetWorshipText(ws[i], k, v));
  }

  lemma WorshipOrderAt(es: seq<Json>, ws: seq<WorshipOrderItem>, i: nat, k: string, v: string)
    requires DecodeList(es, DecodeWorshipOrderItem) == Some(ws) && i < |ws| && k in WorshipOrderItemKeys
    ensures i < |es| && es[i].JObj?
    ensures DecodeWorshipOrderItem(JObj(Put(es[i].members, k, JStr(v)))) == Some(SetWorshipText(ws[i], k, v))
  {
    WorshipOrderEntry(es[i], ws[i], k, v);
  }

  lemma WorshipOrderEntry(e: Json, x: WorshipOrderItem, k: string, v: string)
    requires DecodeWorshipOrderItem(e) == Some(x) && k in WorshipOrderItemKeys
    ensures e.JObj? && DecodeWorshipOrderItem(JObj(Put(e.members, k, JStr(v)))) == Some(SetWorshipText(x, k, v))
  {
    WorshipOrderItemPut(e.members, x, k, v);
  }

  lemma NewsEntries(es: seq<Json>, ns: seq<NewsItem>, i: nat, k: string, v: string)
    requires DecodeList(es, DecodeNewsItem) == Some(ns) && i < |ns| && k in NewsItemKeys
    ensures i < |es| && Spreadable(Some(es[i]))
    ensures DecodeList(UpdateArray(es, i, k, v), DecodeNewsItem) == Some(ns[i := SetNewsItemText(ns[i], k, v)])
  {
    assert DecodeNewsItem(es[i]) == Some(ns[i]);
    NewsEntry(es[i], ns[i], k, v);
    EntryUpdate(es, DecodeNewsItem, i, k, v, SetNewsItemText(ns[i], k, v));
  }

  lemma NewsEntry(e: Json, x: NewsItem, k: string, v: string)
    requires DecodeNewsItem(e) == Some(x) && k in NewsItemKeys
    ensures e.JObj? && DecodeNewsItem(JObj(Put(e.members, k, JStr(v)))) == Some(SetNewsItemText(x, k, v))
  {
    NewsItemPut(e.members, x, k, v);
  }

  lemma ReportEntries(es: seq<Json>, rs: seq<FinanceReportItem>, i: nat, k: string, v: string)
    requires DecodeList(es, DecodeFinanceReportItem) == Some(rs) && i < |rs| && k in FinanceReportItemKeys
    ensures i < |es| && Spreadable(Some(es[i]))
    ensures DecodeList(UpdateArray(es, i, k, v), DecodeFinanceReportItem) == Some(rs[i := SetReportText(rs[i], k, v)])
  {
    assert DecodeFinanceReportItem(es[i]) == Some(rs[i]);
    ReportEntry(es[i], rs[i], k, v);
    EntryUpdate(es, DecodeFinanceReportItem, i, k, v, SetReportText(rs[i], k, v));
  }

  lemma ReportEntry(e: Json, x: FinanceReportItem, k: string, v: string)
    requires DecodeFinanceReportItem(e) == Some(x) && k in FinanceReportItemKeys
    ensures e.JObj? && DecodeFinanceReportItem(JObj(Put(e.members, k, JStr(v)))) == Some(SetReportText(x, k, v))
  {
    FinanceReportItemPut(e.members, x, k, v);
  }

  lemma MissionaryEntries(es: seq<Json>, ms: seq<MissionaryItem>, i: nat, k: string, v: string)
    requires DecodeList(es, DecodeMissionaryItem) == Some(ms) && i < |ms| && k in MissionaryItemKeys
    ensures i < |es| && Spreadable(Some(es[i]))
    ensures DecodeList(UpdateArray(es, i, k, v), DecodeMissionaryItem) == Some(ms[i := SetMissionaryText(ms[i], k, v)])
  {
    assert DecodeMissionaryItem(es[i]) == Some(ms[i]);
    MissionaryEntry(es[i], ms[i], k, v);
    EntryUpdate(es, DecodeMissionaryItem, i, k, v, SetMissionaryText(ms[i], k, v));
  }

  lemma MissionaryEntry(e: Json, x: MissionaryItem, k: string, v: string)
    requires DecodeMissionaryItem(e) == Some(x) && k in MissionaryItemKeys
    ensures e.JObj? && DecodeMissionaryItem(JObj(Put(e.members, k, JStr(v)))) == Some(SetMissionaryText(x, k, v))
  {
    MissionaryItemPut(e.members, x, k, v);
  }

  lemma WeeklyEntries(es: seq<Json>, ws: seq<WeeklyScheduleItem>, i: nat, k: string, v: string)
    requires DecodeList(es, DecodeWeeklyScheduleItem) == Some(ws) && i < |ws| && k in WeeklyScheduleItemKeys
    ensures i < |es| && Spreadable(Some(es[i]))
    ensures DecodeList(UpdateArray(es, i, k, v), DecodeWeeklyScheduleItem) == Some(ws[i := SetWeeklyText(ws[i], k, v)])
  {
    assert DecodeWeeklyScheduleItem(es[i]) == Some(ws[i]);
    WeeklyEntry(es[i], ws[i], k, v);
    EntryUpdate(es, DecodeWeeklyScheduleItem, i, k, v, SetWeeklyText(ws[i], k, v));
  }

  lemma WeeklyEntry(e: Json, x: WeeklyScheduleItem, k: string, v: string)
    requires DecodeWeeklyScheduleItem(e) == Some(x) && k in WeeklyScheduleItemKeys
    ensures e.JObj? && DecodeWeeklyScheduleItem(JObj(Put(e.members, k, JStr(v)))) == Some(SetWeeklyText(x, k, v))
  {
    WeeklyScheduleItemPut(e.members, x, k, v);
  }

  // Where each section keeps its list.

  lemma WorshipOrderFind(o: Option<Json>, ws: seq<WorshipOrderItem>)
    requires List(o, DecodeWorshipOrderItem) == Some(ws)
    ensures FindList(o) == Bare(o.value.elems)
  { }

  lemma NewsFind(o: Option<Json>, n: News)
    requires DecodeNews(o) == Some(n)
    ensures Prop(o, "items").Some? && Prop(o, "items").value.JArr?
    ensures DecodeList(Prop(o, "items").value.elems, DecodeNewsItem) == Some(n.items)
    ensures FindList(o) == Under("items", Prop(o, "items").value.elems)
  {
    NewsMembers(o.value.members, n);
  }

  lemma ReportsFind(o: Option<Json>, f: Finance)
    requires DecodeFinance(o) == Some(f)
    ensures Prop(o, "reports").Some? && Prop(o, "reports").value.JArr?
    ensures DecodeList(Prop(o, "reports").value.elems, DecodeFinanceReportItem) == Some(f.reports)
    ensures FindList(o) == Under("reports", Prop(o, "reports").value.elems)
  {
    FinanceMembers(o.value.members, f);
    AbsentOutside(o.value.members, FinanceKeys, "items");
  }

  lemma MissionariesFind(o: Option<Json>, m: Missionaries)
    requires DecodeMissionaries(o) == Some(m)
    ensures Prop(o, "items").Some? && Prop(o, "items").value.JArr?
    ensures DecodeList(Prop(o, "items").value.elems, DecodeMissionaryItem) == Some(m.items)
    ensures FindList(o) == Under("items", Prop(o, "items").value.elems)
  {
    MissionariesMembers(o.value.members, m);
  }

  lemma WeeklyFind(o: Option<Json>, s: Schedule)
    requires DecodeSchedule(o) == Some(s)
    ensures Prop(o, "weekly").Some? && Prop(o, "weekly").value.JArr?
    ensures DecodeList(Prop(o, "weekly").value.elems, DecodeWeeklyScheduleItem) == Some(s.weekly)
    ensures FindList(o) == Under("weekly", Prop(o, "weekly").value.elems)
  {
    ScheduleMembers(o.value.members, s);
    OnlyWeekly(o);
  }

  lemma OnlyWeekly(o: Option<Json>)
    requires o.Some? && o.value.JObj? && KeysWithin(o.value.members, ScheduleKeys)
    ensures Prop(o, "items").None? && Prop(o, "reports").None?
  {
    AbsentOutside(o.value.members, ScheduleKeys, "items");
    AbsentOutside(o.value.members, ScheduleKeys, "reports");
  }

  /** A section holding a list: where the dispatch of `handleArrayChange`
      finds it, and what writing entry `i` of it does to the section. */
  lemma NewsList(o: Option<Json>, n: News, i: nat, k: string, v: string)
    requires DecodeNews(o) == Some(n) && i < |n.items| && k in NewsItemKeys
    ensures FindList(o).Under? && FindList(o).key == "items" && EntryEditable(FindList(o), i)
    ensures DecodeNews(Some(With(o, "items", JArr(UpdateArray(FindList(o).elems, i, k, v)))))
            == Some(n.(items := n.items[i := SetNewsItemText(n.items[i], k, v)]))
  {
    NewsFind(o, n);
    var es := Prop(o, "items").value.elems;
    NewsEntries(es, n.items, i, k, v);
    NewsItemsPut(o.value.members, n, JArr(UpdateArray(es, i, k, v)), n.items[i := SetNewsItemText(n.items[i], k, v)]);
  }

  lemma ReportsList(o: Option<Json>, f: Finance, i: nat, k: string, v: string)
    requires DecodeFinance(o) == Some(f) && i < |f.reports| && k in FinanceReportItemKeys
    ensures FindList(o).Under? && FindList(o).key == "reports" && EntryEditable(FindList(o), i)
    ensures DecodeFinance(Some(With(o, "reports", JArr(UpdateArray(FindList(o).elems, i, k, v)))))
            == Some(f.(reports := f.reports[i := SetReportText(f.reports[i], k, v)]))
  {
    ReportsFind(o, f);
    var es := Prop(o, "reports").value.elems;
    ReportEntries(es, f.reports, i, k, v);
    FinanceReportsPut(o.value.members, f, JArr(UpdateArray(es, i, k, v)), f.reports[i := SetReportText(f.reports[i], k, v)]);
  }

  lemma MissionariesList(o: Option<Json>, m: Missionaries, i: nat, k: string, v: string)
    requires DecodeMissionaries(o) == Some(m) && i < |m.items| && k in MissionaryItemKeys
    ensures FindList(o).Under? && FindList(o).key == "items" && EntryEditable(FindList(o), i)
    ensures DecodeMissionaries(Some(With(o, "items", JArr(UpdateArray(FindList(o).elems, i, k, v)))))
            == Some(m.(items := m.items[i := SetMissionaryText(m.items[i], k, v)]))
  {
    MissionariesFind(o, m);
    var es := Prop(o, "items").value.elems;
    MissionaryEntries(es, m.items, i, k, v);
    MissionariesItemsPut(o.value.members, m, JArr(UpdateArray(es, i, k, v)), m.items[i := SetMissionaryText(m.items[i], k, v)]);
  }

  lemma WeeklyList(o: Option<Json>, s: Schedule, i: nat, k: string, v: string)
    requires DecodeSchedule(o) == Some(s) && i < |s.weekly| && k in WeeklyScheduleItemKeys
    ensures FindList(o).Under? && FindList(o).key == "weekly" && EntryEditable(FindList(o), i)
    ensures DecodeSchedule(Some(With(o, "weekly", JArr(UpdateArray(FindList(o).elems, i, k, v)))))
            == Some(s.(weekly := s.weekly[i := SetWeeklyText(s.weekly[i], k, v)]))
  {
    WeeklyFind(o, s);
    var es := Prop(o, "weekly").value.elems;
    var weekly := s.weekly[i := SetWeeklyText(s.weekly[i], k, v)];
    assert i < |es| && DecodeList(UpdateArray(es, i, k, v), DecodeWeeklyScheduleItem) == Some(weekly) by {
      WeeklyEntries(es, s.weekly, i, k, v);
    }
    ScheduleWeeklyPut(o.value.members, s, JArr(UpdateArray(es, i, k, v)), weekly);
  }

  // One section of a decoded document.

  lemma WorshipOrderOf(ms: seq<Member>, d: BulletinData)
    requires Decode(JObj(ms)) == Some(d)
    ensures List(Section(JObj(ms), "worshipOrder"), DecodeWorshipOrderItem) == Some(d.worshipOrder)
  { }

  lemma MainOf(ms: seq<Member>, d: BulletinData)
    requires Decode(JObj(ms)) == Some(d)
    ensures DecodeMain(Section(JObj(ms), "main")) == Some(d.main)
  { }

  lemma AboutOf(ms: seq<Member>, d: BulletinData)
    requires Decode(JObj(ms)) == Some(d)
    ensures DecodeAbout(Section(JObj(ms), "about")) == Some(d.about)
  { }

  lemma HymnOf(ms: seq<Member>, d: BulletinData)
    requires Decode(JObj(ms)) == Some(d)
    ensures DecodeHymn(Section(JObj(ms), "hymn")) == Some(d.hymn)
  { }

  lemma NewsOf(ms: seq<Member>, d: BulletinData)
    requires Decode(JObj(ms)) == Some(d)
    ensures DecodeNews(Section(JObj(ms), "news")) == Some(d.news)
  { }

  lemma FinanceOf(ms: seq<Member>, d: BulletinData)
    requires Decode(JObj(ms)) == Some(d)
    ensures DecodeFinance(Section(JObj(ms), "finance")) == Some(d.finance)
  { }

  lemma MissionariesOf(ms: seq<Member>, d: BulletinData)
    requires Decode(JObj(ms)) == Some(d)
    ensures DecodeMissionaries(Section(JObj(ms), "missionaries")) == Some(d.missionaries)
  { }

  lemma ScheduleOf(ms: seq<Member>, d: BulletinData)
    requires Decode(JObj(ms)) == Some(d)
    ensures DecodeSchedule(Section(JObj(ms), "schedule")) == Some(d.schedule)
  { }

  // `handleArrayChange` on a document whose list section decodes: the
  // document with that section replaced by a value `y` that decodes to
  // the section with the entry's property set.

  lemma WorshipOrderAfter(prev: Json, ws: seq<WorshipOrderItem>, i: nat, k: string, v: string) returns (y: Json)
    requires prev.JObj? && List(Section(prev, "worshipOrder"), DecodeWorshipOrderItem) == Some(ws)
    requires i < |ws| && k in WorshipOrderItemKeys
    ensures ArrayChangeDefined(prev, "worshipOrder", i)
    ensures ArrayChange(prev, "worshipOrder", i, k, v) == With(Some(prev), "worshipOrder", y)
    ensures List(Some(y), DecodeWorshipOrderItem) == Some(ws[i := SetWorshipText(ws[i], k, v)])
  {
    var o := Section(prev, "worshipOrder");
    WorshipOrderFind(o, ws);
    WorshipOrderEntries(o.value.elems, ws, i, k, v);
    y := JArr(UpdateArray(o.value.elems, i, k, v));
  }

  lemma NewsAfter(prev: Json, n: News, i: nat, k: string, v: string) returns (y: Json)
    requires prev.JObj? && DecodeNews(Section(prev, "news")) == Some(n) && i < |n.items| && k in NewsItemKeys
    ensures ArrayChangeDefined(prev, "news", i)
    ensures ArrayChange(prev, "news", i, k, v) == With(Some(prev), "news", y)
    ensures DecodeNews(Some(y)) == Some(n.(items := n.items[i := SetNewsItemText(n.items[i], k, v)]))
  {
    var o := Section(prev, "news");
    NewsList(o, n, i, k, v);
    y := With(o, "items", JArr(UpdateArray(FindList(o).elems, i, k, v)));
  }

  lemma ReportsAfter(prev: Json, f: Finance, i: nat, k: string, v: string) returns (y: Json)
    requires prev.JObj? && DecodeFinance(Section(prev, "finance")) == Some(f)
    requires i < |f.reports| && k in FinanceReportItemKeys
    ensures ArrayChangeDefined(prev, "finance", i)
    ensures ArrayChange(prev, "finance", i, k, v) == With(Some(prev), "finance", y)
    ensures DecodeFinance(Some(y)) == Some(f.(reports := f.reports[i := SetReportText(f.reports[i], k, v)]))
  {
    var o := Section(prev, "finance");
    ReportsList(o, f, i, k, v);
    y := With(o, "reports", JArr(UpdateArray(FindList(o).elems, i, k, v)));
  }

  lemma MissionariesAfter(prev: Json, m: Missionaries, i: nat, k: string, v: string) returns (y: Json)
    requires prev.JObj? && DecodeMissionaries(Section(prev, "missionaries")) == Some(m)
    requires i < |m.items| && k in MissionaryItemKeys
    ensures ArrayChangeDefined(prev, "missionaries", i)
    ensures ArrayChange(prev, "missionaries", i, k, v) == With(Some(prev), "missionaries", y)
    ensures DecodeMissionaries(Some(y)) == Some(m.(items := m.items[i := SetMissionaryText(m.items[i], k, v)]))
  {
    var o := Section(prev, "missionaries");
    MissionariesList(o, m, i, k, v);
    y := With(o, "items", JArr(UpdateArray(FindList(o).elems, i, k, v)));
  }

  lemma WeeklyAfter(prev: Json, s: Schedule, i: nat, k: string, v: string) returns (y: Json)
    requires prev.JObj? && DecodeSchedule(Section(prev, "schedule")) == Some(s)
    requires i < |s.weekly| && k in WeeklyScheduleItemKeys
    ensures ArrayChangeDefined(prev, "schedule", i)
    ensures ArrayChange(prev, "schedule", i, k, v) == With(Some(prev), "schedule", y)
    ensures DecodeSchedule(Some(y)) == Some(s.(weekly := s.weekly[i := SetWeeklyText(s.weekly[i], k, v)]))
  {
    var o := Section(prev, "schedule");
    WeeklyList(o, s, i, k, v);
    y := With(o, "weekly", JArr(UpdateArray(FindList(o).elems, i, k, v)));
  }

  // Editing an entry of a document.

  lemma WorshipOrderChange(ms: seq<Member>, d: BulletinData, i: nat, k: string, v: string)
    requires Decode(JObj(ms)) == Some(d) && i < |d.worshipOrder| && k in WorshipOrderItemKeys
    ensures ArrayChangeDefined(JObj(ms), "worshipOrder", i)
    ensures Decode(ArrayChange(JObj(ms), "worshipOrder", i, k, v))
            == Some(d.(worshipOrder := d.worshipOrder[i := SetWorshipText(d.worshipOrder[i], k, v)]))
  {
    WorshipOrderOf(ms, d);
    var y := WorshipOrderAfter(JObj(ms), d.worshipOrder, i, k, v);
    WithWorshipOrder(ms, d, y, d.worshipOrder[i := SetWorshipText(d.worshipOrder[i], k, v)]);
  }

  lemma NewsChange(ms: seq<Member>, d: BulletinData, i: nat, k: string, v: string)
    requires Decode(JObj(ms)) == Some(d) && i < |d.news.items| && k in NewsItemKeys
    ensures ArrayChangeDefined(JObj(ms), "news", i)
    ensures Decode(ArrayChange(JObj(ms), "news", i, k, v))
            == Some(d.(news := d.news.(items := d.news.items[i := SetNewsItemText(d.news.items[i], k, v)])))
  {
    NewsOf(ms, d);
    var y := NewsAfter(JObj(ms), d.news, i, k, v);
    WithNews(ms, d, y, d.news.(items := d.news.items[i := SetNewsItemText(d.news.items[i], k, v)]));
  }

  lemma ReportsChange(ms: seq<Member>, d: BulletinData, i: nat, k: string, v: string)
    requires Decode(JObj(ms)) == Some(d) && i < |d.finance.reports| && k in FinanceReportItemKeys
    ensures ArrayChangeDefined(JObj(ms), "finance", i)
    ensures Decode(ArrayChange(JObj(ms), "finance", i, k, v))
            == Some(d.(finance := d.finance.(reports := d.finance.reports[i := SetReportText(d.finance.reports[i], k, v)])))
  {
    FinanceOf(ms, d);
    var y := ReportsAfter(JObj(ms), d.finance, i, k, v);
    WithFinance(ms, d, y, d.finance.(reports := d.finance.reports[i := SetReportText(d.finance.reports[i], k, v)]));
  }

  lemma MissionariesChange(ms: seq<Member>, d: BulletinData, i: nat, k: string, v: string)
    requires Decode(JObj(ms)) == Some(d) && i < |d.missionaries.items| && k in MissionaryItemKeys
    ensures ArrayChangeDefined(JObj(ms), "missionaries", i)
    ensures Decode(ArrayChange(JObj(ms), "missionaries", i, k, v))
            == Some(d.(missionaries := d.missionaries.(items := d.missionaries.items[i := SetMissionaryText(d.missionaries.items[i], k, v)])))
  {
    MissionariesOf(ms, d);
    var y := MissionariesAfter(JObj(ms), d.missionaries, i, k, v);
    WithMissionaries(ms, d, y, d.missionaries.(items := d.missionaries.items[i := SetMissionaryText(d.missionaries.items[i], k, v)]));
  }

  lemma WeeklyChange(ms: seq<Member>, d: BulletinData, i: nat, k: string, v: string)
    requires Decode(JObj(ms)) == Some(d) && i < |d.schedule.weekly| && k in WeeklyScheduleItemKeys
    ensures ArrayChangeDefined(JObj(ms), "schedule", i)
    ensures Decode(ArrayChange(JObj(ms), "schedule", i, k, v))
            == Some(d.(schedule := d.schedule.(weekly := d.schedule.weekly[i := SetWeeklyText(d.schedule.weekly[i], k, v)])))
  {
    ScheduleOf(ms, d);
    var y := WeeklyAfter(JObj(ms), d.schedule, i, k, v);
    WithSchedule(ms, d, y, d.schedule.(weekly := d.schedule.weekly[i := SetWeeklyText(d.schedule.weekly[i], k, v)]));
  }

  /** Typing into any list input of a well-shaped document, for an entry
      the form shows, runs without error and leaves a well-shaped document
      whose only change is that entry's property. */
  lemma ArrayChangeTyped(j: Json, d: BulletinData, a: ArrayField, i: nat, v: string)
    requires Decode(j) == Some(d) && i < ListLength(d, a)
    ensures ArrayChangeDefined(j, ListSection(a), i)
    ensures Decode(ArrayChange(j, ListSection(a), i, EntryKey(a), v)) == Some(SetEntry(d, a, i, v))
  {
    var ms, k := j.members, EntryKey(a);
    match a
    case WorshipItem | WorshipSubitem | WorshipPerson | WorshipSubperson => WorshipOrderChange(ms, d, i, k, v);
    case NewsDate | NewsEvent => NewsChange(ms, d, i, k, v);
    case ReportItem | ReportAmount => ReportsChange(ms, d, i, k, v);
    case MissionaryCountry | MissionaryNames => MissionariesChange(ms, d, i, k, v);
    case WeeklyDate | WeeklyPrayer | WeeklySermon => WeeklyChange(ms, d, i, k, v);
  }

  // Sections without a list.

  /** Not one of `items`, `reports` and `weekly` is a property of `o`. */
  predicate NoListKeys(o: Option<Json>)
  {
    Prop(o, "items").None? && Prop(o, "reports").None? && Prop(o, "weekly").None?
  }

  lemma NoListKeysWithin(o: Option<Json>, ks: seq<string>)
    requires o.Some? && o.value.JObj? && KeysWithin(o.value.members, ks)
    requires "items" !in ks && "reports" !in ks && "weekly" !in ks
    ensures NoListKeys(o)
  {
    AbsentOutside(o.value.members, ks, "items");
    AbsentOutside(o.value.members, ks, "reports");
    AbsentOutside(o.value.members, ks, "weekly");
  }

  /** An object without the three list names has no list to edit. */
  lemma NoListKeysFind(o: Option<Json>)
    requires o.Some? && o.value.JObj? && NoListKeys(o)
    ensures FindList(o).NoList? && AtMostOneListKey(o)
  { }

  /** The object a section decoder accepts, and the names it may hold. */
  predicate ObjectWithin(o: Option<Json>, ks: seq<string>)
  {
    o.Some? && o.value.JObj? && KeysWithin(o.value.members, ks)
  }

  lemma MainShape(o: Option<Json>)
    requires DecodeMain(o).Some?
    ensures ObjectWithin(o, MainKeys)
  { }

  lemma AboutShape(o: Option<Json>)
    requires DecodeAbout(o).Some?
    ensures ObjectWithin(o, AboutKeys)
  { }

  lemma HymnShape(o: Option<Json>)
    requires DecodeHymn(o).Some?
    ensures ObjectWithin(o, HymnKeys)
  { }

  lemma NewsShape(o: Option<Json>)
    requires DecodeNews(o).Some?
    ensures ObjectWithin(o, NewsKeys)
  { }

  lemma FinanceShape(o: Option<Json>)
    requires DecodeFinance(o).Some?
    ensures ObjectWithin(o, FinanceKeys)
  { }

  lemma MissionariesShape(o: Option<Json>)
    requires DecodeMissionaries(o).Some?
    ensures ObjectWithin(o, MissionariesKeys)
  { }

  lemma ScheduleShape(o: Option<Json>)
    requires DecodeSchedule(o).Some?
    ensures ObjectWithin(o, ScheduleKeys)
  { }

  // Which list names each section holds.

  /** The list names outside each section's own names. */
  lemma ListNamesOutsideText()
    ensures "items" !in MainKeys && "reports" !in MainKeys && "weekly" !in MainKeys
    ensures "items" !in AboutKeys && "reports" !in AboutKeys && "weekly" !in AboutKeys
    ensures "items" !in HymnKeys && "reports" !in HymnKeys && "weekly" !in HymnKeys
  { }

  lemma ListNamesOutsideLists()
    ensures "reports" !in NewsKeys && "weekly" !in NewsKeys
    ensures "items" !in FinanceKeys && "weekly" !in FinanceKeys
    ensures "reports" !in MissionariesKeys && "weekly" !in MissionariesKeys
    ensures "items" !in ScheduleKeys && "reports" !in ScheduleKeys
  { }

  lemma MainListKeys(o: Option<Json>)
    requires DecodeMain(o).Some?
    ensures NoListKeys(o) && FindList(o).NoList? && AtMostOneListKey(o)
  {
    MainShape(o);
    ListNamesOutsideText();
    NoListKeysWithin(o, MainKeys);
    NoListKeysFind(o);
  }

  lemma AboutListKeys(o: Option<Json>)
    requires DecodeAbout(o).Some?
    ensures NoListKeys(o) && FindList(o).NoList? && AtMostOneListKey(o)
  {
    AboutShape(o);
    ListNamesOutsideText();
    NoListKeysWithin(o, AboutKeys);
    NoListKeysFind(o);
  }

  lemma HymnListKeys(o: Option<Json>)
    requires DecodeHymn(o).Some?
    ensures NoListKeys(o) && FindList(o).NoList? && AtMostOneListKey(o)
  {
    HymnShape(o);
    ListNamesOutsideText();
    NoListKeysWithin(o, HymnKeys);
    NoListKeysFind(o);
  }

  lemma NewsListKeys(o: Option<Json>)
    requires DecodeNews(o).Some?
    ensures AtMostOneListKey(o)
  {
    NewsShape(o);
    ListNamesOutsideLists();
    OneListKeyWithin(o, NewsKeys, "items");
  }

  lemma FinanceListKeys(o: Option<Json>)
    requires DecodeFinance(o).Some?
    ensures AtMostOneListKey(o)
  {
    FinanceShape(o);
    ListNamesOutsideLists();
    OneListKeyWithin(o, FinanceKeys, "reports");
  }

  lemma MissionariesListKeys(o: Option<Json>)
    requires DecodeMissionaries(o).Some?
    ensures AtMostOneListKey(o)
  {
    MissionariesShape(o);
    ListNamesOutsideLists();
    OneListKeyWithin(o, MissionariesKeys, "items");
  }

  lemma ScheduleListKeys(o: Option<Json>)
    requires DecodeSchedule(o).Some?
    ensures AtMostOneListKey(o)
  {
    ScheduleShape(o);
    ListNamesOutsideLists();
    OneListKeyWithin(o, ScheduleKeys, "weekly");
  }

  /** A list input pointed at `main`, `about` or `hymn` finds no list and
      gives back an equal document. */
  lemma NoListSection(j: Json, d: BulletinData, s: string, i: nat, k: string, v: string)
    requires Decode(j) == Some(d) && (s == "main" || s == "about" || s == "hymn")
    ensures FindList(Section(j, s)).NoList?
    ensures ArrayChangeDefined(j, s, i) && ArrayChange(j, s, i, k, v) == j
  {
    var ms := j.members;
    if s == "main" {
      MainOf(ms, d);
      MainListKeys(Section(j, s));
    } else if s == "about" {
      AboutOf(ms, d);
      AboutListKeys(Section(j, s));
    } else {
      HymnOf(ms, d);
      HymnListKeys(Section(j, s));
    }
  }

  /** At most one of `items`, `reports` and `weekly` is a property of `o`. */
  predicate AtMostOneListKey(o: Option<Json>)
  {
    && (Prop(o, "items").Some? ==> Prop(o, "reports").None? && Prop(o, "weekly").None?)
    && (Prop(o, "reports").Some? ==> Prop(o, "weekly").None?)
  }

  lemma OneListKeyWithin(o: Option<Json>, ks: seq<string>, only: string)
    requires ObjectWithin(o, ks)
    requires only in ListKeys
    requires (only == "items" || "items" !in ks) && (only == "reports" || "reports" !in ks)
    requires only == "weekly" || "weekly" !in ks
    ensures AtMostOneListKey(o)
  {
    if only != "items" { AbsentOutside(o.value.members, ks, "items"); }
    if only != "reports" { AbsentOutside(o.value.members, ks, "reports"); }
    if only != "weekly" { AbsentOutside(o.value.members, ks, "weekly"); }
  }

  /** In a well-shaped document no section, and no other property, holds
      more than one of the three list names, so the order in which the
      dispatch tries them does not matter. */
  lemma AtMostOneList(j: Json, d: BulletinData, s: string)
    requires Decode(j) == Some(d)
    ensures AtMostOneListKey(Section(j, s))
  {
    var ms, o := j.members, Section(j, s);
    if s == "main" {
      MainOf(ms, d);
      MainListKeys(o);
    } else if s == "about" {
      AboutOf(ms, d);
      AboutListKeys(o);
    } else if s == "hymn" {
      HymnOf(ms, d);
      HymnListKeys(o);
    } else if s == "news" {
      NewsOf(ms, d);
      NewsListKeys(o);
    } else if s == "finance" {
      FinanceOf(ms, d);
      FinanceListKeys(o);
    } else if s == "missionaries" {
      MissionariesOf(ms, d);
      MissionariesListKeys(o);
    } else if s == "schedule" {
      ScheduleOf(ms, d);
      ScheduleListKeys(o);
    } else if s != "worshipOrder" {
      DocumentKeysWithin(ms, d);
      OutsideDocument(ms, s);
    }
  }

  /** A name other than the eight section names is not a property of a
      document object. */
  lemma OutsideDocument(ms: seq<Member>, s: string)
    requires KeysWithin(ms, DocumentKeys)
    requires s != "main" && s != "about" && s != "hymn" && s != "worshipOrder"
    requires s != "news" && s != "finance" && s != "missionaries" && s != "schedule"
    ensures Get(ms, s).None?
  {
    AbsentOutside(ms, DocumentKeys, s);
  }

  lemma DocumentKeysWithin(ms: seq<Member>, d: BulletinData)
    requires Decode(JObj(ms)) == Some(d)
    ensures KeysWithin(ms, DocumentKeys)
  { }

  /** Choosing an image for a well-shaped document gives the document with
      the hymn's `musicSheet` set to the data URL. */
  lemma MusicSheetTyped(j: Json, d: BulletinData, url: string)
    requires Decode(j) == Some(d)
    ensures j.JObj? && Spreadable(Section(j, "hymn"))
    ensures Decode(SetMusicSheet(j, url)) == Some(d.(hymn := d.hymn.(musicSheet := Some(url))))
  {
    var ms := j.members;
    var o := Section(JObj(ms), "hymn");
    HymnOf(ms, d);
    HymnMusicSheetWith(o, d.hymn, url);
    WithHymn(ms, d, With(o, "musicSheet", JStr(url)), d.hymn.(musicSheet := Some(url)));
  }
}

=== FILE: hex.dfy ===
/** Hexadecimal digits, as written by `JSON.stringify` (lower case) and by
    `encodeURIComponent` (upper case), and as read by both decoders (either
    case). */
module Hex {
  import opened Wrappers

  function LowerDigit(n: int): (c: char)
    requires 0 <= n < 16
    ensures DigitValue(c) == Some(n)
  {
    if n < 10 then ('0' as int + n) as char else ('a' as int + n - 10) as char
  }

  function UpperDigit(n: int): (c: char)
    requires 0 <= n < 16
    ensures DigitValue(c) == Some(n)
    ensures '0' <= c <= '9' || 'A' <= c <= 'F'
  {
    if n < 10 then ('0' as int + n) as char else ('A' as int + n - 10) as char
  }

  /** The value of one hexadecimal digit of either case; `None` for any
      other character. */
  function DigitValue(c: char): (r: Option<int>)
    ensures r.Some? ==> 0 <= r.value < 16
    ensures r.Some? <==> ('0' <= c <= '9' || 'a' <= c <= 'f' || 'A' <= c <= 'F')
  {
    if '0' <= c <= '9' then Some(c as int - '0' as int)
    else if 'a' <= c <= 'f' then Some(c as int - 'a' as int + 10)
    else if 'A' <= c <= 'F' then Some(c as int - 'A' as int + 10)
    else None
  }
}

=== FILE: json_text.dfy ===
/** `JSON.stringify` and `JSON.parse` on the values of `JsonValue`: the JSON
    text format of RFC 8259 (values in section 3, objects in section 4,
    arrays in section 5, strings and their escapes in section 7), in the
    compact form ECMAScript's `JSON.stringify` writes (no whitespace) and
    with the whitespace of section 2 accepted when parsing. */
module JsonText {
  import opened Wrappers
  import opened JsonValue
  import Hex

  // ---------------------------------------------------------------------
  // JSON.stringify
  // ---------------------------------------------------------------------

  /** How `JSON.stringify` writes one character inside a string literal:
      the quote and the backslash, and the control characters that have a
      short escape, are escaped; the other control characters below U+0020
      become `\u00xx` with lower-case hex digits; everything else, including
      all non-ASCII text, is written as is. */
  function QuoteChar(c: char): string
  {
    var n := c as int;
    if n == 0x22 then ['\\', '"']
    else if n == 0x5C then ['\\', '\\']
    else if n == 0x08 then ['\\', 'b']
    else if n == 0x0C then ['\\', 'f']
    else if n == 0x0A then ['\\', 'n']
    else if n == 0x0D then ['\\', 'r']
    else if n == 0x09 then ['\\', 't']
    else if n < 0x20 then ['\\', 'u', '0', '0', Hex.LowerDigit(n / 16), Hex.LowerDigit(n % 16)]
    else [c]
  }

  function QuoteChars(s: string): string
  {
    if |s| == 0 then [] else QuoteChar(s[0]) + QuoteChars(s[1..])
  }

  function Quote(s: string): string
  {
    ['"'] + QuoteChars(s) + ['"']
  }

  /** Text without quotes, backslashes or control characters is written
      as is. */
  lemma {:induction false} QuotePlain(s: string)
    requires forall i :: 0 <= i < |s| ==> s[i] as int >= 0x20 && s[i] != '"' && s[i] != '\\'
    ensures QuoteChars(s) == s
  {
    if |s| > 0 {
      QuotePlain(s[1..]);
      assert [s[0]] + s[1..] == s;
    }
  }

  /** `JSON.stringify(j)`. Its first character tells the kind of value,
      which is what lets the parser read it back. */
  function Stringify(j: Json): (t: string)
    ensures |t| > 0
    ensures t[0] == 'n' <==> j.JNull?
    ensures t[0] == '"' <==> j.JStr?
    ensures t[0] == '[' <==> j.JArr?
    ensures t[0] == '{' <==> j.JObj?
    ensures t[0] == 't' || t[0] == 'f' <==> j.JBool?
    decreases j
  {
    match j
    case JNull => "null"
    case JBool(b) => if b then "true" else "false"
    case JStr(s) => Quote(s)
    case JArr(es) => ['['] + (if |es| == 0 then [']'] else StringifyElements(es))
    case JObj(ms) => ['{'] + (if |ms| == 0 then ['}'] else StringifyMembers(ms))
  }

  /** The elements of a non-empty array, comma-separated, and the closing
      bracket. */
  function StringifyElements(es: seq<Json>): string
    requires |es| > 0
    decreases es
  {
    Stringify(es[0]) + (if |es| == 1 then [']'] else [','] + StringifyElements(es[1..]))
  }

  /** The `"key":value` members of a non-empty object, comma-separated, and
      the closing brace. */
  function StringifyMembers(ms: seq<Member>): string
    requires |ms| > 0
    decreases ms
  {
    Quote(ms[0].key) + [':'] + Stringify(ms[0].value)
    + (if |ms| == 1 then ['}'] else [','] + StringifyMembers(ms[1..]))
  }

  // ---------------------------------------------------------------------
  // JSON.parse
  // ---------------------------------------------------------------------

  /** The four whitespace characters of RFC 8259, section 2. */
  predicate IsWhitespace(c: char)
  {
    c == ' ' || c == '\t' || c == '\n' || c == '\r'
  }

  function SkipWhitespace(s: string): (t: string)
    ensures |t| <= |s|
    ensures |t| > 0 ==> !IsWhitespace(t[0])
    ensures |s| > 0 && !IsWhitespace(s[0]) ==> t == s
  {
    if |s| > 0 && IsWhitespace(s[0]) then SkipWhitespace(s[1..]) else s
  }

  /** The code unit written as four hex digits after `\u`. */
  function Hex4(s: string): (r: Option<int>)
    requires |s| == 4
    ensures r.Some? ==> 0 <= r.value < 0x10000
  {
    match (Hex.DigitValue(s[0]), Hex.DigitValue(s[1]), Hex.DigitValue(s[2]), Hex.DigitValue(s[3]))
    case (Some(a), Some(b), Some(c), Some(d)) => Some(((a * 16 + b) * 16 + c) * 16 + d)
    case _ => None
  }

  /** The character an escape `\x` stands for, for the seven
      single-character escapes (`\u` is handled apart). */
  function ShortEscape(e: char): Option<char>
  {
    if e == '"' then Some('"')
    else if e == '\\' then Some('\\')
    else if e == '/' then Some('/')
    else if e == 'b' then Some(8 as char)
    else if e == 'f' then Some(12 as char)
    else if e == 'n' then Some('\n')
    else if e == 'r' then Some('\r')
    else if e == 't' then Some('\t')
    else None
  }

  /** The text of a string literal after its opening quote, up to and
      including the closing quote; returns the decoded text and what follows.
      A raw control character, an unknown escape or a missing closing quote
      is a SyntaxError. A `\u` escape of a surrogate half is accepted only
      as the first half of a pair. */
  function ParseStringBody(s: string): (r: Result<(string, string), Exception>)
    ensures r.Success? ==> |r.value.1| < |s|
    decreases |s|
  {
    if |s| == 0 then Failure(SyntaxError)
    else if s[0] == '"' then Success(([], s[1..]))
    else if s[0] == '\\' then
      if |s| < 2 then Failure(SyntaxError)
      else if s[1] == 'u' then
        if |s| < 6 then Failure(SyntaxError)
        else
          match Hex4(s[2..6])
          case None => Failure(SyntaxError)
          case Some(u) =>
            if 0xD800 <= u < 0xDC00 then
              if |s| < 12 || s[6] != '\\' || s[7] != 'u' then Failure(SyntaxError)
              else
                match Hex4(s[8..12])
                case None => Failure(SyntaxError)
                case Some(l) =>
                  if 0xDC00 <= l < 0xE000 then
                    var p :- ParseStringBody(s[12..]);
                    Success(([(0x10000 + (u - 0xD800) * 0x400 + (l - 0xDC00)) as char] + p.0, p.1))
                  else Failure(SyntaxError)
            else if 0xDC00 <= u < 0xE000 then Failure(SyntaxError)
            else
              var p :- ParseStringBody(s[6..]);
              Success(([u as char] + p.0, p.1))
      else
        match ShortEscape(s[1])
        case None => Failure(SyntaxError)
        case Some(c) =>
          var p :- ParseStringBody(s[2..]);
          Success(([c] + p.0, p.1))
    else if (s[0] as int) < 0x20 then Failure(SyntaxError)
    else
      var p :- ParseStringBody(s[1..]);
      Success(([s[0]] + p.0, p.1))
  }

  /** A keyword literal `null`, `true` or `false`. */
  function ParseWord(t: string, word: string, v: Json): (r: Result<(Json, string), Exception>)
    requires |word| > 0
    ensures r.Success? ==> |r.value.1| < |t|
  {
    if |word| <= |t| && t[..|word|] == word then Success((v, t[|word|..]))
    else Failure(SyntaxError)
  }

  /** One JSON value after optional whitespace; returns it and the rest of
      the text. */
  function ParseValue(s: string): (r: Result<(Json, string), Exception>)
    ensures r.Success? ==> |r.value.1| < |s|
    decreases |s|, 1
  {
    var t := SkipWhitespace(s);
    if |t| == 0 then Failure(SyntaxError)
    else if t[0] == 'n' then ParseWord(t, "null", JNull)
    else if t[0] == 't' then ParseWord(t, "true", JBool(true))
    else if t[0] == 'f' then ParseWord(t, "false", JBool(false))
    else if t[0] == '"' then
      var p :- ParseStringBody(t[1..]);
      Success((JStr(p.0), p.1))
    else if t[0] == '[' then ParseArray(t[1..])
    else if t[0] == '{' then ParseObject(t[1..])
    else Failure(SyntaxError)
  }

  /** An array after its opening bracket. */
  function ParseArray(s: string): (r: Result<(Json, string), Exception>)
    ensures r.Success? ==> |r.value.1| < |s|
    decreases |s|, 3
  {
    var t := SkipWhitespace(s);
    if |t| > 0 && t[0] == ']' then Success((JArr([]), t[1..]))
    else ParseElements(t, [])
  }

  /** The elements of an array after `[` or `,`; `acc` holds those read. */
  function ParseElements(s: string, acc: seq<Json>): (r: Result<(Json, string), Exception>)
    ensures r.Success? ==> |r.value.1| < |s|
    decreases |s|, 2
  {
    var p :- ParseValue(s);
    var t := SkipWhitespace(p.1);
    if |t| == 0 then Failure(SyntaxError)
    else if t[0] == ',' then ParseElements(t[1..], acc + [p.0])
    else if t[0] == ']' then Success((JArr(acc + [p.0]), t[1..]))
    else Failure(SyntaxError)
  }

  /** An object after its opening brace. */
  function ParseObject(s: string): (r: Result<(Json, string), Exception>)
    ensures r.Success? ==> |r.value.1| < |s|
    decreases |s|, 3
  {
    var t := SkipWhitespace(s);
    if |t| > 0 && t[0] == '}' then Success((JObj([]), t[1..]))
    else ParseMembers(t, [])
  }

  /** The members of an object after `{` or `,`; `acc` holds the properties
      read so far. A repeated name overwrites the earlier value in place,
      as a repeated property in an object literal does. */
  function ParseMembers(s: string, acc: seq<Member>): (r: Result<(Json, string), Exception>)
    ensures r.Success? ==> |r.value.1| < |s|
    decreases |s|, 2
  {
    var t := SkipWhitespace(s);
    if |t| == 0 || t[0] != '"' then Failure(SyntaxError)
    else
      var k :- ParseStringBody(t[1..]);
      var t2 := SkipWhitespace(k.1);
      if |t2| == 0 || t2[0] != ':' then Failure(SyntaxError)
      else
        var v :- ParseValue(t2[1..]);
        var acc' := Put(acc, k.0, v.0);
        var t3 := SkipWhitespace(v.1);
        if |t3| == 0 then Failure(SyntaxError)
        else if t3[0] == ',' then ParseMembers(t3[1..], acc')
        else if t3[0] == '}' then Success((JObj(acc'), t3[1..]))
        else Failure(SyntaxError)
  }

  /** `JSON.parse(text)`: one value, with only whitespace around it. */
  function Parse(text: string): (r: Result<Json, Exception>)
  {
    var p :- ParseValue(text);
    if |SkipWhitespace(p.1)| == 0 then Success(p.0) else Failure(SyntaxError)
  }

  // ---------------------------------------------------------------------
  // Round trip
  // ---------------------------------------------------------------------

  lemma HexRoundTrip(n: int)
    requires 0 <= n < 0x20
    ensures Hex4(['0', '0', Hex.LowerDigit(n / 16), Hex.LowerDigit(n % 16)]) == Some(n)
  {
  }

  /** Reading an escaped character back gives the character. */
  lemma QuoteCharRoundTrip(c: char, x: string)
    ensures ParseStringBody(QuoteChar(c) + x)
            == (match ParseStringBody(x)
                case Success(p) => Success(([c] + p.0, p.1))
                case Failure(e) => Failure(e))
  {
    var n := c as int;
    var q := QuoteChar(c);
    var s := q + x;
    if n < 0x20 && n != 0x08 && n != 0x0C && n != 0x0A && n != 0x0D && n != 0x09 {
      HexRoundTrip(n);
      assert s[2..6] == ['0', '0', Hex.LowerDigit(n / 16), Hex.LowerDigit(n % 16)];
      assert s[6..] == x;
    } else if n == 0x22 || n == 0x5C || n == 0x08 || n == 0x0C || n == 0x0A || n == 0x0D || n == 0x09 {
      assert s[2..] == x;
    } else {
      assert s[1..] == x;
    }
  }

  /** The body of a quoted string reads back as the string, leaving the
      text after the closing quote. */
  lemma {:induction false} QuoteCharsRoundTrip(s: string, rest: string)
    ensures ParseStringBody(QuoteChars(s) + ['"'] + rest) == Success((s, rest))
  {
    if |s| == 0 {
      assert QuoteChars(s) + ['"'] + rest == ['"'] + rest;
    } else {
      var x := QuoteChars(s[1..]) + ['"'] + rest;
      assert QuoteChars(s) + ['"'] + rest == QuoteChar(s[0]) + x;
      QuoteCharsRoundTrip(s[1..], rest);
      QuoteCharRoundTrip(s[0], x);
      assert [s[0]] + s[1..] == s;
    }
  }

  lemma QuoteRoundTrip(s: string, rest: string)
    ensures Quote(s) + rest == ['"'] + (QuoteChars(s) + ['"'] + rest)
    ensures ParseStringBody(QuoteChars(s) + ['"'] + rest) == Success((s, rest))
  {
    QuoteCharsRoundTrip(s, rest);
  }

  /** The keywords and strings read back as themselves. */
  lemma ScalarRoundTrip(j: Json, rest: string)
    requires IsScalar(j)
    ensures ParseValue(Stringify(j) + rest) == Success((j, rest))
  {
    var s := Stringify(j) + rest;
    assert SkipWhitespace(s) == s;
    match j
    case JNull => assert s[4..] == rest;
    case JBool(b) =>
      if b { assert s[4..] == rest; } else { assert s[5..] == rest; }
    case JStr(str) =>
      QuoteRoundTrip(str, rest);
      assert s[1..] == QuoteChars(str) + ['"'] + rest;
  }

  /** Parsing the text `JSON.stringify` writes for a value gives back the
      value and leaves any text after it untouched. */
  lemma {:induction false} ValueRoundTrip(j: Json, rest: string)
    requires WellFormed(j)
    ensures ParseValue(Stringify(j) + rest) == Success((j, rest))
    decreases j, 2
  {
    match j
    case JNull => ScalarRoundTrip(j, rest);
    case JBool(_) => ScalarRoundTrip(j, rest);
    case JStr(_) => ScalarRoundTrip(j, rest);
    case JArr(es) => ArrayRoundTrip(es, rest);
    case JObj(ms) => ObjectRoundTrip(ms, rest);
  }

  /** A value's text opening with a bracket or brace goes to the array or
      object parser. */
  lemma ParseValueOpen(open: char, body: string)
    requires open == '[' || open == '{'
    ensures ParseValue([open] + body)
            == if open == '[' then ParseArray(body) else ParseObject(body)
  {
    var s := [open] + body;
    assert SkipWhitespace(s) == s;
    assert s[1..] == body;
  }

  /** Non-empty array and object bodies go to the element and member
      parsers with nothing read yet; empty ones close at once. */
  lemma ParseOpened(t: string)
    requires |t| > 0 && !IsWhitespace(t[0])
    ensures t[0] != ']' ==> ParseArray(t) == ParseElements(t, [])
    ensures t[0] == ']' ==> ParseArray(t) == Success((JArr([]), t[1..]))
    ensures t[0] != '}' ==> ParseObject(t) == ParseMembers(t, [])
    ensures t[0] == '}' ==> ParseObject(t) == Success((JObj([]), t[1..]))
  {
    assert SkipWhitespace(t) == t;
  }

  /** The text of an empty array or object reads back as it. */
  lemma EmptyRoundTrip(j: Json, rest: string)
    requires j == JArr([]) || j == JObj([])
    ensures ParseValue(Stringify(j) + rest) == Success((j, rest))
  {
    var open, close := if j.JArr? then '[' else '{', if j.JArr? then ']' else '}';
    var t := [close] + rest;
    assert Stringify(j) + rest == [open] + t;
    ParseValueOpen(open, t);
    ParseOpened(t);
    assert t[1..] == rest;
  }

  /** The text of a non-empty array goes to the element parser with no
      element read yet. */
  lemma ArrayOpen(es: seq<Json>, rest: string)
    requires |es| > 0
    ensures ParseValue(Stringify(JArr(es)) + rest) == ParseElements(StringifyElements(es) + rest, [])
  {
    var t := StringifyElements(es) + rest;
    assert Stringify(JArr(es)) + rest == ['['] + t;
    ParseValueOpen('[', t);
    ElementsText(es, rest);
    ParseOpened(t);
  }

  /** The text of a non-empty object goes to the member parser with no
      member read yet. */
  lemma ObjectOpen(ms: seq<Member>, rest: string)
    requires |ms| > 0
    ensures ParseValue(Stringify(JObj(ms)) + rest) == ParseMembers(StringifyMembers(ms) + rest, [])
  {
    var t := StringifyMembers(ms) + rest;
    assert Stringify(JObj(ms)) + rest == ['{'] + t;
    ParseValueOpen('{', t);
    assert t[0] == '"' by {
      assert StringifyMembers(ms)[0] == Quote(ms[0].key)[0];
    }
    ParseOpened(t);
  }

  lemma {:induction false} ArrayRoundTrip(es: seq<Json>, rest: string)
    requires forall i :: 0 <= i < |es| ==> WellFormed(es[i])
    ensures ParseValue(Stringify(JArr(es)) + rest) == Success((JArr(es), rest))
    decreases JArr(es), 1
  {
    if |es| == 0 {
      EmptyRoundTrip(JArr(es), rest);
    } else {
      ArrayOpen(es, rest);
      ElementsRoundTrip(es, [], rest);
      assert [] + es == es;
    }
  }

  lemma {:induction false} ObjectRoundTrip(ms: seq<Member>, rest: string)
    requires Distinct(Keys(ms))
    requires forall i :: 0 <= i < |ms| ==> WellFormed(ms[i].value)
    ensures ParseValue(Stringify(JObj(ms)) + rest) == Success((JObj(ms), rest))
    decreases JObj(ms), 1
  {
    if |ms| == 0 {
      EmptyRoundTrip(JObj(ms), rest);
    } else {
      ObjectOpen(ms, rest);
      assert [] + ms == ms;
      MembersRoundTrip(ms, [], rest);
    }
  }

  /** The text of a non-empty array's elements followed by `rest`, regrouped
      as the parser reads it: the first element and what comes after it. */
  lemma ElementsText(es: seq<Json>, rest: string)
    requires |es| > 0
    ensures StringifyElements(es) + rest
            == Stringify(es[0]) + (if |es| == 1 then [']'] + rest else [','] + (StringifyElements(es[1..]) + rest))
    ensures (StringifyElements(es) + rest)[0] == Stringify(es[0])[0]
  {
    var sv := Stringify(es[0]);
    if |es| > 1 {
      Assoc(sv, [','] + StringifyElements(es[1..]), rest);
      Assoc([','], StringifyElements(es[1..]), rest);
    } else {
      Assoc(sv, [']'], rest);
    }
  }

  /** One element step of the array parser, once the element is known to
      read back. */
  lemma ElementStep(s: string, acc: seq<Json>, value: Json, tail: string)
    requires ParseValue(s) == Success((value, tail))
    requires |tail| > 0 && (tail[0] == ',' || tail[0] == ']')
    ensures ParseElements(s, acc)
            == if tail[0] == ',' then ParseElements(tail[1..], acc + [value])
               else Success((JArr(acc + [value]), tail[1..]))
  {
    assert SkipWhitespace(tail) == tail;
  }

  lemma {:induction false} ElementsRoundTrip(es: seq<Json>, acc: seq<Json>, rest: string)
    requires |es| > 0
    requires forall i :: 0 <= i < |es| ==> WellFormed(es[i])
    ensures ParseElements(StringifyElements(es) + rest, acc) == Success((JArr(acc + es), rest))
    decreases es, 0
  {
    var tail := if |es| == 1 then [']'] + rest else [','] + (StringifyElements(es[1..]) + rest);
    ElementsText(es, rest);
    assert WellFormed(es[0]);
    ValueRoundTrip(es[0], tail);
    ElementStep(StringifyElements(es) + rest, acc, es[0], tail);
    if |es| == 1 {
      assert [es[0]] == es;
    } else {
      var acc', tl := acc + [es[0]], es[1..];
      assert tail[1..] == StringifyElements(tl) + rest;
      assert acc' + tl == acc + es by {
        assert [es[0]] + tl == es;
        assert (acc + [es[0]]) + tl == acc + ([es[0]] + tl);
      }
      assert forall i :: 0 <= i < |tl| ==> tl[i] == es[i + 1];
      ElementsRoundTrip(tl, acc', rest);
    }
  }

  /** One member step of the object parser, once its key and value are
      known to read back. */
  lemma MemberStep(s: string, acc: seq<Member>, key: string, afterKey: string, value: Json, tail: string)
    requires |s| > 0 && s[0] == '"'
    requires ParseStringBody(s[1..]) == Success((key, afterKey))
    requires |afterKey| > 0 && afterKey[0] == ':'
    requires ParseValue(afterKey[1..]) == Success((value, tail))
    requires |tail| > 0 && (tail[0] == ',' || tail[0] == '}')
    ensures ParseMembers(s, acc)
            == if tail[0] == ',' then ParseMembers(tail[1..], Put(acc, key, value))
               else Success((JObj(Put(acc, key, value)), tail[1..]))
  {
    assert SkipWhitespace(s) == s;
    assert SkipWhitespace(afterKey) == afterKey;
    assert SkipWhitespace(tail) == tail;
  }

  lemma KeyNotBefore(acc: seq<Member>, ms: seq<Member>)
    requires |ms| > 0
    requires Distinct(Keys(acc + ms))
    ensures ms[0].key !in Keys(acc)
    ensures Put(acc, ms[0].key, ms[0].value) == acc + [ms[0]]
  {
    var ks := Keys(acc + ms);
    forall i | 0 <= i < |Keys(acc)|
      ensures Keys(acc)[i] != ms[0].key
    {
      assert ks[i] == (acc + ms)[i].key == acc[i].key;
      assert ks[|acc|] == ms[0].key;
    }
    PutNew(acc, ms[0].key, ms[0].value);
  }

  lemma Assoc(a: string, b: string, c: string)
    ensures (a + b) + c == a + (b + c)
  {
  }

  /** The text of a non-empty object's members followed by `rest`, regrouped
      as the parser reads it: the key's quote, the key, the colon, the value
      and what comes after the value. */
  lemma {:induction false} MembersText(ms: seq<Member>, rest: string)
    requires |ms| > 0
    ensures StringifyMembers(ms) + rest
            == ['"'] + (QuoteChars(ms[0].key) + ['"'] + ([':'] + (Stringify(ms[0].value)
               + (if |ms| == 1 then ['}'] + rest else [','] + (StringifyMembers(ms[1..]) + rest)))))
  {
    var qc, sv := QuoteChars(ms[0].key), Stringify(ms[0].value);
    var tl := if |ms| == 1 then ['}'] else [','] + StringifyMembers(ms[1..]);
    var tail := if |ms| == 1 then ['}'] + rest else [','] + (StringifyMembers(ms[1..]) + rest);
    assert tl + rest == tail by {
      if |ms| > 1 {
        Assoc([','], StringifyMembers(ms[1..]), rest);
      }
    }
    var q := ['"'] + qc + ['"'];
    assert StringifyMembers(ms) == q + [':'] + sv + tl;
    calc {
      StringifyMembers(ms) + rest;
      (q + [':'] + sv + tl) + rest;
      { Assoc(q + [':'] + sv, tl, rest); }
      (q + [':'] + sv) + tail;
      { Assoc(q + [':'], sv, tail); }
      (q + [':']) + (sv + tail);
      { Assoc(q, [':'], sv + tail); }
      q + ([':'] + (sv + tail));
      { Assoc(['"'] + qc, ['"'], [':'] + (sv + tail)); }
      (['"'] + qc) + (['"'] + ([':'] + (sv + tail)));
      { Assoc(['"'], qc, ['"'] + ([':'] + (sv + tail))); }
      ['"'] + (qc + (['"'] + ([':'] + (sv + tail))));
      { Assoc(qc, ['"'], [':'] + (sv + tail)); }
      ['"'] + (qc + ['"'] + ([':'] + (sv + tail)));
    }
  }

  /** The first member of an object's text reads back as its first
      property; the parser then continues with the remaining members. */
  lemma MembersFirst(ms: seq<Member>, acc: seq<Member>, rest: string)
    requires |ms| > 0
    requires Distinct(Keys(acc + ms))
    requires WellFormed(ms[0].value)
    ensures ParseMembers(StringifyMembers(ms) + rest, acc)
            == if |ms| == 1 then Success((JObj(acc + [ms[0]]), rest))
               else ParseMembers(StringifyMembers(ms[1..]) + rest, acc + [ms[0]])
    decreases ms, 1
  {
    var m := ms[0];
    var tail := if |ms| == 1 then ['}'] + rest else [','] + (StringifyMembers(ms[1..]) + rest);
    var afterKey := [':'] + (Stringify(m.value) + tail);
    var s := StringifyMembers(ms) + rest;
    MembersText(ms, rest);
    assert s[0] == '"' && s[1..] == QuoteChars(m.key) + ['"'] + afterKey;
    QuoteRoundTrip(m.key, afterKey);
    assert afterKey[1..] == Stringify(m.value) + tail;
    ValueRoundTrip(m.value, tail);
    KeyNotBefore(acc, ms);
    MemberStep(s, acc, m.key, afterKey, m.value, tail);
    if |ms| == 1 {
      assert tail[0] == '}' && tail[1..] == rest;
    } else {
      assert tail[0] == ',' && tail[1..] == StringifyMembers(ms[1..]) + rest;
    }
  }

  lemma {:induction false} MembersRoundTrip(ms: seq<Member>, acc: seq<Member>, rest: string)
    requires |ms| > 0
    requires Distinct(Keys(acc + ms))
    requires forall i :: 0 <= i < |ms| ==> WellFormed(ms[i].value)
    ensures ParseMembers(StringifyMembers(ms) + rest, acc) == Success((JObj(acc + ms), rest))
    decreases ms, 2
  {
    MembersFirst(ms, acc, rest);
    if |ms| == 1 {
      assert [ms[0]] == ms;
    } else {
      var acc', tl := acc + [ms[0]], ms[1..];
      assert acc' + tl == acc + ms by {
        assert [ms[0]] + tl == ms;
        assert (acc + [ms[0]]) + tl == acc + ([ms[0]] + tl);
      }
      assert forall i :: 0 <= i < |tl| ==> tl[i] == ms[i + 1];
      MembersRoundTrip(tl, acc', rest);
    }
  }

  /** `JSON.parse(JSON.stringify(j))` is `j` for every value whose objects
      have distinct property names: nothing is dropped, reordered or
      changed. */
  lemma ParseStringify(j: Json)
    requires WellFormed(j)
    ensures Parse(Stringify(j)) == Success(j)
  {
    ValueRoundTrip(j, []);
    assert Stringify(j) + [] == Stringify(j);
  }
}

=== FILE: json_value.dfy ===
/** The JavaScript values the bulletin document is made of: `null`, booleans,
    strings, arrays and plain objects (JSON in the sense of RFC 8259 without
    numbers). An object is the ordered list of its own properties, in the
    order JavaScript enumerates them, which is the order `JSON.stringify`
    writes them. */
module JsonValue {
  import opened Wrappers

  datatype Json =
    | JNull
    | JBool(b: bool)
    | JStr(s: string)
    | JArr(elems: seq<Json>)
    | JObj(members: seq<Member>)

  /** One own property of an object. */
  datatype Member = Member(key: string, value: Json)

  /** The property names of an object, in enumeration order. */
  function Keys(ms: seq<Member>): (ks: seq<string>)
    ensures |ks| == |ms|
    ensures forall i :: 0 <= i < |ms| ==> ks[i] == ms[i].key
  {
    if |ms| == 0 then [] else [ms[0].key] + Keys(ms[1..])
  }

  predicate Distinct(ks: seq<string>)
  {
    forall i, j :: 0 <= i < j < |ks| ==> ks[i] != ks[j]
  }

  /** Every object in the tree has pairwise distinct property names, as
      every JavaScript object does. */
  predicate WellFormed(j: Json)
    decreases j
  {
    match j
    case JArr(es) => forall i :: 0 <= i < |es| ==> WellFormed(es[i])
    case JObj(ms) =>
      && Distinct(Keys(ms))
      && forall i :: 0 <= i < |ms| ==> WellFormed(ms[i].value)
    case _ => true
  }

  /** Property read `o[k]`; `None` is `undefined`. The first property with
      that name is found (objects have only one). */
  function Get(ms: seq<Member>, k: string): (r: Option<Json>)
    ensures r.None? <==> k !in Keys(ms)
  {
    if |ms| == 0 then None
    else if ms[0].key == k then Some(ms[0].value)
    else Get(ms[1..], k)
  }

  /** Property write `o[k] = v`, and equally the object literal
      `{...o, [k]: v}`: an existing property keeps its position and takes
      the new value; a new property is appended after all others. */
  function Put(ms: seq<Member>, k: string, v: Json): (r: seq<Member>)
    ensures Get(r, k) == Some(v)
    ensures forall k' :: k' != k ==> Get(r, k') == Get(ms, k')
  {
    if |ms| == 0 then [Member(k, v)]
    else if ms[0].key == k then [Member(k, v)] + ms[1..]
    else [ms[0]] + Put(ms[1..], k, v)
  }

  /** Writing an existing property keeps the names and their order. */
  lemma {:induction false} PutExisting(ms: seq<Member>, k: string, v: Json)
    requires Get(ms, k).Some?
    ensures Keys(Put(ms, k, v)) == Keys(ms)
  {
    if ms[0].key != k {
      PutExisting(ms[1..], k, v);
      assert Keys(Put(ms, k, v)) == [ms[0].key] + Keys(Put(ms[1..], k, v));
    }
  }

  /** Writing a new property appends it. */
  lemma {:induction false} PutNew(ms: seq<Member>, k: string, v: Json)
    requires Get(ms, k).None?
    ensures Put(ms, k, v) == ms + [Member(k, v)]
  {
    if |ms| > 0 {
      var m, tl := ms[0], ms[1..];
      PutNew(tl, k, v);
      assert Put(ms, k, v) == [m] + (tl + [Member(k, v)]);
      assert ms == [m] + tl;
    }
  }

  /** The decimal name of the `n`-th index property of a string or an
      array, as `String(n)` writes it. */
  function IndexName(n: nat): (s: string)
    ensures |s| >= 1 && forall i :: 0 <= i < |s| ==> '0' <= s[i] <= '9'
    ensures |s| == 1 <==> n < 10
  {
    if n < 10 then [(48 + n) as char] else IndexName(n / 10) + [(48 + n % 10) as char]
  }

  /** Different positions have different names. */
  lemma {:induction false} IndexNameInjective(m: nat, n: nat)
    requires IndexName(m) == IndexName(n)
    ensures m == n
  {
    if m >= 10 && n >= 10 {
      var a, b := IndexName(m), IndexName(n);
      assert a[..|a| - 1] == IndexName(m / 10);
      assert b[..|b| - 1] == IndexName(n / 10);
      IndexNameInjective(m / 10, n / 10);
      assert a[|a| - 1] == b[|b| - 1];
    }
  }

  /** The properties a spread copies from a string or an array: one per
      position, named by its index. */
  function IndexMembers(vs: seq<Json>): (ms: seq<Member>)
    ensures |ms| == |vs|
    ensures forall i :: 0 <= i < |vs| ==> ms[i] == Member(IndexName(i), vs[i])
  {
    if |vs| == 0 then [] else IndexMembers(vs[..|vs| - 1]) + [Member(IndexName(|vs| - 1), vs[|vs| - 1])]
  }

  /** The one-character strings of a string, position by position. */
  function Characters(s: string): (cs: seq<Json>)
    ensures |cs| == |s|
    ensures forall i :: 0 <= i < |s| ==> cs[i] == JStr([s[i]])
  {
    if |s| == 0 then [] else Characters(s[..|s| - 1]) + [JStr([s[|s| - 1]])]
  }

  /** The index properties of a string or an array have distinct names
      and each name reads back its own position. */
  lemma IndexMembersRead(vs: seq<Json>)
    ensures Distinct(Keys(IndexMembers(vs)))
    ensures forall i :: 0 <= i < |vs| ==> Get(IndexMembers(vs), IndexName(i)) == Some(vs[i])
  {
    var ms := IndexMembers(vs);
    IndexMembersDistinct(vs);
    forall i | 0 <= i < |vs|
      ensures Get(ms, IndexName(i)) == Some(vs[i])
    {
      assert ms[i] == Member(IndexName(i), vs[i]);
      GetDistinct(ms, i);
    }
  }

  lemma IndexMembersDistinct(vs: seq<Json>)
    ensures Distinct(Keys(IndexMembers(vs)))
  {
    var ms := IndexMembers(vs);
    var ks := Keys(ms);
    forall i, j | 0 <= i < j < |ks|
      ensures ks[i] != ks[j]
    {
      assert ks[i] == IndexName(i) && ks[j] == IndexName(j);
      if ks[i] == ks[j] {
        IndexNameInjective(i, j);
      }
    }
  }

  /** The own enumerable properties copied by a spread `{...o}`, in order.
      Spreading `undefined`, `null` or a boolean copies nothing; a string
      or an array gives one property per position, named by its index. */
  function Spread(o: Option<Json>): seq<Member>
  {
    match o
    case Some(JObj(ms)) => ms
    case Some(JStr(s)) => IndexMembers(Characters(s))
    case Some(JArr(es)) => IndexMembers(es)
    case _ => []
  }

  /** Values whose spread copies exactly the named properties `Prop`
      reads: objects, and values with no properties at all. */
  predicate Spreadable(o: Option<Json>)
  {
    o.None? || o.value.JNull? || o.value.JBool? || o.value.JObj?
  }

  /** Property read on any value: only objects have named properties. */
  function Prop(o: Option<Json>, k: string): Option<Json>
  {
    match o
    case Some(JObj(ms)) => Get(ms, k)
    case _ => None
  }

  /** `{...o, [k]: v}` */
  function With(o: Option<Json>, k: string, v: Json): Json
  {
    JObj(Put(Spread(o), k, v))
  }

  /** `{...o, [k]: v}` is an object holding `v` under `k` and every other
      property of `o`. */
  lemma WithProps(o: Option<Json>, k: string, v: Json)
    requires Spreadable(o)
    ensures With(o, k, v).JObj?
    ensures Get(With(o, k, v).members, k) == Some(v)
    ensures forall k' :: k' != k ==> Get(With(o, k, v).members, k') == Prop(o, k')
  {
  }

  /** The value reached from `j` by reading the properties in `path` one
      after the other; `None` as soon as a step finds no such property. */
  function Lookup(j: Json, path: seq<string>): Option<Json>
    decreases |path|
  {
    if |path| == 0 then Some(j)
    else
      match Prop(Some(j), path[0])
      case None => None
      case Some(c) => Lookup(c, path[1..])
  }

  /** Reading two properties in a row. */
  lemma LookupTwo(j: Json, a: string, b: string)
    ensures Lookup(j, [a, b]) == if Prop(Some(j), a).Some? then Prop(Prop(Some(j), a), b) else None
  {
    assert [a, b][1..] == [b];
    assert [b][1..] == [];
    match Prop(Some(j), a)
    case None =>
    case Some(c) =>
      match Prop(Some(c), b)
      case None =>
      case Some(x) => assert Lookup(x, []) == Some(x);
  }

  /** Reading three properties in a row. */
  lemma LookupThree(j: Json, a: string, b: string, c: string)
    ensures Prop(Some(j), a).Some? ==> Lookup(j, [a, b, c]) == Lookup(Prop(Some(j), a).value, [b, c])
  {
    assert [a, b, c][1..] == [b, c];
  }

  predicate IsScalar(j: Json)
  {
    j.JNull? || j.JBool? || j.JStr?
  }

  /** With distinct names, reading the name of any property finds that
      property. */
  lemma {:induction false} GetDistinct(ms: seq<Member>, i: nat)
    requires Distinct(Keys(ms)) && i < |ms|
    ensures Get(ms, ms[i].key) == Some(ms[i].value)
  {
    if i > 0 {
      assert Keys(ms)[0] != Keys(ms)[i];
      assert Keys(ms[1..]) == Keys(ms)[1..];
      GetDistinct(ms[1..], i - 1);
    }
  }

  lemma KeysAppend(a: seq<Member>, b: seq<Member>)
    ensures Keys(a + b) == Keys(a) + Keys(b)
  {
    var l, r := Keys(a + b), Keys(a) + Keys(b);
    forall i | 0 <= i < |l|
      ensures l[i] == r[i]
    {
      if i < |a| {
        assert l[i] == (a + b)[i].key == a[i].key;
      } else {
        assert l[i] == (a + b)[i].key == b[i - |a|].key;
      }
    }
  }

  /** Reading a property of two member lists put together finds it in
      the first when it is there and in the second otherwise. */
  lemma {:induction false} GetAppend(a: seq<Member>, b: seq<Member>, k: string)
    ensures Get(a + b, k) == if k in Keys(a) then Get(a, k) else Get(b, k)
  {
    if |a| > 0 {
      assert (a + b)[1..] == a[1..] + b;
      GetAppend(a[1..], b, k);
    } else {
      assert a + b == b;
    }
  }

  /** An object literal whose property names are pairwise different: its
      names are distinct and each reads back its own value. */
  lemma ObjectLiteral(ms: seq<Member>)
    requires forall i, j :: 0 <= i < j < |ms| ==> ms[i].key != ms[j].key
    ensures Distinct(Keys(ms))
    ensures forall i :: 0 <= i < |ms| ==> Get(ms, ms[i].key) == Some(ms[i].value)
  {
    forall i | 0 <= i < |ms|
      ensures Get(ms, ms[i].key) == Some(ms[i].value)
    {
      GetDistinct(ms, i);
    }
  }

  /** A property write keeps every other property and a write of a value
      already there changes nothing. */
  lemma {:induction false} PutSame(ms: seq<Member>, k: string)
    requires k in Keys(ms)
    ensures Put(ms, k, Get(ms, k).value) == ms
  {
    if ms[0].key != k {
      PutSame(ms[1..], k);
    }
  }

  /** Writing the same property twice is the same as writing it once with
      the later value. */
  lemma {:induction false} PutPut(ms: seq<Member>, k: string, v: Json, w: Json)
    ensures Put(Put(ms, k, v), k, w) == Put(ms, k, w)
  {
    if |ms| > 0 && ms[0].key != k {
      PutPut(ms[1..], k, v, w);
    }
  }

  lemma DistinctSnoc(ks: seq<string>, k: string)
    requires Distinct(ks) && k !in ks
    ensures Distinct(ks + [k])
  {
    var r := ks + [k];
    forall i, j | 0 <= i < j < |r|
      ensures r[i] != r[j]
    {
      if j == |ks| {
        assert r[i] == ks[i] && r[j] == k;
      } else {
        assert r[i] == ks[i] && r[j] == ks[j];
      }
    }
  }

  /** A property write keeps the names distinct; it grows the object by
      one exactly when the name is new. */
  lemma DistinctPut(ms: seq<Member>, k: string, v: Json)
    requires Distinct(Keys(ms))
    ensures Distinct(Keys(Put(ms, k, v)))
    ensures |Put(ms, k, v)| == |ms| + (if k in Keys(ms) then 0 else 1)
  {
    if k in Keys(ms) {
      PutExisting(ms, k, v);
    } else {
      PutNew(ms, k, v);
      KeysAppend(ms, [Member(k, v)]);
      assert Keys([Member(k, v)]) == [k];
      DistinctSnoc(Keys(ms), k);
    }
  }

  /** Every property name of the object is one of `ks`. */
  predicate KeysWithin(ms: seq<Member>, ks: seq<string>)
  {
    forall i :: 0 <= i < |ms| ==> ms[i].key in ks
  }

  /** The names after a write: the same names when the name was there,
      otherwise the name appended. */
  lemma PutKeys(ms: seq<Member>, k: string, v: Json)
    ensures Keys(Put(ms, k, v)) == if k in Keys(ms) then Keys(ms) else Keys(ms) + [k]
  {
    if k in Keys(ms) {
      PutExisting(ms, k, v);
    } else {
      PutNew(ms, k, v);
      KeysAppend(ms, [Member(k, v)]);
    }
  }

  /** An object literal whose names, in order, are the distinct names `ks`. */
  lemma LiteralKeys(ms: seq<Member>, ks: seq<string>)
    requires Keys(ms) == ks && Distinct(ks)
    ensures Distinct(Keys(ms)) && KeysWithin(ms, ks)
  {
  }

  /** Writing one of the allowed names keeps the names allowed. */
  lemma KeysWithinPut(ms: seq<Member>, k: string, v: Json, ks: seq<string>)
    requires KeysWithin(ms, ks) && k in ks
    ensures KeysWithin(Put(ms, k, v), ks)
  {
    var r := Put(ms, k, v);
    if k in Keys(ms) {
      PutExisting(ms, k, v);
      assert forall i :: 0 <= i < |r| ==> r[i].key == Keys(r)[i] == Keys(ms)[i];
    } else {
      PutNew(ms, k, v);
    }
  }

  /** A name outside the allowed ones is absent. */
  lemma AbsentOutside(ms: seq<Member>, ks: seq<string>, k: string)
    requires KeysWithin(ms, ks) && k !in ks
    ensures Get(ms, k).None?
  { }

  /** An object is well-formed when its names are distinct and each of the
      names it may have, where present, holds a well-formed value. */
  lemma WellFormedObject(ms: seq<Member>, ks: seq<string>)
    requires Distinct(Keys(ms)) && KeysWithin(ms, ks)
    requires forall k :: k in ks && Get(ms, k).Some? ==> WellFormed(Get(ms, k).value)
    ensures WellFormed(JObj(ms))
  {
    forall i | 0 <= i < |ms|
      ensures WellFormed(ms[i].value)
    {
      GetDistinct(ms, i);
    }
  }
}

=== FILE: share_codec.dfy ===
/** The share-link token: the document is serialised to JSON text, the text
    is percent-encoded and the result is written in base64. Reading a token
    undoes the three stages in reverse order, and any stage may throw. */
module ShareCodec {
  import opened Wrappers
  import opened JsonValue
  import JsonText
  import UriComponent
  import Base64

  /** `btoa(encodeURIComponent(JSON.stringify(d)))`. Percent-encoding leaves
      only ASCII, so `btoa` never throws, whatever the document holds. */
  function Encode(d: Json): (r: Result<string, Exception>)
    ensures r.Success?
    ensures |r.value| % 4 == 0
    ensures forall i :: 0 <= i < |r.value| ==> Base64.IsBase64Char(r.value[i]) || r.value[i] == '='
  {
    var text := UriComponent.Encode(JsonText.Stringify(d));
    assert Base64.IsLatin1(text);
    Base64.Btoa(text)
  }

  /** `JSON.parse(decodeURIComponent(atob(t)))`: the first stage to throw
      decides the exception. */
  function Decode(token: string): (r: Result<Json, Exception>)
    ensures Base64.Atob(token).Failure? ==> r == Failure(InvalidCharacterError)
    ensures Base64.Atob(token).Success? && UriComponent.Decode(Base64.Atob(token).value).Failure?
            ==> r == Failure(URIError)
  {
    var text :- Base64.Atob(token);
    var json :- UriComponent.Decode(text);
    JsonText.Parse(json)
  }

  /** Reading a token gives back exactly the document it was made from. */
  lemma DecodeEncode(d: Json)
    requires WellFormed(d)
    ensures Decode(Encode(d).value) == Success(d)
  {
    var json := JsonText.Stringify(d);
    var text := UriComponent.Encode(json);
    Base64.AtobBtoa(text);
    UriComponent.DecodeEncode(json);
    JsonText.ParseStringify(d);
  }

  /** The empty token is not the token of any document: it reads as the
      empty JSON text, which `JSON.parse` rejects. */
  lemma DecodeEmpty()
    ensures Decode("") == Failure(SyntaxError)
  {
    assert Base64.Atob("") == Success("");
    assert UriComponent.Decode("") == Success("");
  }

  /** So every token is non-empty, which is what makes the startup effect
      look at it at all. */
  lemma EncodeNonEmpty(d: Json)
    requires WellFormed(d)
    ensures Encode(d).value != ""
  {
    DecodeEncode(d);
    DecodeEmpty();
  }

  /** Tokens are never confused: two documents with the same token are the
      same document. */
  lemma EncodeInjective(d: Json, e: Json)
    requires WellFormed(d) && WellFormed(e)
    requires Encode(d) == Encode(e)
    ensures d == e
  {
    DecodeEncode(d);
    DecodeEncode(e);
  }

  /** A string of characters that neither `JSON.stringify` nor
      `encodeURIComponent` escapes reaches `btoa` between two `%22`. */
  lemma EncodePlainString(s: string)
    requires forall i :: 0 <= i < |s| ==> UriComponent.Unescaped(s[i])
    ensures Encode(JStr(s)) == Base64.Btoa("%22" + s + "%22")
  {
    JsonText.QuotePlain(s);
    UriComponent.EncodeQuoted(s);
  }

  /** The text `ab~c`, character by character. */
  predicate IsSample(t: string): (b: bool)
    ensures b <==> t == "ab~c"
  {
    |t| == 4 && t[0] == 'a' && t[1] == 'b' && t[2] == '~' && t[3] == 'c'
  }

  /** The text `JSON.stringify` and `encodeURIComponent` make of `ab~c`. */
  lemma QuotedSample(t: string)
    requires IsSample(t)
    ensures var s := "%22" + t + "%22";
      |s| == 10 && s[0] == '%' && s[1] == '2' && s[2] == '2' && s[3] == 'a' && s[4] == 'b' &&
      s[5] == '~' && s[6] == 'c' && s[7] == '%' && s[8] == '2' && s[9] == '2'
  {
  }

  /** The token of the text `ab~c` holds a `+`. */
  lemma EncodeSample(t: string)
    requires IsSample(t)
    ensures Encode(JStr(t)) == Success("JTIyYWJ+YyUyMg==")
  {
    var s := "%22" + t + "%22";
    assert Encode(JStr(t)) == Base64.Btoa(s) by {
      assert forall i :: 0 <= i < |t| ==> UriComponent.Unescaped(t[i]);
      EncodePlainString(t);
    }
    assert Base64.Btoa(s) == Success("JTIyYWJ+YyUyMg==") by {
      QuotedSample(t);
      Base64.BtoaTilde(s);
    }
  }

  /** That token with its `+` turned into a space does not decode: `atob`
      drops the space and is left with 15 characters ending in padding. */
  lemma DecodeSampleSpaced(token: string)
    requires token == "JTIyYWJ YyUyMg=="
    ensures Decode(token) == Failure(InvalidCharacterError)
  {
    Base64.RemoveWhitespaceTilde(token);
    Base64.AtobStrandedPadding(token);
  }
}

=== FILE: uri_component.dfy ===
/** ECMAScript's `encodeURIComponent` and `decodeURIComponent` (ECMA-262,
    the Encode and Decode abstract operations of section 19.2.6): text is
    turned into UTF-8 octets (RFC 3629) and every octet of a character
    outside the unescaped set is written in the `%XX` form of section 2.1 of
    RFC 3986. */
module UriComponent {
  import opened Wrappers
  import Hex
  import Utf8

  /** The characters `encodeURIComponent` leaves alone: ASCII letters and
      digits and `- _ . ! ~ * ' ( )`. */
  predicate Unescaped(c: char)
  {
    || 'A' <= c <= 'Z' || 'a' <= c <= 'z' || '0' <= c <= '9'
    || c == '-' || c == '_' || c == '.' || c == '!' || c == '~'
    || c == '*' || c == '\'' || c == '(' || c == ')'
  }

  predicate IsAscii(s: string)
  {
    forall i :: 0 <= i < |s| ==> (s[i] as int) < 0x80
  }

  /** `%XX` with upper-case hex digits. */
  function Escape(b: Utf8.byte): string
  {
    ['%', Hex.UpperDigit(b as int / 16), Hex.UpperDigit(b as int % 16)]
  }

  function EscapeAll(bs: seq<Utf8.byte>): (t: string)
    ensures |t| == 3 * |bs|
    ensures forall i :: 0 <= i < |t| ==> Unescaped(t[i]) || t[i] == '%'
  {
    if |bs| == 0 then [] else Escape(bs[0]) + EscapeAll(bs[1..])
  }

  function EncodeChar(c: char): string
  {
    if Unescaped(c) then [c] else EscapeAll(Utf8.EncodeChar(c))
  }

  /** `encodeURIComponent(s)`. Its output uses only unescaped characters and
      `%`, so it is plain ASCII. */
  function Encode(s: string): (t: string)
    ensures forall i :: 0 <= i < |t| ==> Unescaped(t[i]) || t[i] == '%'
    ensures IsAscii(t)
  {
    if |s| == 0 then [] else EncodeChar(s[0]) + Encode(s[1..])
  }

  /** The octet written as `%XX` at the start of `s`, if that is what `s`
      starts with. */
  function EscapedOctet(s: string): Option<Utf8.byte>
  {
    if |s| >= 3 && s[0] == '%' then
      match (Hex.DigitValue(s[1]), Hex.DigitValue(s[2]))
      case (Some(h), Some(l)) => Some((h * 16 + l) as Utf8.byte)
      case _ => None
    else None
  }

  /** The continuation octets of a multi-octet character, each written as
      `%XX` and each of the form 10xxxxxx; `None` if any is not. */
  function Continuations(s: string): Option<seq<Utf8.byte>>
    decreases |s|
  {
    if |s| == 0 then Some([])
    else
      match EscapedOctet(s)
      case None => None
      case Some(b) =>
        if !Utf8.IsContinuation(b) then None
        else
          match Continuations(s[3..])
          case None => None
          case Some(bs) => Some([b] + bs)
  }

  /** `decodeURIComponent(s)`. Characters other than `%` are copied; an
      escape below `%80` is one ASCII character; a higher escape must be the
      lead octet of a UTF-8 sequence of 2 to 4 octets, all escaped, that
      decodes to a scalar value. Anything else throws URIError. */
  function Decode(s: string): (r: Result<string, Exception>)
    ensures r.Success? ==> |r.value| <= |s|
    ensures r.Failure? ==> r.error == URIError
    decreases |s|
  {
    if |s| == 0 then Success([])
    else if s[0] != '%' then
      var t :- Decode(s[1..]);
      Success([s[0]] + t)
    else
      match EscapedOctet(s)
      case None => Failure(URIError)
      case Some(b) =>
        if b < 0x80 then
          var t :- Decode(s[3..]);
          Success([b as int as char] + t)
        else
          var n := Utf8.LeadingOnes(b);
          if n == 1 || n > 4 || |s| < 3 * n then Failure(URIError)
          else
            match Continuations(s[3..3 * n])
            case None => Failure(URIError)
            case Some(tail) =>
              match Utf8.DecodeChar([b] + tail)
              case None => Failure(URIError)
              case Some(c) =>
                var t :- Decode(s[3 * n..]);
                Success([c] + t)
  }

  lemma EscapedOctetOfEscape(b: Utf8.byte, rest: string)
    ensures EscapedOctet(Escape(b) + rest) == Some(b)
  {
  }

  lemma {:induction false} ContinuationsOfEscapeAll(bs: seq<Utf8.byte>)
    requires forall i :: 0 <= i < |bs| ==> Utf8.IsContinuation(bs[i])
    ensures Continuations(EscapeAll(bs)) == Some(bs)
  {
    if |bs| > 0 {
      var t := EscapeAll(bs);
      EscapedOctetOfEscape(bs[0], EscapeAll(bs[1..]));
      assert t[3..] == EscapeAll(bs[1..]);
      ContinuationsOfEscapeAll(bs[1..]);
      assert [bs[0]] + bs[1..] == bs;
    }
  }

  /** One step of the decoder over a multi-octet escape sequence. */
  lemma DecodeSequenceStep(s: string, b: Utf8.byte, tail: seq<Utf8.byte>, c: char)
    requires EscapedOctet(s) == Some(b) && b >= 0x80
    requires 2 <= Utf8.LeadingOnes(b) <= 4 && |s| >= 3 * Utf8.LeadingOnes(b)
    requires Continuations(s[3..3 * Utf8.LeadingOnes(b)]) == Some(tail)
    requires Utf8.DecodeChar([b] + tail) == Some(c)
    ensures Decode(s)
            == (match Decode(s[3 * Utf8.LeadingOnes(b)..])
                case Success(t) => Success([c] + t)
                case Failure(e) => Failure(e))
  {
  }

  /** The escape of an ASCII character decodes to that character. */
  lemma DecodeEscapedAscii(c: char, rest: string)
    requires (c as int) < 0x80
    ensures Decode(Escape(c as int as Utf8.byte) + rest)
            == (match Decode(rest)
                case Success(t) => Success([c] + t)
                case Failure(e) => Failure(e))
  {
    var s := Escape(c as int as Utf8.byte) + rest;
    EscapedOctetOfEscape(c as int as Utf8.byte, rest);
    assert s[3..] == rest;
  }

  /** The escapes of the octets of a character of two or more octets decode
      to that character. */
  lemma DecodeEscapedSequence(c: char, rest: string)
    requires (c as int) >= 0x80
    ensures Decode(EscapeAll(Utf8.EncodeChar(c)) + rest)
            == (match Decode(rest)
                case Success(t) => Success([c] + t)
                case Failure(e) => Failure(e))
  {
    var bs := Utf8.EncodeChar(c);
    var n := |bs|;
    var s := EscapeAll(bs) + rest;
    assert s == Escape(bs[0]) + (EscapeAll(bs[1..]) + rest);
    EscapedOctetOfEscape(bs[0], EscapeAll(bs[1..]) + rest);
    Utf8.DecodeEncode(c);
    assert s[3..3 * n] == EscapeAll(bs[1..]);
    ContinuationsOfEscapeAll(bs[1..]);
    assert [bs[0]] + bs[1..] == bs;
    assert s[3 * n..] == rest;
    DecodeSequenceStep(s, bs[0], bs[1..], c);
  }

  /** Decoding the encoding of one character gives the character and goes
      on with what follows. */
  lemma DecodeEncodeChar(c: char, rest: string)
    ensures Decode(EncodeChar(c) + rest)
            == (match Decode(rest)
                case Success(t) => Success([c] + t)
                case Failure(e) => Failure(e))
  {
    if Unescaped(c) {
      assert (EncodeChar(c) + rest)[1..] == rest;
    } else if (c as int) < 0x80 {
      assert Utf8.EncodeChar(c) == [c as int as Utf8.byte];
      assert EncodeChar(c) == Escape(c as int as Utf8.byte);
      DecodeEscapedAscii(c, rest);
    } else {
      DecodeEscapedSequence(c, rest);
    }
  }

  /** `decodeURIComponent(encodeURIComponent(s)) == s` for every string of
      scalar values. */
  lemma {:induction false} DecodeEncode(s: string)
    ensures Decode(Encode(s)) == Success(s)
  {
    if |s| > 0 {
      DecodeEncode(s[1..]);
      DecodeEncodeChar(s[0], Encode(s[1..]));
      assert [s[0]] + s[1..] == s;
    }
  }

  /** `encodeURIComponent` works character by character, so two pieces
      encode separately. */
  lemma {:induction false} EncodeAppend(a: string, b: string)
    ensures Encode(a + b) == Encode(a) + Encode(b)
  {
    if |a| > 0 {
      assert (a + b)[1..] == a[1..] + b;
      EncodeAppend(a[1..], b);
    } else {
      assert a + b == b;
    }
  }

  /** Text without `%` is copied unchanged by `decodeURIComponent`. */
  lemma {:induction false} DecodeUnescaped(s: string)
    requires forall i :: 0 <= i < |s| ==> s[i] != '%'
    ensures Decode(s) == Success(s)
  {
    if |s| > 0 {
      DecodeUnescaped(s[1..]);
      assert [s[0]] + s[1..] == s;
    }
  }

  /** Text of unescaped characters only is left as it is. */
  lemma {:induction false} EncodePlain(s: string)
    requires forall i :: 0 <= i < |s| ==> Unescaped(s[i])
    ensures Encode(s) == s
  {
    if |s| > 0 {
      EncodePlain(s[1..]);
      assert [s[0]] + s[1..] == s;
    }
  }

  /** The quote character is written `%22`. */
  lemma EncodeQuote()
    ensures Encode(['"']) == "%22"
  {
  }

  /** A quoted JSON string of unescaped characters keeps its text and has
      each quote written as `%22`. */
  lemma EncodeQuoted(s: string)
    requires forall i :: 0 <= i < |s| ==> Unescaped(s[i])
    ensures Encode(['"'] + s + ['"']) == "%22" + s + "%22"
  {
    EncodePlain(s);
    EncodeQuote();
    EncodeAppend(['"'], s);
    EncodeAppend(['"'] + s, ['"']);
  }
}

=== FILE: utf8.dfy ===
/** UTF-8 as defined in section 3 of RFC 3629: the octets of one Unicode
    scalar value, and the decoding of one octet sequence back to it, which
    refuses overlong forms, surrogates and values above U+10FFFF (the
    sequences section 3 calls invalid and section 10 warns about). */
module Utf8 {
  import opened Wrappers

  type byte = x: int | 0 <= x < 0x100

  predicate IsContinuation(b: byte)
  {
    0x80 <= b < 0xC0
  }

  /** The number of leading one bits of an octet. */
  function LeadingOnes(b: byte): (n: nat)
    ensures n <= 8
  {
    if b < 0x80 then 0
    else if b < 0xC0 then 1
    else if b < 0xE0 then 2
    else if b < 0xF0 then 3
    else if b < 0xF8 then 4
    else if b < 0xFC then 5
    else if b < 0xFE then 6
    else if b < 0xFF then 7
    else 8
  }

  /** The UTF-8 form of one scalar value: one octet below U+0080, otherwise
      a lead octet announcing the length and continuation octets carrying
      six bits each. */
  function EncodeChar(c: char): (bs: seq<byte>)
    ensures 1 <= |bs| <= 4
    ensures |bs| == 1 <==> (c as int) < 0x80
    ensures |bs| > 1 ==> LeadingOnes(bs[0]) == |bs|
    ensures forall i :: 1 <= i < |bs| ==> IsContinuation(bs[i])
  {
    var n := c as int;
    if n < 0x80 then [n as byte]
    else if n < 0x800 then
      [(0xC0 + n / 64) as byte, (0x80 + n % 64) as byte]
    else if n < 0x10000 then
      [(0xE0 + n / 4096) as byte, (0x80 + (n / 64) % 64) as byte, (0x80 + n % 64) as byte]
    else
      [(0xF0 + n / 262144) as byte, (0x80 + (n / 4096) % 64) as byte,
       (0x80 + (n / 64) % 64) as byte, (0x80 + n % 64) as byte]
  }

  /** The scalar value of one complete octet sequence, or `None` when the
      sequence is not the UTF-8 form of any scalar value. */
  function DecodeChar(bs: seq<byte>): Option<char>
  {
    if |bs| == 1 && bs[0] < 0x80 then
      Some(bs[0] as int as char)
    else if |bs| == 2 && LeadingOnes(bs[0]) == 2 && IsContinuation(bs[1]) then
      var n := (bs[0] as int - 0xC0) * 64 + (bs[1] as int - 0x80);
      if 0x80 <= n then Some(n as char) else None
    else if |bs| == 3 && LeadingOnes(bs[0]) == 3 && IsContinuation(bs[1]) && IsContinuation(bs[2]) then
      var n := ((bs[0] as int - 0xE0) * 64 + (bs[1] as int - 0x80)) * 64 + (bs[2] as int - 0x80);
      if 0x800 <= n && !(0xD800 <= n < 0xE000) then Some(n as char) else None
    else if |bs| == 4 && LeadingOnes(bs[0]) == 4 && IsContinuation(bs[1])
            && IsContinuation(bs[2]) && IsContinuation(bs[3]) then
      var n := (((bs[0] as int - 0xF0) * 64 + (bs[1] as int - 0x80)) * 64
               + (bs[2] as int - 0x80)) * 64 + (bs[3] as int - 0x80);
      if 0x10000 <= n < 0x110000 then Some(n as char) else None
    else None
  }

  lemma DecodeEncode2(c: char)
    requires 0x80 <= c as int < 0x800
    ensures DecodeChar(EncodeChar(c)) == Some(c)
  {
    var n := c as int;
    assert (n / 64) * 64 + n % 64 == n;
  }

  lemma DecodeEncode3(c: char)
    requires 0x800 <= c as int < 0x10000
    ensures DecodeChar(EncodeChar(c)) == Some(c)
  {
    var n := c as int;
    assert (n / 4096) * 64 + (n / 64) % 64 == n / 64;
    assert (n / 64) * 64 + n % 64 == n;
  }

  lemma DecodeEncode4(c: char)
    requires 0x10000 <= c as int
    ensures DecodeChar(EncodeChar(c)) == Some(c)
  {
    var n := c as int;
    assert (n / 262144) * 64 + (n / 4096) % 64 == n / 4096;
    assert (n / 4096) * 64 + (n / 64) % 64 == n / 64;
    assert (n / 64) * 64 + n % 64 == n;
  }

  /** Decoding the octets of a scalar value gives the scalar value back. */
  lemma DecodeEncode(c: char)
    ensures DecodeChar(EncodeChar(c)) == Some(c)
  {
    var n := c as int;
    if n < 0x80 {
    } else if n < 0x800 {
      DecodeEncode2(c);
    } else if n < 0x10000 {
      DecodeEncode3(c);
    } else {
      DecodeEncode4(c);
    }
  }

  lemma EncodeDecode2(bs: seq<byte>, c: char)
    requires |bs| == 2 && DecodeChar(bs) == Some(c)
    ensures EncodeChar(c) == bs
  {
    var n := c as int;
    assert n / 64 == bs[0] as int - 0xC0;
    assert n % 64 == bs[1] as int - 0x80;
  }

  lemma EncodeDecode3(bs: seq<byte>, c: char)
    requires |bs| == 3 && DecodeChar(bs) == Some(c)
    ensures EncodeChar(c) == bs
  {
    var n := c as int;
    assert n / 4096 == bs[0] as int - 0xE0;
    assert (n / 64) % 64 == bs[1] as int - 0x80;
    assert n % 64 == bs[2] as int - 0x80;
  }

  lemma EncodeDecode4(bs: seq<byte>, c: char)
    requires |bs| == 4 && DecodeChar(bs) == Some(c)
    ensures EncodeChar(c) == bs
  {
    var n := c as int;
    assert n / 262144 == bs[0] as int - 0xF0;
    assert (n / 4096) % 64 == bs[1] as int - 0x80;
    assert (n / 64) % 64 == bs[2] as int - 0x80;
    assert n % 64 == bs[3] as int - 0x80;
  }

  /** Conversely, a sequence that decodes is the UTF-8 form of what it
      decodes to: there is exactly one accepted spelling of each scalar
      value (no overlong forms). */
  lemma EncodeDecode(bs: seq<byte>, c: char)
    requires DecodeChar(bs) == Some(c)
    ensures EncodeChar(c) == bs
  {
    if |bs| == 2 {
      EncodeDecode2(bs, c);
    } else if |bs| == 3 {
      EncodeDecode3(bs, c);
    } else if |bs| == 4 {
      EncodeDecode4(bs, c);
    }
  }
}

=== FILE: wrappers.dfy ===
/** Failure-compatible wrappers shared by every module, and the kinds of
    exception that the modelled JavaScript built-ins can raise. */
module Wrappers {

  /** A value that may be absent: `undefined`/`null` in the source. */
  datatype Option<+T> = None | Some(value: T) {

    predicate IsFailure() {
      None?
    }

    function PropagateFailure<U>(): Option<U>
      requires None?
    {
      None
    }

    function Extract(): T
      requires Some?
    {
      value
    }
  }

  /** Either a value or the exception a built-in threw. */
  datatype Result<+R, +E> = Success(value: R) | Failure(error: E) {

    predicate IsFailure() {
      Failure?
    }

    function PropagateFailure<U>(): Result<U, E>
      requires Failure?
    {
      Failure(error)
    }

    function Extract(): R
      requires Success?
    {
      value
    }
  }

  /** The exceptions thrown by `JSON.parse` (SyntaxError),
      `decodeURIComponent` (URIError), `atob`/`btoa` (a DOMException named
      InvalidCharacterError) and a property assignment whose target cannot
      hold properties (TypeError). */
  datatype Exception = SyntaxError | URIError | InvalidCharacterError | TypeError
}
